=== FILE: README.md ===
# Media portfolio: a Dafny model of the sync commands, forms and views

This project models the logic of a Django portfolio site in Dafny. It covers:

- the two management commands that reconcile the local database with GitHub
  (`sync_github`) and with Dev.to / Medium (`sync_blog`), and the Celery
  tasks that start them;
- slug generation for projects, categories and synced posts;
- the project model's helpers: thumbnail upload path, tag list, view count,
  likes and the performance-score validators;
- the thumbnail signals that decide when WebP and blur derivatives are made,
  and the names those derivatives get;
- the comment template filters (`days_since`, `comment_depth`,
  `truncate_comment`, `can_moderate_comment`) and the comment views (posting,
  paging, moderation);
- the project views: the like toggle, view counting once per session, the
  AJAX comment loader and the difficulty label;
- the theme view and theme template tags;
- the `BaseModel` defaults and the single-row `SiteSettings` save;
- the category form (slug, parent-cycle check, bulk actions) and the inquiry
  form.

Stores are maps from a row's key to the row, and each run of a command is a
pure function from the database it finds to the database it leaves and its
run log. Calls into code outside the modelled files are parameters:
`slugify`, `datetime.fromisoformat`, `timezone.now`, the HTTP and feed
fetches, the image generators, and Django's date parsing of a posted deadline. The rest of the model never looks inside
them.

Files, one module per component of the site:

| file | modules |
|---|---|
| wrappers.dfy | `Wrappers` (Option, Result), `Clock` (integer instants) |
| text.dfy | `Text`: Python's `str.strip`, `split`, `join` and whitespace word splitting, an ASCII-only `lower`, and integer-to-text conversion |
| core_utils.dfy | `CoreUtils`: `generate_unique_slug` and the suffix loop it shares with `Project.save`; `format_file_size` unit selection |
| projects.dfy | `Projects`: the `Project` and `ProjectLike` models |
| github_sync.dfy | `GitHubSync`: the `sync_github` command |
| blog_sync.dfy | `BlogSync`: the `sync_blog` command |
| tasks.dfy | `Tasks`: the Celery tasks |
| requests.dfy | `Requests` (client address, user agent), `Pagination` (the AJAX comment pages) |
| comments.dfy | `CommentTags`, `CommentViews` |
| project_views.dfy | `ProjectViews` |
| core.dfy | `CoreModels` (`BaseModel`, `SiteSettings`, form errors), `Theme` |
| categories.dfy | `CategoryForms` |
| inquiries.dfy | `InquiryForms` |
| signals.dfy | `ProjectSignals` |

Where the project's own documentation and its code disagree, the model follows
the code. One case matters: a GitHub page request that fails ends the paging
loop quietly. The repositories fetched so far are still synced, and the run
is logged `success`, not `failed`. `GitHubSync.HandleSync` states this.

## Model

| member | source | states |
|---|---|---|
| GitHubSync.AuthHeader | media_portfolio/github/management/commands/sync_github.py:95-97 | the `Authorization` header is sent exactly when a non-empty token is given, as `token <token>` |
| GitHubSync.PageUrlInjective | media_portfolio/github/management/commands/sync_github.py:93-104 | different page numbers request different URLs, so no page is fetched twice |
| GitHubSync.CollectedUpToStop | media_portfolio/github/management/commands/sync_github.py:102-117 | the records fetched are exactly those of the pages before the first empty or failed page, concatenated in order |
| GitHubSync.FetchGitHubRepos | media_portfolio/github/management/commands/sync_github.py:91-117 | the paging loop returns the records of every page before the first stopping page; every page before the last one requested neither failed nor was empty |
| GitHubSync.ParseDates | media_portfolio/github/management/commands/sync_github.py:55-57 | the three timestamps parse when all three do; otherwise the first failure's text is the error |
| GitHubSync.FetchLanguages | media_portfolio/github/management/commands/sync_github.py:119-131 | a failed languages request yields `{}`, a successful one yields its JSON |
| GitHubSync.RepoRow | media_portfolio/github/management/commands/sync_github.py:42-58 | a null description, homepage or language is stored as `''`; the counts, names and URLs are copied from the record |
| GitHubSync.StackAfter | media_portfolio/github/management/commands/sync_github.py:144-145 | the technical stack becomes `[language]` only when it was empty and the language is non-empty; otherwise it is kept |
| GitHubSync.Propagate | media_portfolio/github/management/commands/sync_github.py:133-149 | every project whose GitHub URL contains the full name, ignoring case, gets the stars, forks and sync time; no other project changes and none is added |
| GitHubSync.PropagateIdempotent | media_portfolio/github/management/commands/sync_github.py:136-147 | pushing the same record twice leaves the projects as pushing it once |
| GitHubSync.SyncRecord | media_portfolio/github/management/commands/sync_github.py:36-73 | a fork changes nothing; any other record fails exactly when its dates fail, and otherwise is upserted by full name, counted as created when its key was new, and pushed to the projects |
| GitHubSync.NonForks | media_portfolio/github/management/commands/sync_github.py:38-39 | the records kept are exactly the non-forks, in order |
| GitHubSync.SyncSkipsForks | media_portfolio/github/management/commands/sync_github.py:38-39 | removing the forks from the input changes neither the store, the counters, the projects nor the error |
| GitHubSync.SyncErrorIsFirstFailure | media_portfolio/github/management/commands/sync_github.py:30-89 | the loop fails exactly on the first non-fork record whose dates do not parse, with that record's error |
| GitHubSync.SyncCounts | media_portfolio/github/management/commands/sync_github.py:67-70 | on success `created + updated` grows by the number of non-fork records |
| GitHubSync.SyncKeys | media_portfolio/github/management/commands/sync_github.py:42-59 | on success the store holds its old keys plus one key per distinct non-fork full name, so no repository is duplicated |
| GitHubSync.SyncCreatedIsGrowth | media_portfolio/github/management/commands/sync_github.py:67-70 | `created` grows by exactly the number of new rows, whether the loop succeeds or fails |
| GitHubSync.SyncRerun | media_portfolio/github/management/commands/sync_github.py:36-70 | running the loop again on the records of a successful run creates nothing and keeps the key set |
| GitHubSync.SyncProjectKeys | media_portfolio/github/management/commands/sync_github.py:133-149 | the loop never adds or removes a project |
| GitHubSync.StartLog | media_portfolio/github/management/commands/sync_github.py:28 | the run log starts `in_progress` with zero counts |
| GitHubSync.FinishLog | media_portfolio/github/management/commands/sync_github.py:75-87 | the log ends `success` with both counts, or `failed` with the error text and the counts as they started |
| GitHubSync.HandleSync | media_portfolio/github/management/commands/sync_github.py:22-89 | the log moves once from `in_progress` to a final status; the run succeeds exactly when no fetched record's dates fail, however the paging ended |
| BlogSync.ErrorText | media_portfolio/blog/management/commands/sync_blog.py:40-41 | an unsupported source is reported as `Unsupported source: <source>`; a slug collision as the unique-constraint failure on `blog_blogpost.slug` |
| BlogSync.Written | media_portfolio/blog/management/commands/sync_blog.py:82-98 | the row after an upsert takes every default, is published, and keeps the columns the defaults do not name |
| BlogSync.Upsert | media_portfolio/blog/management/commands/sync_blog.py:82-98 | the upsert is keyed by `external_id` alone; it fails exactly when another row holds the slug, and reports `created` exactly when the key was new |
| BlogSync.UpsertKeepsSlugsUnique | media_portfolio/blog/models.py:16 | an upsert that succeeds keeps slugs unique across the table |
| BlogSync.UpsertAllCounts | media_portfolio/blog/management/commands/sync_blog.py:100-103 | on success `created + updated` grows by the number of items |
| BlogSync.UpsertAllKeys | media_portfolio/blog/management/commands/sync_blog.py:74-105 | on success the table holds its old keys plus one key per distinct item key |
| BlogSync.UpsertAllCreatedIsGrowth | media_portfolio/blog/management/commands/sync_blog.py:100-103 | `created` grows by exactly the number of new rows, also when the loop stops on an error |
| BlogSync.UpsertAllGrows | media_portfolio/blog/management/commands/sync_blog.py:74-105 | no row is ever removed, and rows written before an exception stay written |
| BlogSync.UpsertAllKnownKeys | media_portfolio/blog/management/commands/sync_blog.py:151-154 | when every key is already stored, nothing is created and the key set is unchanged |
| BlogSync.UpsertAllRerun | media_portfolio/blog/management/commands/sync_blog.py:74-105 | rerunning a successful loop on the same items creates nothing |
| BlogSync.SyncSlug | media_portfolio/blog/management/commands/sync_blog.py:76 | the slug is the first at most 350 characters of `slugify(title)`, with no suffix added |
| BlogSync.DevtoUrl | media_portfolio/blog/management/commands/sync_blog.py:64 | Dev.to is asked for `per_page=<limit>` articles of the user |
| BlogSync.MediumUrl | media_portfolio/blog/management/commands/sync_blog.py:113 | the Medium feed URL is `https://medium.com/feed/@<username>` |
| BlogSync.PrepareDevto | media_portfolio/blog/management/commands/sync_blog.py:74-98 | a Dev.to post is keyed by its stringified id; its title, URL, author, read time and counts are written as given, the slug is the cut slugified title, the publication time is the parsed `published_at` with `Z` read as `+00:00`; a missing description or cover becomes `''`; a bad date is the item's error |
| BlogSync.MediumReadTime | media_portfolio/blog/management/commands/sync_blog.py:146 | the read time is the whitespace word count of the first content value divided by 200, and 0 when there is no content |
| BlogSync.MediumReadTimeOfWords | media_portfolio/blog/management/commands/sync_blog.py:146 | a text of n single-spaced words reads in `n / 200` minutes |
| BlogSync.MediumCover | media_portfolio/blog/management/commands/sync_blog.py:130-132 | the cover is the `url` of the first media item, `''` when there is none |
| BlogSync.PrepareMedium | media_portfolio/blog/management/commands/sync_blog.py:121-148 | a Medium entry is keyed by its id; its title, link and parsed publication time are written; the excerpt is the summary cut to 300 characters; the author is the username; no reaction or comment counts are written; a missing `published_parsed` raises the `AttributeError`, a `None` one (an unreadable date) the `TypeError`, and an empty content list the `IndexError` |
| BlogSync.MediumBatch | media_portfolio/blog/management/commands/sync_blog.py:121 | Medium processes Python's slice `entries[:limit]`, so at most `limit` entries for a non-negative limit |
| BlogSync.SyncDevto | media_portfolio/blog/management/commands/sync_blog.py:62-109 | a failed request ends the run with that error; otherwise every post is upserted in order |
| BlogSync.SyncMedium | media_portfolio/blog/management/commands/sync_blog.py:111-160 | the first `limit` entries are upserted in order |
| BlogSync.StartLog | media_portfolio/blog/management/commands/sync_blog.py:30-33 | the log is created `in_progress` with the source and zero counts |
| BlogSync.SyncSource | media_portfolio/blog/management/commands/sync_blog.py:36-41 | `devto` and `medium` choose their loop; any other source fails without touching the table |
| BlogSync.Finish | media_portfolio/blog/management/commands/sync_blog.py:43-58 | the log ends `success` with both counts or `failed` with the message; rows already written stay |
| BlogSync.HandleBlogSync | media_portfolio/blog/management/commands/sync_blog.py:23-60 | the log moves once to a final status; the cache is cleared exactly on success; an unsupported source always fails |
| BlogSync.SourceOverwritten | media_portfolio/blog/management/commands/sync_blog.py:82-87 | a Dev.to post whose id matches a row imported from Medium overwrites it in place, source included |
| BlogSync.TitleCollisionFails | media_portfolio/blog/management/commands/sync_blog.py:76-98 | two posts with different keys whose titles slugify alike make the second upsert fail, and so the run |
| Tasks.GitHubTask | media_portfolio/github/tasks.py:9-28 | the argument is used when non-empty, else the configured username; with neither, no command runs; the configured token is always passed |
| Tasks.GitHubTaskNamesAccount | media_portfolio/github/tasks.py:16-23 | a command, when one runs, never names an empty account |
| Tasks.BlogTask | media_portfolio/blog/tasks.py:9-32 | a Dev.to sync for the argument or the configured Dev.to user; failing both, a Medium sync for the configured Medium user; failing that, nothing |
| Tasks.BlogTaskPrefersDevto | media_portfolio/blog/tasks.py:15-27 | Medium is synced only when no Dev.to account is known at all, and at most one source runs |
| CoreUtils.CandidateInjective | media_portfolio/core/utils.py:18-20 | the base and its `-N` suffixes are pairwise different, so each attempt tries a new slug |
| CoreUtils.AttemptsCount | media_portfolio/core/utils.py:18-20 | n attempts try n distinct slugs, which is why a finite set of taken slugs cannot block the loop forever |
| CoreUtils.FirstFreeUnique | media_portfolio/core/utils.py:18-22 | the first free attempt is unique |
| CoreUtils.UniqueSlug | media_portfolio/projects/models.py:178-183 | the suffix loop ends with the first attempt not taken: the base when it is free, else `base-N` for the smallest free N |
| CoreUtils.GenerateUniqueSlug | media_portfolio/core/utils.py:10-22 | the slug is not taken; it is `slugify(title)` when that is free, else its first free `-N` variant |
| CoreUtils.FormatFileSize | media_portfolio/core/utils.py:48-62 | zero is `0 B`; otherwise the unit index is at most 4 and is the number of times the size reaches 1024 under repeated division |
| Projects.NewProject | media_portfolio/projects/models.py:105-139 | a new project is `intermediate`, scores 0, has no stars, forks, views or stack, and is published |
| Projects.ThumbnailPath | media_portfolio/projects/models.py:10-14 | the upload path is `projects/thumbnails/<slug>_<timestamp>.<ext>`, and the extension holds no dot |
| Projects.ThumbnailExtAfterLastDot | media_portfolio/projects/models.py:12 | the extension is the text after the last dot, ASCII letters lower-cased |
| Projects.ThumbnailExtWithoutDot | media_portfolio/projects/models.py:12 | a name without a dot is its own extension, ASCII letters lower-cased |
| Projects.SaveProject | media_portfolio/projects/models.py:173-185 | an empty slug becomes `slugify(title)`; the saved slug is the first free attempt among the other projects' slugs; the project's own row is excluded; slugs stay unique |
| Projects.TagList | media_portfolio/projects/models.py:191-196 | every tag is non-empty, stripped and comma-free |
| Projects.TagListOfJoin | media_portfolio/projects/models.py:191-196 | joining tags with commas and reading them back gives the same tags in the same order |
| Projects.TagListIgnoresSpacing | media_portfolio/projects/models.py:195 | spaces around commas and blank parts do not change the tag list |
| Projects.IncrementViewCount | media_portfolio/projects/models.py:198-201 | the view count goes up by exactly one and no other field changes |
| Projects.ValidatePerformanceScore | media_portfolio/projects/models.py:115-119 | a score is accepted exactly in 0..100, with the validators' messages otherwise |
| ProjectViews.ToggleLike | media_portfolio/projects/views.py:207-235 | a session without a like gets one, stored with the client address and the cut user agent; one with a like loses it; the reported count is the count after the toggle; no other like changes |
| ProjectViews.ToggleTwice | media_portfolio/projects/views.py:216-232 | two toggles by one session restore the set of likes and the count, and the table itself when the session had not liked |
| ProjectViews.SessionKey | media_portfolio/projects/views.py:211-213 | the like is stored under the request's session key, or the one the session gets when saved first |
| ProjectViews.ViewedKeyInjective | media_portfolio/projects/views.py:149 | different projects use different session flags |
| ProjectViews.RecordView | media_portfolio/projects/views.py:149-151 | the first view of a project in a session increments its count and sets the flag; a flagged view changes nothing |
| ProjectViews.ViewCountedOnce | media_portfolio/projects/views.py:149-151 | two views by one session count once |
| ProjectViews.ViewsIndependent | media_portfolio/projects/views.py:149-151 | viewing one project does not stop another from being counted |
| ProjectViews.AddProjectComment | media_portfolio/projects/views.py:264-280 | a `parent_id` that is not a number raises and nothing is saved; otherwise the comment is added under a fresh key, with the form's name, email, website and content, stamped with the save time, unapproved and not spam, replying to its parent only when that comment exists, with the client address and the user agent cut to 255 characters, every other comment unchanged |
| ProjectViews.VisibleComments | media_portfolio/projects/views.py:323-326 | the listed comments are exactly the project's approved top-level ones in the display order |
| ProjectViews.VisibleCommentsAppend | media_portfolio/projects/views.py:323-326 | the filter keeps the display order: the list for `a + b` is the list for `a` followed by the list for `b`, and one comment is kept exactly when it is approved and top-level |
| ProjectViews.LoadComments | media_portfolio/projects/views.py:329-347 | a page below 1 is an error; otherwise the page holds the visible comments at positions `[(page-1)*10, page*10)`, full unless the list ends inside it, `has_next` holds exactly when more than `page * 10` comments are visible, and `next_page` is `page + 1` exactly then |
| ProjectViews.LoadCommentsReachesAll | media_portfolio/projects/views.py:329-347 | every visible comment is on a page: the one at position `i` is item `i % 10` of page `i / 10 + 1` |
| ProjectViews.DifficultyDisplay | media_portfolio/projects/views.py:126-128 | the four levels show their labels; any other or missing level shows `Projects` |
| Requests.ClientIp | media_portfolio/projects/views.py:248-252 | the address is the text before the first comma of `X-Forwarded-For` when that header is non-empty, else `REMOTE_ADDR` |
| Requests.ClientIpOfChain | media_portfolio/comments/views.py:34-38 | a proxy chain `client, proxy1, ...` yields the client |
| Requests.StoredUserAgent | media_portfolio/projects/views.py:221 | the stored user agent is the first at most 255 characters of the header, `''` when absent |
| Pagination.LoadPage | media_portfolio/comments/views.py:86-104 | page p holds the items at `[(p-1)*10, p*10)`; `has_next` holds exactly when there are more than `p*10` items; `next_page` is `p+1` exactly then; a page below 1 is an error |
| Pagination.ItemOnItsPage | media_portfolio/comments/views.py:88-91 | every item appears on page `i / 10 + 1`, at position `i % 10` |
| Pagination.PageBeforeNextIsFull | media_portfolio/comments/views.py:88-92 | a page that has a next page is full |
| CommentTags.Bucket | media_portfolio/comments/templatetags/comment_tags.py:22-46 | the elapsed seconds choose exactly one bucket by the thresholds 60, 3600, 86400, 604800, 2592000 and 31536000; a negative delta is `just now`; `today` is never chosen |
| CommentTags.BucketCount | media_portfolio/comments/templatetags/comment_tags.py:24-46 | every counted bucket counts the whole units elapsed, at least 1; 1 day is `yesterday` and the day bucket otherwise counts 2 to 6 |
| CommentTags.CountAgo | media_portfolio/comments/templatetags/comment_tags.py:26 | the unit gets an `s` exactly when the count is above 1 |
| CommentTags.DaysSince | media_portfolio/comments/templatetags/comment_tags.py:10-46 | a missing date gives `''`; otherwise the text of the elapsed time's bucket |
| CommentTags.OneMinuteAgo | media_portfolio/comments/templatetags/comment_tags.py:24-26 | sixty seconds read `1 minute ago`, without a plural |
| CommentTags.ThreeDaysAgo | media_portfolio/comments/templatetags/comment_tags.py:30-37 | three days read `3 days ago` |
| CommentTags.NeverToday | media_portfolio/comments/templatetags/comment_tags.py:32-33 | the `today` branch is unreachable |
| CommentTags.CommentDepth | media_portfolio/comments/templatetags/comment_tags.py:176-189 | the loop ends and returns the number of parent hops, capped at 11 |
| CommentTags.DepthOfLoop | media_portfolio/comments/templatetags/comment_tags.py:184-188 | a comment that is its own parent has an ancestor at every distance, which is what the cap guards against |
| CommentTags.TruncateComment | media_portfolio/comments/templatetags/comment_tags.py:207-220 | empty content gives `''`; content of at most `words` words is returned unchanged; longer content is cut |
| CommentTags.TruncatedKeepsFirstWords | media_portfolio/comments/templatetags/comment_tags.py:215-220 | a cut comment is the first `words` words joined by single spaces, then `...` |
| CommentTags.CanModerate | media_portfolio/comments/templatetags/comment_tags.py:192-204 | true exactly for authenticated staff or superusers |
| Requests.ResolveParent | media_portfolio/comments/views.py:26-31 | a parent id naming an existing comment is used, a missing one is ignored, and text that is not a number raises Django's lookup error (the project view at media_portfolio/projects/views.py:269-274 does the same) |
| CommentViews.AddComment | media_portfolio/comments/views.py:17-42 | a `parent_id` that is not a number raises and nothing is saved; otherwise the comment is added under a fresh key with the form's name, email, website, content and testimonial consent, unapproved, not spam, not featured, testimonial not approved, stamped with the save time, with the client address and the full user agent; other comments are unchanged |
| CommentViews.MissingParentIsTopLevel | media_portfolio/comments/views.py:26-31 | a reply to a comment that does not exist is stored as a top-level comment |
| CommentViews.Visible | media_portfolio/comments/views.py:79-83 | the listed comments are exactly the media item's approved top-level ones in the display order |
| CommentViews.VisibleAppend | media_portfolio/comments/views.py:79-83 | the filter keeps the display order: the list for `a + b` is the list for `a` followed by the list for `b`, and one comment is kept exactly when it is shown |
| CommentViews.LoadComments | media_portfolio/comments/views.py:75-105 | a page below 1 is an error; otherwise the page holds the visible comments at positions `[(p-1)*10, p*10)`, full unless the list ends, `has_next` exactly when more than `p*10` are visible and `next_page` only then; every listed comment is an approved top-level comment of the item |
| CommentViews.LoadCommentsReachesAll | media_portfolio/comments/views.py:86-105 | every visible comment is on a page: the one at position `i` is item `i % 10` of page `i / 10 + 1` |
| CommentViews.ParseAction | media_portfolio/comments/views.py:118-136 | each of the four action names selects its action, and nothing else does |
| CommentViews.Apply | media_portfolio/comments/views.py:120-139 | approve and reject set only the approval; spam sets spam and clears the approval; feature sets only the featured flag |
| CommentViews.ApplyIdempotent | media_portfolio/comments/views.py:120-139 | applying an action twice is applying it once |
| CommentViews.Moderate | media_portfolio/comments/views.py:113-141 | non-staff users get 403 and nothing changes; an unknown action gets 400 and nothing changes; a known action on an existing comment gets 200 |
| CommentViews.ModerateIdempotent | media_portfolio/comments/views.py:113-141 | repeating a moderation request changes nothing more |
| CommentViews.SuperuserShownButRefused | media_portfolio/comments/views.py:114-115 | a superuser who is not staff is offered moderation by the template tag but refused by the view |
| CoreModels.AddError | media_portfolio/categories/forms.py:193 | adding an error appends the message to its field and leaves the other fields' errors alone |
| CoreModels.NewBase | media_portfolio/core/models.py:9-12 | a new row is active, sorts at 0, and is stamped with the save time |
| CoreModels.Touch | media_portfolio/core/models.py:9-10 | a later save moves `updated_at` and nothing else |
| CoreModels.TouchesKeepDefaults | media_portfolio/core/models.py:9-12 | however often a new row is saved again, it keeps its defaults and its creation time, and carries the last save time |
| CoreModels.SaveSettingsAsWritten | media_portfolio/core/models.py:59-63 | a row without a key is dropped when any row exists; a row with a key is always written |
| CoreModels.SecondSettingsRow | media_portfolio/core/models.py:61-63 | a key set by hand that is not stored yet adds a second settings row |
| CoreModels.SaveSettings | media_portfolio/core/models.py:59-63 | the intended guard: an existing row is updated, and a row not yet stored is inserted only into an empty table |
| CoreModels.SaveSettingsKeepsSingleton | media_portfolio/core/models.py:59-63 | under the intended guard the table never holds more than one settings row |
| CoreModels.SaveSettingsAgrees | media_portfolio/core/models.py:59-63 | the written and the intended save agree except for a hand-set key missing from a non-empty table |
| Theme.PostedTheme | media_portfolio/core/views.py:129 | a missing theme parameter is `system` |
| Theme.SetThemeAsWritten | media_portfolio/core/views.py:128-143 | a valid theme is stored; only an XHR request gets the success reply; an invalid theme gets 400 and leaves the session alone |
| Theme.ValidThemeReportedInvalid | media_portfolio/core/views.py:131-143 | a plain form post of `dark` changes the theme and is answered `Invalid theme` |
| Theme.SetTheme | media_portfolio/core/views.py:128-143 | the intended view: success exactly for a valid theme, which is stored and echoed; otherwise 400 and the session unchanged |
| Theme.SetThemeAgrees | media_portfolio/core/views.py:131-138 | both versions store the same theme and agree on every XHR request |
| Theme.StoredThemeStaysValid | media_portfolio/core/views.py:131-132 | only `light`, `dark` or `system` is ever stored |
| Theme.ThemeClass | media_portfolio/core/templatetags/theme_tags.py:8-18 | the dark class for a `dark` session, the light class for `light`, `''` otherwise or without a request |
| Theme.ThemeAttr | media_portfolio/core/templatetags/theme_tags.py:22-31 | the same three-way choice for attributes |
| Theme.CurrentTheme | media_portfolio/core/templatetags/theme_tags.py:35-42 | the switcher shows the session theme, `system` when unset or without a request |
| Theme.ThemeImage | media_portfolio/core/templatetags/theme_tags.py:46-51 | the dark image exactly when the theme is `dark` |
| Theme.ThemeImageShowsStoredTheme | media_portfolio/core/templatetags/theme_tags.py:46-51 | when passed the switcher's current theme, the filter gives the dark image after `dark` is set and the light one after `light` or `system` |
| Theme.ThemeImageInTemplate | media_portfolio/core/templatetags/theme_tags.py:46-51 | the documented usage passes one argument, so the light image is always shown |
| Theme.DarkSessionShowsLightImage | media_portfolio/core/templatetags/theme_tags.py:46-51 | with `dark` stored, the class tag picks the dark class while the documented filter usage shows the light image |
| Theme.ThemeImageFor | media_portfolio/core/templatetags/theme_tags.py:46-51 | the intended filter: for distinct images, the dark image exactly when the class tag picks the dark class |
| Theme.ThemeImageForFollowsSetTheme | media_portfolio/core/templatetags/theme_tags.py:46-51 | after a theme is set, the intended filter shows the dark image exactly for `dark` |
| Theme.TagsShowStoredTheme | media_portfolio/core/templatetags/theme_tags.py:14-18 | after a theme is set, the switcher shows it and the class tag picks its class, none for `system` |
| Theme.ThemeClassMatchesSwitcher | media_portfolio/core/templatetags/theme_tags.py:14-41 | with distinct non-empty classes, the dark class is chosen exactly when the switcher shows `dark`, the light one exactly when it shows `light` |
| CategoryForms.CleanSlug | media_portfolio/categories/forms.py:82-102 | a blank slug with a name becomes `slugify(name)`; a non-empty slug another category uses is refused; the edited category's own slug is allowed |
| CategoryForms.CleanSlugKeepsUnique | media_portfolio/categories/forms.py:93-100 | storing an accepted slug keeps non-empty slugs unique, on create and on edit |
| CategoryForms.ShortReach | media_portfolio/categories/forms.py:118-123 | a category reachable up the parent chain is reachable within as many hops as there are categories |
| CategoryForms.MeetsInstance | media_portfolio/categories/forms.py:118-123 | the bounded walk reports a hit exactly when the edited category lies on the chain up from the parent |
| CategoryForms.CleanParent | media_portfolio/categories/forms.py:104-125 | a new category or no parent gives no error; on edit, a self-parent adds the own-parent error, and a chain that meets the category adds the circular error once |
| CategoryForms.SelfParentBothErrors | media_portfolio/categories/forms.py:114-123 | a self-parent draws both errors, since the walk starts at the parent |
| CategoryForms.AcceptedParentKeepsAcyclic | media_portfolio/categories/forms.py:118-123 | a parent the check accepts keeps every stored chain finite |
| CategoryForms.WalkAsWritten | media_portfolio/categories/forms.py:118-123 | the unbounded walk, when it ends, answers the same question as the bounded one |
| CategoryForms.WalkDivergesOnStoredLoop | media_portfolio/categories/forms.py:118-123 | two stored categories that are each other's parent make the walk from either run forever when a third category is edited |
| CategoryForms.ParentChoices | media_portfolio/categories/forms.py:69-75 | the parent choices are the active categories, without the edited one |
| CategoryForms.ChoicesExcludeSelf | media_portfolio/categories/forms.py:70-73 | a parent picked from the choices never draws the own-parent error |
| CategoryForms.BulkFieldErrors | media_portfolio/categories/forms.py:163-186 | the action is required and must be one of the five actions; a new type, when given, must be a category type; a new parent, when given, must be an active category; each failure gives its field Django's message |
| CategoryForms.BulkClean | media_portfolio/categories/forms.py:188-198 | `change_type` without a valid type and `move_to_parent` without a valid active parent each append their message to their own field after any field-check message, and nothing else changes |
| CategoryForms.BulkValidIff | media_portfolio/categories/forms.py:163-198 | the bulk form is accepted exactly when the action is known, any type and parent given are valid choices, a type change names a type and a move names an active parent |
| InquiryForms.ParseKind | media_portfolio/inquiries/models.py:11-20 | a submitted type is accepted exactly when it is one of the eight choice keys, and the accepted kind names that key |
| InquiryForms.ApplyRules | media_portfolio/inquiries/forms.py:61-79 | the checks listed, applied in order with no field twice, each add their own message to their own field exactly when their rule fails and leave every other field alone |
| InquiryForms.CheckFields | media_portfolio/inquiries/forms.py:10-59 | the field checks listed, none twice, give each failing field its one message and leave the other fields alone |
| InquiryForms.FieldErrors | media_portfolio/inquiries/forms.py:10-59 | a field has an error exactly when its check fails: the type must be one of the eight choices, a chosen media item must be a published one, name, email, subject and message must be filled, and a given deadline must read as a date; each gets Django's message |
| InquiryForms.CleanedMedia | media_portfolio/inquiries/forms.py:10-15 | the cleaned media item is the posted key exactly when it names a published item |
| InquiryForms.CleanRules | media_portfolio/inquiries/forms.py:61-79 | the four checks append their messages independently to their own fields, after any field-check message, and leave every other field's errors alone |
| InquiryForms.ValidateFieldIff | media_portfolio/inquiries/forms.py:52-79 | after validation a field has an error exactly when its field check or its `clean` rule fails |
| InquiryForms.NoFailureIff | media_portfolio/inquiries/forms.py:10-79 | no check fails exactly when the acceptance conditions hold |
| InquiryForms.InquiryValidIff | media_portfolio/inquiries/forms.py:10-79 | the form is accepted exactly when the required fields are filled, the type is known, a chosen media item is published, a given deadline is a date, both boxes are ticked, a licence or print inquiry names a published media item and a commission names a budget |
| InquiryForms.OptionalChecks | media_portfolio/inquiries/forms.py:55-79 | of the optional fields only the deadline has a field check (for text that is not a date) and only the budget a `clean` rule (for a commission) |
| InquiryForms.OptionalFields | media_portfolio/inquiries/forms.py:55-59 | an optional field draws a field error exactly when it is a given deadline that is not a date |
| InquiryForms.OptionalFieldErrors | media_portfolio/inquiries/forms.py:55-79 | after `clean` an optional field has an error exactly for a non-date deadline or a commission's blank budget |
| InquiryForms.UnpublishedItemForLicence | media_portfolio/inquiries/forms.py:10-15 | a licence request naming an unpublished item gets both messages on the media item, the choice field's first |
| InquiryForms.BlankIsStrippedEmpty | media_portfolio/inquiries/forms.py:69 | a field counts as blank exactly when stripping it leaves nothing |
| ProjectSignals.ThumbnailChanged | media_portfolio/projects/signals.py:16-32 | a saved project is flagged exactly when its stored thumbnail differs, a missing row giving no flag; a new project exactly when it has a thumbnail |
| ProjectSignals.Basename | media_portfolio/projects/signals.py:59 | the base name holds no `/`, and a name without `/` is its own base name |
| ProjectSignals.RootOfStemDotExt | media_portfolio/projects/signals.py:59 | `splitext` of `stem.ext` gives back the stem when the stem is not all dots |
| ProjectSignals.DerivativeNamesOfThumbnail | media_portfolio/projects/signals.py:59-73 | for a thumbnail uploaded under the project path, the derivatives are `<slug>_<timestamp>.webp` and `<slug>_<timestamp>_blur.jpg` |
| ProjectSignals.PostSave | media_portfolio/projects/signals.py:35-88 | nothing happens unless the flag is set and there is a thumbnail; a missing file or a raising generator is logged and changes nothing; otherwise each produced image is named after the thumbnail and the follow-up save runs when either field is set |
| ProjectSignals.FollowUpSaveDoesNotRetrigger | media_portfolio/projects/signals.py:23-41 | the follow-up save keeps the stored thumbnail, so its own signals do nothing |
| ProjectSignals.NewThumbnailGetsDerivatives | media_portfolio/projects/signals.py:31-85 | a project created with a thumbnail whose generators both produce content ends with both derivatives named after it |

## Left out

- HTTP, RSS and JSON I/O: the fetched pages, articles, feed entries and languages replies are inputs, and a failed request is an input value.
- `slugify`, `datetime.fromisoformat`, `feedparser`'s date tuple and `timezone.now` are uninterpreted function parameters. One `now` serves a whole run.
- Image processing: the WebP and blur generators are inputs that give content, nothing, or an exception. Storage's renaming of a file name that is already taken is not modelled.
- Floating point: the `%.2f` text of `format_file_size` and the float `total_seconds()` of `days_since`. The model uses integer byte counts and whole seconds.
- CommentTags.Bucket: works on whole seconds, so fractions of a second below a threshold are not modelled.
- CoreUtils.FormatFileSize: states the unit index and the whole part of the size in that unit, not the two-decimal text.
- Email, logging and caching. Only a "cache cleared" flag of the blog sync is kept.
- Template rendering, `theme_styles` (a constant CSS text), and the ORM list and detail views: their filtering, annotation, ordering and prefetching.
- The admin classes, the settings modules, URL configurations and apps.
- Field `max_length` checks, email format validation and the `CategoryFilterForm`, which has no validation logic. The date formats `deadline` accepts are a parameter of the inquiry form.
- `CategoryForm`'s own choice checks of `category_type` and `parent`: `CategoryForms.CleanParent` starts from the cleaned parent.
- Text.Lower: lower-cases ASCII letters only. Python's `str.lower` also folds other letters (`É` to `é`) and can lengthen a string (`İ`), so a non-ASCII extension keeps its case in the model.
- Projects.ThumbnailPath: the extension it names is lower-cased by `Text.Lower`, so for a non-ASCII extension the path differs from the site's (see `Text.Lower`).
- Projects.ThumbnailExtAfterLastDot: "lower-cased" means ASCII lower-casing (see `Text.Lower`).
- Projects.ThumbnailExtWithoutDot: "lower-cased" means ASCII lower-casing (see `Text.Lower`).
- Comment form validity is an input: the add-comment views are modelled for a valid form. `int()` parsing of the page parameter is not modelled; the page is an integer.
- `BaseModel`'s `Meta.ordering`: comment order is an input sequence.
- The `is_active`, `order` and `updated_at` columns that comments inherit from `BaseModel` are not part of the comment rows; `CoreModels.NewBase` and `CoreModels.Touch` model them once for every model.
- The moderation view's 404 for a missing comment is modelled as a status only.
- The 404 of `get_object_or_404(..., is_published=True)` in the like, add-comment and comment-loader views of projects and media items: these views are modelled for an object that exists and is published.
- GitHubSync.HandleSync: every fetched repository record is taken to carry all the keys the command reads, with string dates. A record missing a key, or with a null date, raises `KeyError` or `AttributeError` in the source and fails the run with that text; the model has no such record, so its "succeeds exactly when no record's dates fail" holds only for complete records.
- GitHubSync.SyncRecord: fails exactly when the dates fail only for a complete record (see `GitHubSync.HandleSync`); the missing-key and null-date failures are not modelled.
- GitHubSync.SyncErrorIsFirstFailure: names the first record whose dates fail; a record missing a key would fail the run first in the source (see `GitHubSync.HandleSync`).
- BlogSync.PrepareDevto: a Dev.to post is taken to carry every key the command reads (`id`, `title`, `published_at`, `url`, `description`, `cover_image`, `user.name` and the three counts), with a string date; a missing key raises `KeyError` in the source, which the model does not express, so its error is only the date error.
- BlogSync.PrepareMedium: a feed entry is taken to carry `id`, `title` and `link`; a missing attribute raises `AttributeError` in the source. Only a missing or `None` `published_parsed` and an empty `content` list are modelled as errors.
- BlogSync.ErrorText: the slug-collision text is SQLite's `IntegrityError` wording, as on the development database. Another database backend words the unique-violation error differently, and the run log stores that backend's text.
- Concurrency: overlapping sync runs and races on `unique_together`.
- BlogSync: the blog store is keyed by `external_id`, so the `MultipleObjectsReturned` error of two rows sharing an `external_id` cannot arise in the model.

## Findings

| source | as written | input that shows it | evidently intended | confidence | as-written member | corrected member |
|---|---|---|---|---|---|---|
| media_portfolio/core/views.py:131-143 | a valid theme posted without the `X-Requested-With: XMLHttpRequest` header is stored, then falls through to the 400 "Invalid theme" reply | a plain form post with `theme=dark` | store the theme and report success for any request | not executed | Theme.SetThemeAsWritten | Theme.SetTheme |
| media_portfolio/core/models.py:59-63 | the singleton guard only checks rows without a key, so a row whose key is set by hand is inserted even when another row exists | a table holding row 1, then saving a new row with `pk=2` | never more than one settings row | not executed | CoreModels.SaveSettingsAsWritten | CoreModels.SaveSettings |
| media_portfolio/categories/forms.py:118-123 | the walk up the parent chain has no bound, so a parent loop already stored that does not pass through the edited category makes the form hang. The admin form (media_portfolio/categories/admin.py:15) edits `parent` without this check, so such a loop can be stored | categories 1 and 2 each the other's parent; editing category 3 with parent 1 | stop after as many hops as there are categories, which decides the same question | not executed | CategoryForms.WalkAsWritten | CategoryForms.MeetsInstance |
| media_portfolio/core/templatetags/theme_tags.py:46-51 | `theme_image` is a filter whose third parameter `theme` defaults to `'light'`, and the usage it documents passes only the dark image, so the filter never sees the session's theme and always gives the light image | a session holding `theme=dark` rendering the documented usage with a light and a dark image | the image of the session's current theme, as the class tag picks its class | not executed | Theme.DarkSessionShowsLightImage | Theme.ThemeImageForFollowsSetTheme |

=== FILE: blog_sync.dfy ===
/** The `sync_blog` management command: it reads posts from Dev.to or entries
    from a Medium feed, turns each into the defaults of an `update_or_create`
    keyed by `external_id`, and records the run in a sync log. */
module BlogSync {
  import opened Wrappers
  import opened Clock
  import opened Text

  // ---------------------------------------------------------------------------
  // Rows and errors

  /** A `BlogPost` row, without its key `external_id`. */
  datatype BlogPost = BlogPost(
    title: string,
    slug: string,
    source: string,
    externalUrl: string,
    excerpt: string,
    content: string,
    coverImage: string,
    authorName: string,
    publishedAt: Instant,
    readTimeMinutes: int,
    reactionsCount: int,
    commentsCount: int,
    isFeatured: bool,
    isPublished: bool)

  /** The `BlogPost` table, keyed by the `external_id` the sync looks rows up
      by. */
  type PostStore = map<string, BlogPost>

  /** The exceptions that end a run. */
  datatype BlogError =
    | RequestFailed(text: string)     // `requests` raised on the Dev.to call
    | BadDate(text: string)           // `fromisoformat` rejected `published_at`
    | MissingPublished                // the feed entry has no `published_parsed`
    | UnparsedPublished               // `published_parsed` is `None`: the date did not parse
    | NoContentValue                  // `content` is an empty list
    | SlugTaken(slug: string)         // another row already has this slug
    | UnsupportedSource(source: string)

  /** `str(e)` of each exception, as the log stores it. */
  function ErrorText(e: BlogError): (t: string)
    ensures e.UnsupportedSource? ==> t == "Unsupported source: " + e.source
    ensures e.SlugTaken? ==> t == "UNIQUE constraint failed: blog_blogpost.slug"
  {
    match e
    case RequestFailed(t) => t
    case BadDate(t) => t
    case MissingPublished => "object has no attribute 'published_parsed'"
    case UnparsedPublished => "'NoneType' object is not subscriptable"
    case NoContentValue => "list index out of range"
    case SlugTaken(_) => "UNIQUE constraint failed: blog_blogpost.slug"
    case UnsupportedSource(s) => "Unsupported source: " + s
  }

  // ---------------------------------------------------------------------------
  // The upsert shared by both sources

  /** The `defaults` of one `update_or_create`. `stats` holds the reaction and
      comment counts, which only Dev.to supplies. */
  datatype Defaults = Defaults(
    title: string,
    slug: string,
    source: string,
    externalUrl: string,
    excerpt: string,
    coverImage: string,
    authorName: string,
    publishedAt: Instant,
    readTimeMinutes: int,
    stats: Option<(int, int)>)

  /** A row after `defaults` are written over the `prior` row; a new row takes the
      model's field defaults for the columns `defaults` leaves out. Every
      synced post is published. */
  function Written(prior: Option<BlogPost>, d: Defaults): (p: BlogPost)
    ensures p.title == d.title && p.slug == d.slug && p.source == d.source
    ensures p.externalUrl == d.externalUrl && p.excerpt == d.excerpt
    ensures p.coverImage == d.coverImage && p.authorName == d.authorName
    ensures p.publishedAt == d.publishedAt && p.readTimeMinutes == d.readTimeMinutes
    ensures p.isPublished
    ensures d.stats.Some? ==> (p.reactionsCount, p.commentsCount) == d.stats.value
    ensures d.stats.None? && prior.Some? ==>
              p.reactionsCount == prior.value.reactionsCount && p.commentsCount == prior.value.commentsCount
    ensures d.stats.None? && prior.None? ==> p.reactionsCount == 0 && p.commentsCount == 0
    ensures prior.Some? ==> p.content == prior.value.content && p.isFeatured == prior.value.isFeatured
    ensures prior.None? ==> p.content == "" && !p.isFeatured
  {
    var base := if prior.Some? then prior.value
                else BlogPost("", "", "devto", "", "", "", "", "Author", 0, 0, 0, 0, false, true);
    var (reactions, comments) := if d.stats.Some? then d.stats.value
                                 else (base.reactionsCount, base.commentsCount);
    base.(title := d.title, slug := d.slug, source := d.source, externalUrl := d.externalUrl,
          excerpt := d.excerpt, coverImage := d.coverImage, authorName := d.authorName,
          publishedAt := d.publishedAt, readTimeMinutes := d.readTimeMinutes,
          reactionsCount := reactions, commentsCount := comments, isPublished := true)
  }

  /** Another row than `key` already uses `slug`. */
  predicate SlugUsedElsewhere(store: PostStore, key: string, slug: string) {
    exists k :: k in store && k != key && store[k].slug == slug
  }

  /** `BlogPost.objects.update_or_create(external_id=key, defaults=d)`: the row
      with that key is updated, or created when there is none; the `source`
      plays no part in the lookup. Writing a slug another row holds violates
      the column's unique constraint. */
  function Upsert(store: PostStore, key: string, d: Defaults)
    : (res: Result<(PostStore, bool), BlogError>)
    ensures res.Err? <==> SlugUsedElsewhere(store, key, d.slug)
    ensures res.Err? ==> res.error == SlugTaken(d.slug)
    ensures res.Ok? ==> res.value.1 == (key !in store)
    ensures res.Ok? ==>
              res.value.0 == store[key := Written(if key in store then Some(store[key]) else None, d)]
  {
    if SlugUsedElsewhere(store, key, d.slug) then Err(SlugTaken(d.slug))
    else
      var prior := if key in store then Some(store[key]) else None;
      Ok((store[key := Written(prior, d)], key !in store))
  }

  /** The table's unique slug constraint. */
  ghost predicate SlugsUnique(store: PostStore) {
    forall a, b :: a in store && b in store && a != b ==> store[a].slug != store[b].slug
  }

  /** An upsert that goes through keeps slugs unique. */
  lemma UpsertKeepsSlugsUnique(store: PostStore, key: string, d: Defaults)
    requires SlugsUnique(store)
    requires Upsert(store, key, d).Ok?
    ensures SlugsUnique(Upsert(store, key, d).value.0)
  {
    var s' := Upsert(store, key, d).value.0;
    forall a, b | a in s' && b in s' && a != b
      ensures s'[a].slug != s'[b].slug
    {
      if a == key {
        assert !(b in store && b != key && store[b].slug == d.slug);
      } else if b == key {
        assert !(a in store && a != key && store[a].slug == d.slug);
      }
    }
  }

  /** A post or entry turned into its key and defaults, or the exception
      raised while building them. */
  type Prepared = Result<(string, Defaults), BlogError>

  /** The table and counters while a loop runs. */
  datatype LoopState = LoopState(store: PostStore, created: nat, updated: nat)

  /** Where a loop ended: rows written before an exception stay written. */
  datatype Outcome = Outcome(state: LoopState, error: Option<BlogError>)

  /** The loop body shared by `sync_devto` and `sync_medium`: an item that
      failed to build raises; otherwise it is upserted and counted. */
  function UpsertAll(st: LoopState, items: seq<Prepared>): Outcome
    decreases |items|
  {
    if |items| == 0 then Outcome(st, None)
    else if items[0].Err? then Outcome(st, Some(items[0].error))
    else
      var (key, d) := items[0].value;
      match Upsert(st.store, key, d)
      case Err(e) => Outcome(st, Some(e))
      case Ok((store', isNew)) =>
        UpsertAll(LoopState(store', if isNew then st.created + 1 else st.created,
                            if isNew then st.updated else st.updated + 1), items[1..])
  }

  /** The keys of built items. */
  function ItemKeys(items: seq<Prepared>): set<string> {
    set i | 0 <= i < |items| && items[i].Ok? :: items[i].value.0
  }

  lemma ItemKeysCons(items: seq<Prepared>)
    requires |items| > 0 && items[0].Ok?
    ensures ItemKeys(items) == {items[0].value.0} + ItemKeys(items[1..])
  {
    var tail := items[1..];
    forall k | k in ItemKeys(items)
      ensures k in {items[0].value.0} + ItemKeys(tail)
    {
      var i :| 0 <= i < |items| && items[i].Ok? && items[i].value.0 == k;
      if i > 0 {
        assert tail[i - 1] == items[i];
      }
    }
    forall k | k in ItemKeys(tail)
      ensures k in ItemKeys(items)
    {
      var i :| 0 <= i < |tail| && tail[i].Ok? && tail[i].value.0 == k;
      assert items[i + 1] == tail[i];
    }
  }

  /** On success every item was counted once, as created or as updated. */
  lemma {:induction false} UpsertAllCounts(st: LoopState, items: seq<Prepared>)
    requires UpsertAll(st, items).error.None?
    ensures UpsertAll(st, items).state.created + UpsertAll(st, items).state.updated
            == st.created + st.updated + |items|
    decreases |items|
  {
    if |items| > 0 {
      var (key, d) := items[0].value;
      var (store', isNew) := Upsert(st.store, key, d).value;
      UpsertAllCounts(LoopState(store', if isNew then st.created + 1 else st.created,
                                if isNew then st.updated else st.updated + 1), items[1..]);
    }
  }

  /** On success the table holds its old rows plus one row per distinct key. */
  lemma {:induction false} UpsertAllKeys(st: LoopState, items: seq<Prepared>)
    requires UpsertAll(st, items).error.None?
    ensures UpsertAll(st, items).state.store.Keys == st.store.Keys + ItemKeys(items)
    decreases |items|
  {
    if |items| > 0 {
      ItemKeysCons(items);
      var (key, d) := items[0].value;
      var (store', isNew) := Upsert(st.store, key, d).value;
      UpsertAllKeys(LoopState(store', if isNew then st.created + 1 else st.created,
                              if isNew then st.updated else st.updated + 1), items[1..]);
    }
  }

  /** `created` counts exactly the new rows, whether or not the loop
      finished. */
  lemma {:induction false} UpsertAllCreatedIsGrowth(st: LoopState, items: seq<Prepared>)
    ensures UpsertAll(st, items).state.created - st.created
            == |UpsertAll(st, items).state.store.Keys| - |st.store.Keys|
    decreases |items|
  {
    if |items| > 0 && items[0].Ok? {
      var (key, d) := items[0].value;
      match Upsert(st.store, key, d)
      case Err(_) =>
      case Ok((store', isNew)) =>
        if isNew {
          assert store'.Keys == st.store.Keys + {key};
        } else {
          assert store'.Keys == st.store.Keys;
        }
        UpsertAllCreatedIsGrowth(LoopState(store', if isNew then st.created + 1 else st.created,
                                           if isNew then st.updated else st.updated + 1), items[1..]);
    }
  }

  /** No row is ever removed. */
  lemma {:induction false} UpsertAllGrows(st: LoopState, items: seq<Prepared>)
    ensures st.store.Keys <= UpsertAll(st, items).state.store.Keys
    decreases |items|
  {
    if |items| > 0 && items[0].Ok? {
      var (key, d) := items[0].value;
      match Upsert(st.store, key, d)
      case Err(_) =>
      case Ok((store', isNew)) =>
        UpsertAllGrows(LoopState(store', if isNew then st.created + 1 else st.created,
                                 if isNew then st.updated else st.updated + 1), items[1..]);
    }
  }

  /** When every key is already stored the loop creates nothing, however
      it ends. */
  lemma {:induction false} UpsertAllKnownKeys(st: LoopState, items: seq<Prepared>)
    requires ItemKeys(items) <= st.store.Keys
    ensures UpsertAll(st, items).state.created == st.created
    ensures UpsertAll(st, items).state.store.Keys == st.store.Keys
    decreases |items|
  {
    if |items| > 0 && items[0].Ok? {
      ItemKeysCons(items);
      var (key, d) := items[0].value;
      match Upsert(st.store, key, d)
      case Err(_) =>
      case Ok((store', isNew)) =>
        assert store'.Keys == st.store.Keys;
        UpsertAllKnownKeys(LoopState(store', st.created, st.updated + 1), items[1..]);
    }
  }

  /** Running a successful loop again on the same input creates no row. */
  lemma UpsertAllRerun(store: PostStore, items: seq<Prepared>)
    requires UpsertAll(LoopState(store, 0, 0), items).error.None?
    ensures var first := UpsertAll(LoopState(store, 0, 0), items).state.store;
            && UpsertAll(LoopState(first, 0, 0), items).state.created == 0
            && UpsertAll(LoopState(first, 0, 0), items).state.store.Keys == first.Keys
  {
    UpsertAllKeys(LoopState(store, 0, 0), items);
    var first := UpsertAll(LoopState(store, 0, 0), items).state.store;
    UpsertAllKnownKeys(LoopState(first, 0, 0), items);
  }

  // ---------------------------------------------------------------------------
  // Fields computed from the source data

  /** The slug of a synced post: `slugify(title)` cut to 350 characters, with
      no suffix making it unique. */
  function SyncSlug(slugify: string -> string, title: string): (slug: string)
    ensures |slug| <= 350
    ensures |slug| <= |slugify(title)| && slug == slugify(title)[..|slug|]
    ensures |slugify(title)| <= 350 ==> slug == slugify(title)
  {
    PrefixSlice(slugify(title), 350)
  }

  /** What the command receives from outside: `slugify`, `fromisoformat` (an
      error carries the exception text), the Dev.to request (by URL) and the
      entries of a parsed Medium feed (by URL). `feedparser.parse` does not
      raise; a failed fetch gives no entries. */
  datatype BlogEnv = BlogEnv(
    slugify: string -> string,
    fromIso: string -> Result<Instant, string>,
    fetchDevto: string -> Result<seq<DevtoPost>, string>,
    parseFeed: string -> seq<MediumEntry>)

  /** One article of the Dev.to API: the keys the command reads. */
  datatype DevtoPost = DevtoPost(
    id: int,
    title: string,
    url: string,
    description: Option<string>,
    coverImage: Option<string>,
    userName: string,
    publishedAt: string,
    readingTimeMinutes: int,
    positiveReactionsCount: int,
    commentsCount: int)

  /** The `published_parsed` attribute of a feed entry: absent, `None` (the
      feed gave a date the parser could not read), or the publication time,
      already made aware. */
  datatype Published = NoPublished | PublishedNone | PublishedAt(time: Instant)

  /** One Medium feed entry: `summary` and `content` may be absent;
      `mediaContent` lists the `url` of each media item (an absent attribute
      is the empty list). */
  datatype MediumEntry = MediumEntry(
    id: string,
    title: string,
    link: string,
    summary: Option<string>,
    content: Option<seq<string>>,
    mediaContent: seq<Option<string>>,
    publishedParsed: Published)

  /** The Dev.to request URL. */
  function DevtoUrl(username: string, limit: int): (url: string)
    ensures url == "https://dev.to/api/articles?username=" + username + "&per_page=" + IntToString(limit)
  {
    "https://dev.to/api/articles?username=" + username + "&per_page=" + IntToString(limit)
  }

  /** The Medium feed URL. */
  function MediumUrl(username: string): (url: string)
    ensures url == "https://medium.com/feed/@" + username
  {
    "https://medium.com/feed/@" + username
  }

  /** The key and defaults of one Dev.to post. Its key is the stringified id. */
  function PrepareDevto(env: BlogEnv, p: DevtoPost): (item: Prepared)
    ensures item.Err? <==> env.fromIso(ReplaceChar(p.publishedAt, 'Z', "+00:00")).Err?
    ensures item.Err? ==> item.error == BadDate(env.fromIso(ReplaceChar(p.publishedAt, 'Z', "+00:00")).error)
    ensures item.Ok? ==> item.value.0 == IntToString(p.id)
    ensures item.Ok? ==> var d := item.value.1;
              && d.title == p.title
              && d.slug == SyncSlug(env.slugify, p.title)
              && d.source == "devto"
              && d.externalUrl == p.url
              && d.publishedAt == env.fromIso(ReplaceChar(p.publishedAt, 'Z', "+00:00")).value
              && d.excerpt == OrEmpty(p.description)
              && d.coverImage == OrEmpty(p.coverImage)
              && d.authorName == p.userName
              && d.readTimeMinutes == p.readingTimeMinutes
              && d.stats == Some((p.positiveReactionsCount, p.commentsCount))
  {
    var slug := SyncSlug(env.slugify, p.title);
    match env.fromIso(ReplaceChar(p.publishedAt, 'Z', "+00:00"))
    case Err(e) => Err(BadDate(e))
    case Ok(t) =>
      Ok((IntToString(p.id),
          Defaults(p.title, slug, "devto", p.url, OrEmpty(p.description), OrEmpty(p.coverImage),
                   p.userName, t, p.readingTimeMinutes,
                   Some((p.positiveReactionsCount, p.commentsCount)))))
  }

  /** The read time of a Medium entry: the whitespace-separated words of the
      first content value, integer-divided by 200; 0 without content; an
      empty content list raises. */
  function MediumReadTime(content: Option<seq<string>>): (r: Result<int, BlogError>)
    ensures content.None? ==> r == Ok(0)
    ensures content == Some([]) ==> r == Err(NoContentValue)
    ensures content.Some? && content.value != [] ==>
              r == Ok(|Words(content.value[0])| / 200)
  {
    match content
    case None => Ok(WordCount(""))
    case Some(values) => if |values| == 0 then Err(NoContentValue) else Ok(WordCount(values[0]) / 200)
  }

  /** A text of exactly `n` words, single-spaced, reads in `n / 200` minutes. */
  lemma MediumReadTimeOfWords(ws: seq<string>)
    requires forall i :: 0 <= i < |ws| ==> IsWord(ws[i])
    ensures MediumReadTime(Some([Join(ws, " ")])) == Ok(|ws| / 200)
  {
    WordsOfJoin(ws);
  }

  /** The cover image of a Medium entry: the `url` of its first media item, or
      `''`. */
  function MediumCover(media: seq<Option<string>>): (url: string)
    ensures media == [] ==> url == ""
    ensures media != [] && media[0].Some? ==> url == media[0].value
    ensures media != [] && media[0].None? ==> url == ""
  {
    if |media| > 0 then media[0].GetOr("") else ""
  }

  /** The key and defaults of one Medium entry. The key is the entry id, the
      author is the synced username, the excerpt is the summary cut to 300
      characters, and the reaction and comment counts are not written. */
  function PrepareMedium(env: BlogEnv, username: string, e: MediumEntry): (item: Prepared)
    ensures e.publishedParsed.NoPublished? ==> item == Err(MissingPublished)
    ensures e.publishedParsed.PublishedNone? ==> item == Err(UnparsedPublished)
    ensures e.publishedParsed.PublishedAt? ==>
              (item.Err? <==> e.content == Some([]))
    ensures item.Ok? ==> item.value.0 == e.id
    ensures item.Ok? ==> var d := item.value.1;
              && d.title == e.title
              && d.slug == SyncSlug(env.slugify, e.title)
              && d.source == "medium"
              && d.externalUrl == e.link
              && d.publishedAt == e.publishedParsed.time
              && d.excerpt == PrefixSlice(OrEmpty(e.summary), 300)
              && |d.excerpt| <= 300
              && d.coverImage == MediumCover(e.mediaContent)
              && d.authorName == username
              && d.readTimeMinutes == MediumReadTime(e.content).value
              && d.stats.None?
  {
    var slug := SyncSlug(env.slugify, e.title);
    match e.publishedParsed
    case NoPublished => Err(MissingPublished)
    case PublishedNone => Err(UnparsedPublished)
    case PublishedAt(t) =>
      match MediumReadTime(e.content)
      case Err(err) => Err(err)
      case Ok(minutes) =>
        Ok((e.id, Defaults(e.title, slug, "medium", e.link, PrefixSlice(OrEmpty(e.summary), 300),
                           MediumCover(e.mediaContent), username, t, minutes, None)))
  }

  /** Builds the items of a sequence of posts. */
  function PrepareDevtoAll(env: BlogEnv, posts: seq<DevtoPost>): (items: seq<Prepared>)
    ensures |items| == |posts|
    ensures forall i :: 0 <= i < |posts| ==> items[i] == PrepareDevto(env, posts[i])
  {
    seq(|posts|, i requires 0 <= i < |posts| => PrepareDevto(env, posts[i]))
  }

  /** Builds the items of a sequence of entries. */
  function PrepareMediumAll(env: BlogEnv, username: string, entries: seq<MediumEntry>)
    : (items: seq<Prepared>)
    ensures |items| == |entries|
    ensures forall i :: 0 <= i < |entries| ==> items[i] == PrepareMedium(env, username, entries[i])
  {
    seq(|entries|, i requires 0 <= i < |entries| => PrepareMedium(env, username, entries[i]))
  }

  /** `sync_devto`: the request error, or the outcome of upserting every post
      the API returned. */
  function SyncDevto(env: BlogEnv, store: PostStore, username: string, limit: int): (o: Outcome)
    ensures env.fetchDevto(DevtoUrl(username, limit)).Err? ==>
              o == Outcome(LoopState(store, 0, 0),
                           Some(RequestFailed(env.fetchDevto(DevtoUrl(username, limit)).error)))
    ensures env.fetchDevto(DevtoUrl(username, limit)).Ok? ==>
              o == UpsertAll(LoopState(store, 0, 0),
                             PrepareDevtoAll(env, env.fetchDevto(DevtoUrl(username, limit)).value))
  {
    match env.fetchDevto(DevtoUrl(username, limit))
    case Err(e) => Outcome(LoopState(store, 0, 0), Some(RequestFailed(e)))
    case Ok(posts) => UpsertAll(LoopState(store, 0, 0), PrepareDevtoAll(env, posts))
  }

  /** The entries `sync_medium` processes: `feed.entries[:limit]`. */
  function MediumBatch(entries: seq<MediumEntry>, limit: int): (batch: seq<MediumEntry>)
    ensures |batch| <= |entries| && batch == entries[..|batch|]
    ensures limit >= 0 ==> |batch| <= limit
    ensures limit >= 0 && limit <= |entries| ==> |batch| == limit
    ensures limit < 0 ==> |batch| == (if |entries| + limit < 0 then 0 else |entries| + limit)
  {
    PrefixSlice(entries, limit)
  }

  /** `sync_medium`: the outcome of upserting the first `limit` entries. */
  function SyncMedium(env: BlogEnv, store: PostStore, username: string, limit: int): (o: Outcome)
    ensures o == UpsertAll(LoopState(store, 0, 0),
                           PrepareMediumAll(env, username, MediumBatch(env.parseFeed(MediumUrl(username)), limit)))
  {
    var entries := MediumBatch(env.parseFeed(MediumUrl(username)), limit);
    UpsertAll(LoopState(store, 0, 0), PrepareMediumAll(env, username, entries))
  }

  // ---------------------------------------------------------------------------
  // The run log

  /** `BlogSyncLog.status`. */
  datatype LogStatus = InProgress | Success | Failed

  /** A `BlogSyncLog` row. */
  datatype SyncLog = SyncLog(
    source: string,
    status: LogStatus,
    postsCreated: int,
    postsUpdated: int,
    errorMessage: string)

  /** The log as created when the run starts. */
  function StartLog(source: string): (log: SyncLog)
    ensures log.source == source && log.status == InProgress
    ensures log.postsCreated == 0 && log.postsUpdated == 0 && log.errorMessage == ""
  {
    SyncLog(source, InProgress, 0, 0, "")
  }

  /** The only moves of a log: from `in_progress` to a final status, keeping
      its source. */
  predicate LogMove(before: SyncLog, after: SyncLog) {
    before.status == InProgress && after.status != InProgress && after.source == before.source
  }

  /** Which loop a source runs, or the exception for an unsupported one. */
  function SyncSource(env: BlogEnv, store: PostStore, source: string, username: string,
                      limit: int): (o: Outcome)
    ensures source == "devto" ==> o == SyncDevto(env, store, username, limit)
    ensures source == "medium" ==> o == SyncMedium(env, store, username, limit)
    ensures source != "devto" && source != "medium" ==>
              o == Outcome(LoopState(store, 0, 0), Some(UnsupportedSource(source)))
  {
    if source == "devto" then SyncDevto(env, store, username, limit)
    else if source == "medium" then SyncMedium(env, store, username, limit)
    else Outcome(LoopState(store, 0, 0), Some(UnsupportedSource(source)))
  }

  /** The result of `handle`: the table, the closed log, and whether the
      `latest_blog_posts` cache entry was deleted. */
  datatype RunResult = RunResult(store: PostStore, log: SyncLog, cacheCleared: bool)

  /** `handle`: create the log, run the source's loop, and close the log. The
      cache is cleared only on success; an unsupported source always fails
      and writes nothing. */
  function HandleBlogSync(env: BlogEnv, store: PostStore, source: string, username: string,
                          limit: int): (r: RunResult)
    ensures LogMove(StartLog(source), r.log)
    ensures r.cacheCleared <==> r.log.status == Success
    ensures r.log.status == Success && source == "devto" ==>
              && env.fetchDevto(DevtoUrl(username, limit)).Ok?
              && r.log.postsCreated + r.log.postsUpdated
                 == |env.fetchDevto(DevtoUrl(username, limit)).value|
    ensures r.log.status == Success && source == "medium" ==>
              r.log.postsCreated + r.log.postsUpdated
                == |MediumBatch(env.parseFeed(MediumUrl(username)), limit)|
    ensures r.log.status == Success ==>
              r.log.postsCreated == |r.store.Keys| - |store.Keys|
    ensures r.log.status == Failed ==>
              r.log.postsCreated == 0 && r.log.postsUpdated == 0
    ensures source != "devto" && source != "medium" ==>
              r.log.status == Failed && r.store == store
              && r.log.errorMessage == "Unsupported source: " + source
  {
    var items := if source == "devto" && env.fetchDevto(DevtoUrl(username, limit)).Ok?
                 then PrepareDevtoAll(env, env.fetchDevto(DevtoUrl(username, limit)).value)
                 else PrepareMediumAll(env, username, MediumBatch(env.parseFeed(MediumUrl(username)), limit));
    var o := SyncSource(env, store, source, username, limit);
    UpsertAllCreatedIsGrowth(LoopState(store, 0, 0), items);
    if o.error.None? && (source == "devto" || source == "medium") then
      UpsertAllCounts(LoopState(store, 0, 0), items);
      Finish(StartLog(source), o)
    else Finish(StartLog(source), o)
  }

  /** Closes the log for an outcome. */
  function Finish(log: SyncLog, o: Outcome): (r: RunResult)
    ensures r.store == o.state.store
    ensures r.log.source == log.source
    ensures o.error.None? ==> r.log == log.(status := Success, postsCreated := o.state.created,
                                           postsUpdated := o.state.updated) && r.cacheCleared
    ensures o.error.Some? ==> r.log == log.(status := Failed, errorMessage := ErrorText(o.error.value))
                              && !r.cacheCleared
  {
    match o.error
    case None =>
      RunResult(o.state.store,
                log.(status := Success, postsCreated := o.state.created, postsUpdated := o.state.updated),
                true)
    case Some(e) => RunResult(o.state.store, log.(status := Failed, errorMessage := ErrorText(e)), false)
  }

  // ---------------------------------------------------------------------------
  // Consequences of keying on `external_id` alone

  /** A post synced from Dev.to whose id matches a row imported from Medium
      takes that row over: same row, new source. */
  lemma SourceOverwritten(store: PostStore, key: string, d: Defaults)
    requires key in store && store[key].source == "medium" && d.source == "devto"
    requires Upsert(store, key, d).Ok?
    ensures var (s', created) := Upsert(store, key, d).value;
            !created && s'.Keys == store.Keys && s'[key].source == "devto"
  {
  }

  /** Two posts with different keys whose titles slugify alike: the second
      one fails the run, because sync slugs are never made unique. */
  lemma TitleCollisionFails(store: PostStore, k1: string, k2: string, d1: Defaults, d2: Defaults)
    requires k1 != k2 && k2 !in store && d1.slug == d2.slug
    requires Upsert(store, k1, d1).Ok?
    ensures UpsertAll(LoopState(store, 0, 0), [Ok((k1, d1)), Ok((k2, d2))]).error == Some(SlugTaken(d2.slug))
  {
    var items: seq<Prepared> := [Ok((k1, d1)), Ok((k2, d2))];
    var (s1, _) := Upsert(store, k1, d1).value;
    assert s1[k1].slug == d2.slug;
    assert SlugUsedElsewhere(s1, k2, d2.slug);
    assert items[1..] == [Ok((k2, d2))];
    assert items[1..][1..] == [];
  }
}

=== FILE: categories.dfy ===
/** The category form: slug completion and uniqueness, the parent checks that
    keep the category tree free of cycles, the parent choices, and the bulk
    action form. */
module CategoryForms {
  import opened Wrappers
  import opened CoreModels
  import opened Requests
  import CoreUtils

  /** The columns of a `Category` row the forms read. */
  datatype Category = Category(name: string, slug: string, parent: Option<nat>, isActive: bool)

  type CategoryTable = map<nat, Category>

  // ---------------------------------------------------------------------------
  // clean_slug

  /** The slug of some category other than the one being edited. */
  predicate SlugTaken(table: CategoryTable, instancePk: Option<nat>, slug: string) {
    exists k :: k in table && table[k].slug == slug && !(HasPk(instancePk) && k == instancePk.value)
  }

  const SlugInUse := "This slug is already in use. Please choose another."

  /** `CategoryForm.clean_slug`: a blank slug with a name becomes
      `slugify(name)`; a non-empty slug that another category uses is
      refused; a category keeps its own slug on edit. */
  function CleanSlug(table: CategoryTable, instancePk: Option<nat>, slug: string, name: Option<string>,
                     slugify: string -> string)
    : (r: Result<string, string>)
    ensures var s := if slug == "" && Truthy(name) then slugify(name.value) else slug;
            && (r.Err? <==> s != "" && SlugTaken(table, instancePk, s))
            && (r.Err? ==> r.error == SlugInUse)
            && (r.Ok? ==> r.value == s)
  {
    var s := if slug == "" && Truthy(name) then slugify(name.value) else slug;
    if s != "" && SlugTaken(table, instancePk, s) then Err(SlugInUse) else Ok(s)
  }

  /** Non-empty slugs are unique across the table. */
  ghost predicate SlugsUnique(table: CategoryTable) {
    forall a, b :: a in table && b in table && a != b && table[a].slug != "" ==> table[a].slug != table[b].slug
  }

  /** Storing the slug the form accepted keeps the slugs unique, on create
      (under a new key) and on edit (under the category's own key). */
  lemma CleanSlugKeepsUnique(table: CategoryTable, instancePk: Option<nat>, key: nat, slug: string,
                             name: Option<string>, slugify: string -> string, c: Category)
    requires SlugsUnique(table)
    requires HasPk(instancePk) ==> key == instancePk.value
    requires !HasPk(instancePk) ==> key !in table
    requires CleanSlug(table, instancePk, slug, name, slugify).Ok?
    requires c.slug == CleanSlug(table, instancePk, slug, name, slugify).value
    ensures SlugsUnique(table[key := c])
  {
    var t := table[key := c];
    forall a, b | a in t && b in t && a != b && t[a].slug != ""
      ensures t[a].slug != t[b].slug
    {
      if a == key {
        assert !SlugTaken(table, instancePk, c.slug);
        assert b in table && b != key && t[b] == table[b];
      } else if b == key {
        if c.slug != "" {
          assert !SlugTaken(table, instancePk, c.slug);
        }
        assert a in table && a != key && t[a] == table[a];
      }
    }
  }

  // ---------------------------------------------------------------------------
  // The parent chain

  /** The stored parent of `cur`; a missing row ends the chain. */
  function Next(table: CategoryTable, cur: Option<nat>): Option<nat> {
    if cur.Some? && cur.value in table then table[cur.value].parent else None
  }

  /** The category `n` parent links above `start` (`start` itself at 0). */
  function Hop(table: CategoryTable, start: Option<nat>, n: nat): (h: Option<nat>)
    ensures start.None? ==> h.None?
    decreases n
  {
    if n == 0 then start else Hop(table, Next(table, start), n - 1)
  }

  /** `target` lies on the parent chain that starts at `start`. */
  ghost predicate Reaches(table: CategoryTable, start: Option<nat>, target: nat) {
    exists n: nat :: Hop(table, start, n) == Some(target)
  }

  lemma {:induction false} HopSucc(table: CategoryTable, start: Option<nat>, n: nat)
    ensures Hop(table, start, n + 1) == Next(table, Hop(table, start, n))
    decreases n
  {
    if n > 0 {
      HopSucc(table, Next(table, start), n - 1);
    }
  }

  lemma {:induction false} HopAdd(table: CategoryTable, start: Option<nat>, a: nat, b: nat)
    ensures Hop(table, start, a + b) == Hop(table, Hop(table, start, a), b)
    decreases a
  {
    if a > 0 {
      HopAdd(table, Next(table, start), a - 1, b);
    }
  }

  /** A chain that has ended stays ended. */
  lemma {:induction false} HopNoneStays(table: CategoryTable, start: Option<nat>, a: nat, b: nat)
    requires Hop(table, start, a).None? && a <= b
    ensures Hop(table, start, b).None?
  {
    HopAdd(table, start, a, b - a);
  }

  /** Every link before a reached node is a stored row. */
  lemma {:induction false} HopsBeforeAreRows(table: CategoryTable, start: Option<nat>, n: nat, k: nat)
    requires Hop(table, start, n).Some? && k < n
    ensures Hop(table, start, k).Some? && Hop(table, start, k).value in table
  {
    HopSucc(table, start, k);
    if Hop(table, start, k).None? || Hop(table, start, k).value !in table {
      assert Hop(table, start, k + 1).None?;
      HopNoneStays(table, start, k + 1, n);
    }
  }

  /** The nodes of the first `n` hops. */
  ghost function Visited(table: CategoryTable, start: Option<nat>, n: nat): set<nat> {
    if n == 0 then {}
    else Visited(table, start, n - 1)
         + (if Hop(table, start, n - 1).Some? then {Hop(table, start, n - 1).value} else {})
  }

  lemma {:induction false} VisitedMembers(table: CategoryTable, start: Option<nat>, n: nat, v: nat)
    requires v in Visited(table, start, n)
    ensures exists k :: 0 <= k < n && Hop(table, start, k) == Some(v)
  {
    if v !in Visited(table, start, n - 1) {
      assert Hop(table, start, n - 1) == Some(v);
    } else {
      VisitedMembers(table, start, n - 1, v);
    }
  }

  lemma {:induction false} VisitedCard(table: CategoryTable, start: Option<nat>, n: nat)
    requires forall k :: 0 <= k < n ==> Hop(table, start, k).Some?
    requires forall i, j :: 0 <= i < j < n ==> Hop(table, start, i) != Hop(table, start, j)
    ensures |Visited(table, start, n)| == n
  {
    if n > 0 {
      VisitedCard(table, start, n - 1);
      var v := Hop(table, start, n - 1).value;
      if v in Visited(table, start, n - 1) {
        VisitedMembers(table, start, n - 1, v);
        assert false;
      }
    }
  }

  lemma {:induction false} VisitedRows(table: CategoryTable, start: Option<nat>, n: nat)
    requires forall k :: 0 <= k < n ==> Hop(table, start, k).Some? && Hop(table, start, k).value in table
    ensures Visited(table, start, n) <= table.Keys
  {
    if n > 0 {
      VisitedRows(table, start, n - 1);
    }
  }

  /** Pigeonhole: more hops than rows revisit a node. */
  lemma Revisit(table: CategoryTable, start: Option<nat>, n: nat)
    requires n > |table| && Hop(table, start, n).Some?
    ensures exists i, j :: 0 <= i < j < n && Hop(table, start, i) == Hop(table, start, j)
  {
    forall k | 0 <= k < n
      ensures Hop(table, start, k).Some? && Hop(table, start, k).value in table
    {
      HopsBeforeAreRows(table, start, n, k);
    }
    if forall i, j :: 0 <= i < j < n ==> Hop(table, start, i) != Hop(table, start, j) {
      VisitedCard(table, start, n);
      VisitedRows(table, start, n);
      CoreUtils.SubsetCard(Visited(table, start, n), table.Keys);
      assert false;
    }
  }

  /** A node that can be reached can be reached within `|table|` hops. */
  lemma {:induction false} ShortReach(table: CategoryTable, start: Option<nat>, target: nat, n: nat)
    requires Hop(table, start, n) == Some(target)
    ensures exists m :: 0 <= m <= |table| && Hop(table, start, m) == Some(target)
    decreases n
  {
    if n > |table| {
      Revisit(table, start, n);
      var i, j :| 0 <= i < j < n && Hop(table, start, i) == Hop(table, start, j);
      HopAdd(table, start, i, n - j);
      HopAdd(table, start, j, n - j);
      ShortReach(table, start, target, i + (n - j));
    }
  }

  // ---------------------------------------------------------------------------
  // clean

  const OwnParent := "A category cannot be its own parent"
  const CircularParent := "Cannot create circular parent relationship"

  /** The `while current_parent` walk of `CategoryForm.clean`, bounded by the
      number of rows: the walk up from `parent` meets `instance`. */
  method MeetsInstance(table: CategoryTable, parent: nat, instance: nat) returns (found: bool)
    ensures found <==> Reaches(table, Some(parent), instance)
  {
    var current := Some(parent);
    var steps := 0;
    while current.Some? && steps <= |table|
      invariant current == Hop(table, Some(parent), steps)
      invariant forall m :: 0 <= m < steps ==> Hop(table, Some(parent), m) != Some(instance)
      decreases |table| + 1 - steps
    {
      if current.value == instance {
        return true;
      }
      HopSucc(table, Some(parent), steps);
      current := Next(table, current);
      steps := steps + 1;
    }
    found := false;
    if Reaches(table, Some(parent), instance) {
      var n: nat :| Hop(table, Some(parent), n) == Some(instance);
      ShortReach(table, Some(parent), instance, n);
      var m :| 0 <= m <= |table| && Hop(table, Some(parent), m) == Some(instance);
      if current.None? {
        HopNoneStays(table, Some(parent), steps, m);
      }
      assert false;
    }
  }

  /** `CategoryForm.clean`'s parent checks: nothing for a new category or no
      parent; on edit, choosing itself adds the own-parent error, and a walk up
      from the parent that meets the category adds the circular error once. */
  method CleanParent(table: CategoryTable, instancePk: Option<nat>, parent: Option<nat>)
    returns (errors: seq<string>)
    ensures !(parent.Some? && HasPk(instancePk)) ==> errors == []
    ensures parent.Some? && HasPk(instancePk) ==>
              errors == (if parent.value == instancePk.value then [OwnParent] else [])
                        + (if Reaches(table, parent, instancePk.value) then [CircularParent] else [])
  {
    errors := [];
    if parent.Some? && HasPk(instancePk) {
      if parent.value == instancePk.value {
        errors := errors + [OwnParent];
      }
      var circular := MeetsInstance(table, parent.value, instancePk.value);
      if circular {
        errors := errors + [CircularParent];
      }
    }
  }

  /** Choosing the category itself as parent reports both errors, since the
      walk starts at the parent. */
  lemma SelfParentBothErrors(table: CategoryTable, pk: nat)
    ensures Reaches(table, Some(pk), pk)
  {
    assert Hop(table, Some(pk), 0) == Some(pk);
  }

  /** Every stored chain ends. */
  ghost predicate Acyclic(table: CategoryTable) {
    forall c :: c in table ==> exists n: nat :: Hop(table, Some(c), n).None?
  }

  /** Two tables that differ only in the row `x` give the same chain for as
      long as the chain keeps away from `x`. */
  lemma {:induction false} HopAgree(t: CategoryTable, t': CategoryTable, x: nat, start: Option<nat>, n: nat)
    requires t'.Keys == t.Keys && forall k :: k in t && k != x ==> t'[k] == t[k]
    requires forall m :: 0 <= m < n ==> Hop(t, start, m) != Some(x)
    ensures Hop(t', start, n) == Hop(t, start, n)
  {
    if n > 0 {
      HopAgree(t, t', x, start, n - 1);
      HopSucc(t, start, n - 1);
      HopSucc(t', start, n - 1);
    }
  }

  /** Either the first `n` hops avoid `x`, or hop `i` is the first onto `x`. */
  lemma {:induction false} FirstHit(t: CategoryTable, start: Option<nat>, x: nat, n: nat)
    returns (hit: bool, i: nat)
    ensures !hit ==> forall m :: 0 <= m < n ==> Hop(t, start, m) != Some(x)
    ensures hit ==> i < n && Hop(t, start, i) == Some(x)
                    && forall m :: 0 <= m < i ==> Hop(t, start, m) != Some(x)
  {
    if n == 0 {
      return false, 0;
    }
    hit, i := FirstHit(t, start, x, n - 1);
    if !hit && Hop(t, start, n - 1) == Some(x) {
      hit, i := true, n - 1;
    }
  }

  /** A parent the form accepts keeps every stored chain finite: the edited
      category `x` now points at `p`, whose chain never meets `x`. */
  lemma AcceptedParentKeepsAcyclic(table: CategoryTable, x: nat, p: nat)
    requires Acyclic(table) && x in table && p in table
    requires !Reaches(table, Some(p), x)
    ensures Acyclic(table[x := table[x].(parent := Some(p))])
  {
    var t' := table[x := table[x].(parent := Some(p))];
    assert t'.Keys == table.Keys;
    // The chain from `p` is the same in both tables and ends.
    var k: nat :| Hop(table, Some(p), k).None?;
    HopAgree(table, t', x, Some(p), k);
    forall c | c in t'
      ensures exists n: nat :: Hop(t', Some(c), n).None?
    {
      var n: nat :| Hop(table, Some(c), n).None?;
      var hit, i := FirstHit(table, Some(c), x, n);
      if !hit {
        HopAgree(table, t', x, Some(c), n);
      } else {
        HopAgree(table, t', x, Some(c), i);
        HopSucc(t', Some(c), i);
        HopAdd(t', Some(c), i + 1, k);
        assert Hop(t', Some(c), i + 1 + k).None?;
      }
    }
  }

  /** The walk as the source writes it, one hop per step of `fuel`: `None`
      means the loop is still running when the fuel runs out. */
  function WalkAsWritten(table: CategoryTable, current: Option<nat>, instance: nat, fuel: nat)
    : (r: Option<bool>)
    ensures r == Some(true) ==> Reaches(table, current, instance)
    ensures r == Some(false) ==> !Reaches(table, current, instance)
    decreases fuel
  {
    if current.None? then
      assert forall n: nat :: Hop(table, current, n).None?;
      Some(false)
    else if current.value == instance then
      assert Hop(table, current, 0) == Some(instance);
      Some(true)
    else if fuel == 0 then None
    else
      var r := WalkAsWritten(table, Next(table, current), instance, fuel - 1);
      WalkStep(table, current, instance);
      r
  }

  lemma WalkStep(table: CategoryTable, current: Option<nat>, instance: nat)
    requires current != Some(instance)
    ensures Reaches(table, current, instance) <==> Reaches(table, Next(table, current), instance)
  {
    if Reaches(table, current, instance) {
      var n: nat :| Hop(table, current, n) == Some(instance);
      assert n > 0;
      assert Hop(table, Next(table, current), n - 1) == Some(instance);
    }
    if Reaches(table, Next(table, current), instance) {
      var n: nat :| Hop(table, Next(table, current), n) == Some(instance);
      assert Hop(table, current, n + 1) == Some(instance);
    }
  }

  /** Two stored categories that are each other's parent (which the admin
      form, lacking these checks, can store) make the walk from either of
      them run forever when the edited category is a third one. */
  lemma {:induction false} WalkDivergesOnStoredLoop(fuel: nat)
    ensures var t := map[1 := Category("a", "a", Some(2), true),
                         2 := Category("b", "b", Some(1), true),
                         3 := Category("c", "c", None, true)];
            WalkAsWritten(t, Some(1), 3, fuel) == None
  {
    var t := map[1 := Category("a", "a", Some(2), true),
                 2 := Category("b", "b", Some(1), true),
                 3 := Category("c", "c", None, true)];
    LoopWalk(t, fuel);
  }

  lemma {:induction false} LoopWalk(t: CategoryTable, fuel: nat)
    requires t == map[1 := Category("a", "a", Some(2), true),
                      2 := Category("b", "b", Some(1), true),
                      3 := Category("c", "c", None, true)]
    ensures WalkAsWritten(t, Some(1), 3, fuel) == None
    ensures WalkAsWritten(t, Some(2), 3, fuel) == None
  {
    if fuel > 0 {
      LoopWalk(t, fuel - 1);
    }
  }

  // ---------------------------------------------------------------------------
  // Parent choices

  /** The parent choices: active categories, without the category itself on
      edit. */
  function ParentChoices(table: CategoryTable, instancePk: Option<nat>): (choices: set<nat>)
    ensures forall k :: k in choices <==> (k in table && table[k].isActive
                                          && !(HasPk(instancePk) && k == instancePk.value))
  {
    set k | k in table && table[k].isActive && !(HasPk(instancePk) && k == instancePk.value)
  }

  /** A parent picked from the choices never draws the own-parent error. */
  lemma ChoicesExcludeSelf(table: CategoryTable, instancePk: Option<nat>, parent: nat)
    requires parent in ParentChoices(table, instancePk) && HasPk(instancePk)
    ensures parent != instancePk.value
  {
  }

  // ---------------------------------------------------------------------------
  // CategoryBulkActionForm

  /** `CategoryBulkActionForm.ACTION_CHOICES`. */
  const BulkActions: seq<string> := ["activate", "deactivate", "delete", "change_type", "move_to_parent"]

  /** `Category.CATEGORY_TYPES`, the choices of `new_type`. */
  const CategoryTypes: seq<string> := ["medium", "genre", "technique", "subject", "collection", "client", "personal"]

  /** The bulk form's fields. */
  datatype BulkField = Action | NewType | NewParent

  /** The posted bulk form: the action and new type as posted (`''` when not
      chosen) and the posted parent key. */
  datatype BulkSubmission = BulkSubmission(action: string, newType: string, newParent: IdParam)

  /** The new parent as its choice field cleans it: the key of an active
      category, or none. */
  function CleanedParent(table: CategoryTable, b: BulkSubmission): (p: Option<nat>)
    ensures p.Some? <==> b.newParent.IdValue? && b.newParent.id >= 0
                         && b.newParent.id as nat in table && table[b.newParent.id as nat].isActive
    ensures p.Some? ==> p.value as int == b.newParent.id
  {
    match b.newParent
    case IdValue(id) => if id >= 0 && id as nat in table && table[id as nat].isActive then Some(id as nat) else None
    case _ => None
  }

  /** The field checks: the action is required and must be one of the
      actions; a new type, when given, must be a category type; a new parent,
      when given, must be an active category. */
  function BulkFieldErrors(table: CategoryTable, b: BulkSubmission): (errors: FormErrors<BulkField>)
    ensures Action in errors <==> b.action !in BulkActions
    ensures Action in errors ==> errors[Action] == [if b.action == "" then Required else InvalidChoice(b.action)]
    ensures NewType in errors <==> b.newType != "" && b.newType !in CategoryTypes
    ensures NewType in errors ==> errors[NewType] == [InvalidChoice(b.newType)]
    ensures NewParent in errors <==> !b.newParent.NoId? && CleanedParent(table, b).None?
    ensures NewParent in errors ==> errors[NewParent] == [InvalidModelChoice]
  {
    var e: FormErrors<BulkField> := map[];
    var e := if b.action == "" then AddError(e, Action, Required)
             else if b.action !in BulkActions then AddError(e, Action, InvalidChoice(b.action)) else e;
    var e := if b.newType != "" && b.newType !in CategoryTypes then AddError(e, NewType, InvalidChoice(b.newType)) else e;
    if !b.newParent.NoId? && CleanedParent(table, b).None? then AddError(e, NewParent, InvalidModelChoice) else e
  }

  const TypeMissing := "New type is required for change type action"
  const ParentMissing := "New parent is required for move action"

  /** `CategoryBulkActionForm.clean` after the field checks: the actions that
      need a target report a missing or invalid one on its field, after any
      message of the field check. An invalid action is absent from the
      cleaned data and compares equal to neither. */
  function BulkClean(table: CategoryTable, b: BulkSubmission): (errors: FormErrors<BulkField>)
    ensures forall f :: f in BulkFieldErrors(table, b) ==> f in errors
    ensures Action in errors <==> Action in BulkFieldErrors(table, b)
    ensures Action in BulkFieldErrors(table, b) ==> errors[Action] == BulkFieldErrors(table, b)[Action]
    ensures NewType in errors <==> NewType in BulkFieldErrors(table, b) || (b.action == "change_type" && b.newType !in CategoryTypes)
    ensures b.action == "change_type" && b.newType !in CategoryTypes ==>
              errors[NewType] == (if NewType in BulkFieldErrors(table, b) then [InvalidChoice(b.newType)] else []) + [TypeMissing]
    ensures NewParent in errors <==> NewParent in BulkFieldErrors(table, b)
                                     || (b.action == "move_to_parent" && CleanedParent(table, b).None?)
    ensures b.action == "move_to_parent" && CleanedParent(table, b).None? ==>
              errors[NewParent] == (if NewParent in BulkFieldErrors(table, b) then [InvalidModelChoice] else []) + [ParentMissing]
  {
    var e := BulkFieldErrors(table, b);
    var e := if b.action == "change_type" && b.newType !in CategoryTypes then AddError(e, NewType, TypeMissing) else e;
    if b.action == "move_to_parent" && CleanedParent(table, b).None? then AddError(e, NewParent, ParentMissing) else e
  }

  /** The bulk form is accepted exactly when the action is one of the
      actions, any new type and new parent given are valid choices, a type
      change names a type and a move names an active parent. */
  lemma BulkValidIff(table: CategoryTable, b: BulkSubmission)
    ensures BulkClean(table, b) == map[] <==>
              && b.action in BulkActions
              && (b.newType == "" || b.newType in CategoryTypes)
              && (b.newParent.NoId? || CleanedParent(table, b).Some?)
              && (b.action == "change_type" ==> b.newType in CategoryTypes)
              && (b.action == "move_to_parent" ==> CleanedParent(table, b).Some?)
  {
    var e := BulkClean(table, b);
    if e != map[] {
      var f :| f in e;
      assert f == Action || f == NewType || f == NewParent;
    }
  }
}

=== FILE: comments.dfy ===
/** The comment template filters and tags: relative times, thread depth,
    truncation and the moderation check. */
module CommentTags {
  import opened Wrappers
  import opened Clock
  import opened Text

  // ---------------------------------------------------------------------------
  // days_since

  const Minute: nat := 60
  const Hour: nat := 3600
  const Day: nat := 86400
  const Week: nat := 604800
  const Month: nat := 2592000
  const Year: nat := 31536000

  /** The bucket `days_since` puts an elapsed time in, with its count. */
  datatype Ago =
    | JustNow
    | Minutes(count: int)
    | Hours(count: int)
    | Today
    | Yesterday
    | Days(count: int)
    | Weeks(count: int)
    | Months(count: int)
    | Years(count: int)

  /** The bucket of an elapsed time in whole seconds. Under a minute,
      including a negative time (a date in the future), is "just now". */
  function Bucket(seconds: int): (a: Ago)
    ensures a.JustNow? <==> seconds < Minute
    ensures a.Minutes? <==> Minute <= seconds < Hour
    ensures a.Hours? <==> Hour <= seconds < Day
    ensures a.Yesterday? || a.Days? <==> Day <= seconds < Week
    ensures a.Weeks? <==> Week <= seconds < Month
    ensures a.Months? <==> Month <= seconds < Year
    ensures a.Years? <==> Year <= seconds
    ensures a != Today
  {
    if seconds < Minute then JustNow
    else if seconds < Hour then Minutes(seconds / Minute)
    else if seconds < Day then Hours(seconds / Hour)
    else if seconds < Week then
      var days := seconds / Day;
      if days == 0 then Today else if days == 1 then Yesterday else Days(days)
    else if seconds < Month then Weeks(seconds / Week)
    else if seconds < Year then Months(seconds / Month)
    else Years(seconds / Year)
  }

  /** The unit length of a counted bucket, in seconds. */
  function UnitOf(a: Ago): nat {
    match a
    case Minutes(_) => Minute
    case Hours(_) => Hour
    case Days(_) => Day
    case Weeks(_) => Week
    case Months(_) => Month
    case Years(_) => Year
    case _ => 1
  }

  /** The count of every counted bucket is the number of whole units elapsed,
      at least 1 (at least 2 for days, since one day is "yesterday"), and
      bounded by the next threshold. */
  lemma BucketCount(seconds: int)
    ensures var a := Bucket(seconds);
            (a.Minutes? || a.Hours? || a.Days? || a.Weeks? || a.Months? || a.Years?) ==>
              && a.count * UnitOf(a) <= seconds < (a.count + 1) * UnitOf(a)
              && a.count >= 1
    ensures Bucket(seconds).Days? ==> 2 <= Bucket(seconds).count <= 6
    ensures Bucket(seconds).Minutes? ==> Bucket(seconds).count <= 59
    ensures Bucket(seconds).Hours? ==> Bucket(seconds).count <= 23
    ensures Bucket(seconds).Weeks? ==> Bucket(seconds).count <= 4
    ensures Bucket(seconds).Months? ==> Bucket(seconds).count <= 12
    ensures Bucket(seconds).Yesterday? <==> Day <= seconds < 2 * Day
  {
  }

  /** `'<n> <unit>'`, with an `s` exactly when `n > 1`, then `' ago'`. */
  function CountAgo(n: int, unit: string): (t: string)
    ensures n > 1 ==> t == IntToString(n) + " " + unit + "s ago"
    ensures n <= 1 ==> t == IntToString(n) + " " + unit + " ago"
  {
    IntToString(n) + " " + unit + (if n > 1 then "s" else "") + " ago"
  }

  /** The text of a bucket. */
  function AgoText(a: Ago): string {
    match a
    case JustNow => "just now"
    case Minutes(n) => CountAgo(n, "minute")
    case Hours(n) => CountAgo(n, "hour")
    case Today => "today"
    case Yesterday => "yesterday"
    case Days(n) => IntToString(n) + " days ago"
    case Weeks(n) => CountAgo(n, "week")
    case Months(n) => CountAgo(n, "month")
    case Years(n) => CountAgo(n, "year")
  }

  /** `days_since`: `''` for a missing date, otherwise the text of the
      bucket of `now - value`. */
  function DaysSince(value: Option<Instant>, now: Instant): (t: string)
    ensures value.None? ==> t == ""
    ensures value.Some? ==> t == AgoText(Bucket(now - value.value))
    ensures value.Some? && now - value.value < Minute ==> t == "just now"
    ensures value.Some? && Day <= now - value.value < 2 * Day ==> t == "yesterday"
  {
    match value
    case None => ""
    case Some(v) => AgoText(Bucket(now - v))
  }

  /** Exactly one minute ago reads "1 minute ago", without a plural `s`. */
  lemma OneMinuteAgo(now: Instant)
    ensures DaysSince(Some(now - 60), now) == "1 minute ago"
  {
    assert Bucket(60) == Minutes(1);
    assert IntToString(1) == "1";
  }

  /** Three days ago reads "3 days ago". */
  lemma ThreeDaysAgo(now: Instant)
    ensures DaysSince(Some(now - 3 * Day), now) == "3 days ago"
  {
    assert Bucket(3 * Day) == Days(3);
    assert IntToString(3) == "3";
  }

  /** "Today" is never shown: the day bucket starts at one whole day. */
  lemma NeverToday(value: Instant, now: Instant)
    ensures DaysSince(Some(value), now) != "today"
  {
    var a := Bucket(now - value);
    IntToStringSign(if a.Minutes? || a.Hours? || a.Days? || a.Weeks? || a.Months? || a.Years? then a.count else 0);
    match a
    case Minutes(n) => assert DaysSince(Some(value), now)[0] == IntToString(n)[0];
    case Hours(n) => assert DaysSince(Some(value), now)[0] == IntToString(n)[0];
    case Days(n) => assert DaysSince(Some(value), now)[0] == IntToString(n)[0];
    case Weeks(n) => assert DaysSince(Some(value), now)[0] == IntToString(n)[0];
    case Months(n) => assert DaysSince(Some(value), now)[0] == IntToString(n)[0];
    case Years(n) => assert DaysSince(Some(value), now)[0] == IntToString(n)[0];
    case _ =>
  }

  // ---------------------------------------------------------------------------
  // comment_depth

  /** The `parent` link of every comment, by id. */
  type ParentLinks = map<nat, Option<nat>>

  /** Every parent a comment names is itself a comment (the foreign key). */
  predicate ParentsClosed(links: ParentLinks) {
    forall k :: k in links && links[k].Some? ==> links[k].value in links
  }

  /** The comment `k` hops up from `c`, if the chain is that long. */
  function Ancestor(links: ParentLinks, c: nat, k: nat): (a: Option<nat>)
    requires ParentsClosed(links) && c in links
    ensures a.Some? ==> a.value in links
  {
    if k == 0 then Some(c)
    else
      match Ancestor(links, c, k - 1)
      case None => None
      case Some(p) => links[p]
  }

  /** The deepest level the loop counts to before it stops. */
  const MaxDepth: nat := 11

  /** `comment_depth`: follows parent links, stopping at a top-level comment
      or after 11 hops, so that a cycle of links cannot hang it. */
  method CommentDepth(links: ParentLinks, c: nat) returns (depth: nat)
    requires ParentsClosed(links) && c in links
    ensures depth <= MaxDepth
    ensures forall i :: 1 <= i <= depth ==> Ancestor(links, c, i).Some?
    ensures depth < MaxDepth ==> Ancestor(links, c, depth + 1).None?
  {
    depth := 0;
    var current := c;
    while links[current].Some?
      invariant depth <= MaxDepth
      invariant current in links && Ancestor(links, c, depth) == Some(current)
      invariant forall i :: 1 <= i <= depth ==> Ancestor(links, c, i).Some?
      decreases MaxDepth - depth
    {
      depth := depth + 1;
      current := links[current].value;
      if depth > 10 {
        break;
      }
    }
  }

  /** A comment that is its own parent has an ancestor at every distance, so
      `CommentDepth` stops at 11 for it rather than looping. */
  lemma DepthOfLoop(links: ParentLinks, c: nat)
    requires ParentsClosed(links) && c in links && links[c] == Some(c)
    ensures forall i :: Ancestor(links, c, i) == Some(c)
  {
    forall i: nat
      ensures Ancestor(links, c, i) == Some(c)
    {
      AncestorOfSelfLoop(links, c, i);
    }
  }

  lemma {:induction false} AncestorOfSelfLoop(links: ParentLinks, c: nat, i: nat)
    requires ParentsClosed(links) && c in links && links[c] == Some(c)
    ensures Ancestor(links, c, i) == Some(c)
  {
    if i > 0 {
      AncestorOfSelfLoop(links, c, i - 1);
    }
  }

  // ---------------------------------------------------------------------------
  // truncate_comment

  /** `truncate_comment`: `''` for empty content; the content unchanged when
      it has at most `words` words; otherwise the first `words` words (a
      Python slice, so a negative `words` counts from the end) joined by
      single spaces, then `...`. */
  function TruncateComment(content: string, words: int): (t: string)
    ensures content == "" ==> t == ""
    ensures content != "" && |Words(content)| <= words ==> t == content
    ensures content != "" && |Words(content)| > words ==>
              t == Join(PrefixSlice(Words(content), words), " ") + "..."
  {
    if content == "" then ""
    else
      var ws := Words(content);
      if |ws| <= words then content else Join(PrefixSlice(ws, words), " ") + "..."
  }

  /** A truncated comment keeps exactly the first `words` words of the
      original. */
  lemma TruncatedKeepsFirstWords(content: string, words: nat)
    requires |Words(content)| > words
    ensures var t := TruncateComment(content, words);
            |t| >= 3 && t[|t| - 3..] == "..."
            && Words(t[..|t| - 3]) == Words(content)[..words]
  {
    var ws := Words(content);
    WordsAreWords(content);
    var kept := ws[..words];
    assert PrefixSlice(ws, words) == kept;
    assert forall i :: 0 <= i < |kept| ==> IsWord(kept[i]);
    WordsOfJoin(kept);
    var t := TruncateComment(content, words);
    assert t == Join(kept, " ") + "...";
    assert t[..|t| - 3] == Join(kept, " ");
  }

  // ---------------------------------------------------------------------------
  // can_moderate_comment

  /** The parts of `request.user` the checks read. */
  datatype User = User(isAuthenticated: bool, isStaff: bool, isSuperuser: bool)

  /** `can_moderate_comment`: authenticated staff or superusers. */
  function CanModerate(u: User): (ok: bool)
    ensures ok <==> u.isAuthenticated && (u.isStaff || u.isSuperuser)
  {
    if !u.isAuthenticated then false
    else if u.isStaff || u.isSuperuser then true
    else false
  }
}

/** The comment views: posting a comment, loading a page of comments, and
    moderating one. */
module CommentViews {
  import opened Wrappers
  import opened Clock
  import opened Text
  import opened Requests
  import Pagination
  import CommentTags

  /** A `Comment` row. */
  datatype Comment = Comment(
    mediaItem: nat,
    parent: Option<nat>,
    name: string,
    email: string,
    website: string,
    content: string,
    isApproved: bool,
    isSpam: bool,
    isFeatured: bool,
    ipAddress: Option<string>,
    userAgent: string,
    canUseAsTestimonial: bool,
    testimonialApproved: bool,
    createdAt: Instant)

  /** The `Comment` table, by primary key. */
  type CommentTable = map<nat, Comment>

  /** The cleaned fields of a valid comment form; `canUseAsTestimonial` is the
      commenter's consent checkbox. */
  datatype CommentForm = CommentForm(name: string, email: string, website: string, content: string,
                                     canUseAsTestimonial: bool)

  /** `AddCommentView.post` for a valid form on a published media item: the
      new comment, unapproved, under the key `newId`, holding the form's
      fields, the client's address and full user agent, and stamped with the
      save time. */
  function AddComment(table: CommentTable, mediaItem: nat, form: CommentForm, parent: IdParam,
                      req: Request, newId: nat, now: Instant)
    : (r: Result<CommentTable, string>)
    requires newId !in table
    ensures r.Err? <==> parent.NotAnId?
    ensures r.Ok? ==> r.value.Keys == table.Keys + {newId}
    ensures r.Ok? ==> forall k :: k in table ==> r.value[k] == table[k]
    ensures r.Ok? ==> var c := r.value[newId];
              && c.parent == ResolveParent(table, parent).value
              && c.ipAddress == ClientIp(req)
              && c.userAgent == UserAgent(req)
              && c.mediaItem == mediaItem
              && c.name == form.name && c.email == form.email && c.website == form.website
              && c.content == form.content && c.canUseAsTestimonial == form.canUseAsTestimonial
              && c.createdAt == now
              && !c.isApproved && !c.isSpam && !c.isFeatured && !c.testimonialApproved
  {
    match ResolveParent(table, parent)
    case Err(e) => Err(e)
    case Ok(p) =>
      Ok(table[newId := Comment(mediaItem, p, form.name, form.email, form.website, form.content,
                                false, false, false, ClientIp(req), UserAgent(req),
                                form.canUseAsTestimonial, false, now)])
  }

  /** A reply to a comment that does not exist is stored as a top-level
      comment. */
  lemma MissingParentIsTopLevel(table: CommentTable, mediaItem: nat, form: CommentForm, id: nat,
                                req: Request, newId: nat, now: Instant)
    requires newId !in table && id !in table
    ensures AddComment(table, mediaItem, form, IdValue(id), req, newId, now).Ok?
    ensures AddComment(table, mediaItem, form, IdValue(id), req, newId, now).value[newId].parent == None
  {
  }

  /** Whether comment `k` is one `LoadCommentsView` lists for `mediaItem`:
      approved and top-level. */
  predicate Shown(table: CommentTable, mediaItem: nat, k: nat) {
    k in table && table[k].isApproved && table[k].parent.None? && table[k].mediaItem == mediaItem
  }

  /** The comments `LoadCommentsView` pages through: the approved top-level
      comments of one media item, in the order given by `order` (the
      table's newest-first ordering). */
  function Visible(table: CommentTable, mediaItem: nat, order: seq<nat>): (ids: seq<nat>)
    ensures |ids| <= |order|
    ensures forall i :: 0 <= i < |ids| ==> Shown(table, mediaItem, ids[i])
    ensures forall k :: k in order && Shown(table, mediaItem, k) ==> k in ids
  {
    if |order| == 0 then []
    else
      var rest := Visible(table, mediaItem, order[1..]);
      assert forall j :: j in order[1..] ==> j in order;
      if Shown(table, mediaItem, order[0]) then [order[0]] + rest else rest
  }

  /** The filter keeps the display order: the comments of `a + b` are those
      of `a` followed by those of `b`, and one comment is kept exactly when it
      is shown. */
  lemma {:induction false} VisibleAppend(table: CommentTable, mediaItem: nat, a: seq<nat>, b: seq<nat>, k: nat)
    ensures Visible(table, mediaItem, a + b) == Visible(table, mediaItem, a) + Visible(table, mediaItem, b)
    ensures Visible(table, mediaItem, [k]) == (if Shown(table, mediaItem, k) then [k] else [])
    decreases |a|
  {
    if |a| > 0 {
      assert (a + b)[1..] == a[1..] + b;
      VisibleAppend(table, mediaItem, a[1..], b, k);
    } else {
      assert a + b == b;
    }
    assert [k][1..] == [];
  }

  /** `LoadCommentsView.get`: page `page` of the visible comments. */
  function LoadComments(table: CommentTable, mediaItem: nat, order: seq<nat>, page: int)
    : (r: Result<Pagination.PageOf<nat>, string>)
    ensures r.Err? <==> page < 1
    ensures r.Ok? ==> var all := Visible(table, mediaItem, order);
              && |r.value.items| <= Pagination.PerPage
              && (forall j :: 0 <= j < |r.value.items| ==>
                    (page - 1) * Pagination.PerPage + j < |all|
                    && r.value.items[j] == all[(page - 1) * Pagination.PerPage + j])
              && (|r.value.items| == Pagination.PerPage
                  || (page - 1) * Pagination.PerPage + |r.value.items| >= |all|)
              && (r.value.hasNext <==> |all| > page * Pagination.PerPage)
              && r.value.nextPage == (if r.value.hasNext then Some(page + 1) else None)
    ensures r.Ok? ==> forall j :: 0 <= j < |r.value.items| ==> Shown(table, mediaItem, r.value.items[j])
  {
    Pagination.LoadPage(Visible(table, mediaItem, order), page)
  }

  /** Paging reaches every visible comment: the one at position `i` is item
      `i % 10` of page `i / 10 + 1`. */
  lemma LoadCommentsReachesAll(table: CommentTable, mediaItem: nat, order: seq<nat>, i: nat)
    requires i < |Visible(table, mediaItem, order)|
    ensures var r := LoadComments(table, mediaItem, order, i / Pagination.PerPage + 1);
            && r.Ok? && i % Pagination.PerPage < |r.value.items|
            && r.value.items[i % Pagination.PerPage] == Visible(table, mediaItem, order)[i]
  {
    Pagination.ItemOnItsPage(Visible(table, mediaItem, order), i);
  }

  /** The moderation actions. */
  datatype Action = Approve | Reject | MarkSpam | Feature

  /** The `action` POST field, if it names an action. */
  function ParseAction(s: Option<string>): (a: Option<Action>)
    ensures a == Some(Approve) <==> s == Some("approve")
    ensures a == Some(Reject) <==> s == Some("reject")
    ensures a == Some(MarkSpam) <==> s == Some("spam")
    ensures a == Some(Feature) <==> s == Some("feature")
  {
    match s
    case Some("approve") => Some(Approve)
    case Some("reject") => Some(Reject)
    case Some("spam") => Some(MarkSpam)
    case Some("feature") => Some(Feature)
    case _ => None
  }

  /** What an action writes on a comment. */
  function Apply(c: Comment, a: Action): (c': Comment)
    ensures a == Approve ==> c' == c.(isApproved := true)
    ensures a == Reject ==> c' == c.(isApproved := false)
    ensures a == MarkSpam ==> c' == c.(isSpam := true, isApproved := false)
    ensures a == Feature ==> c' == c.(isFeatured := true)
  {
    match a
    case Approve => c.(isApproved := true)
    case Reject => c.(isApproved := false)
    case MarkSpam => c.(isSpam := true, isApproved := false)
    case Feature => c.(isFeatured := true)
  }

  /** Applying an action twice is applying it once. */
  lemma ApplyIdempotent(c: Comment, a: Action)
    ensures Apply(Apply(c, a), a) == Apply(c, a)
  {
  }

  /** The JSON reply of the moderation view. */
  datatype Reply = Reply(status: int, message: string)

  /** `ModerateCommentView.post`: non-staff users get 403 before the comment
      is even looked up; a missing comment is 404; an unknown action is 400;
      otherwise the action is applied and saved. */
  function Moderate(table: CommentTable, user: CommentTags.User, id: nat, action: Option<string>)
    : (r: (CommentTable, Reply))
    ensures !user.isStaff ==> r == (table, Reply(403, "Unauthorized"))
    ensures user.isStaff && id !in table ==> r.0 == table && r.1.status == 404
    ensures user.isStaff && id in table && ParseAction(action).None? ==>
              r == (table, Reply(400, "Invalid action"))
    ensures r.1.status == 200 <==> user.isStaff && id in table && ParseAction(action).Some?
    ensures r.1.status == 200 ==> r.0 == table[id := Apply(table[id], ParseAction(action).value)]
  {
    if !user.isStaff then (table, Reply(403, "Unauthorized"))
    else if id !in table then (table, Reply(404, "Not Found"))
    else
      match ParseAction(action)
      case None => (table, Reply(400, "Invalid action"))
      case Some(a) =>
        var message := match a
          case Approve => "Comment approved"
          case Reject => "Comment rejected"
          case MarkSpam => "Comment marked as spam"
          case Feature => "Comment featured";
        (table[id := Apply(table[id], a)], Reply(200, message))
  }

  /** Repeating a moderation request changes nothing more. */
  lemma ModerateIdempotent(table: CommentTable, user: CommentTags.User, id: nat, action: Option<string>)
    ensures Moderate(Moderate(table, user, id, action).0, user, id, action).0
            == Moderate(table, user, id, action).0
  {
    if user.isStaff && id in table && ParseAction(action).Some? {
      ApplyIdempotent(table[id], ParseAction(action).value);
    }
  }

  /** The moderation tag and the view disagree on superusers without staff
      status: the tag offers them moderation, the view refuses it. */
  lemma SuperuserShownButRefused(table: CommentTable, id: nat, action: Option<string>)
    ensures var u := CommentTags.User(true, false, true);
            CommentTags.CanModerate(u) && Moderate(table, u, id, action).1.status == 403
  {
  }
}

=== FILE: core.dfy ===
/** The shared model base and the single-row site settings. */
module CoreModels {
  import opened Wrappers
  import opened Clock

  /** A primary key as Python sees it: unset (`None`) or `0` is falsy. */
  predicate HasPk(pk: Option<nat>) {
    pk.Some? && pk.value != 0
  }

  /** A form's errors: the messages attached to each field, in order. */
  type FormErrors<F> = map<F, seq<string>>

  /** `Form.add_error(field, message)`. */
  function AddError<F>(errors: FormErrors<F>, field: F, message: string): (r: FormErrors<F>)
    ensures r.Keys == errors.Keys + {field}
    ensures r[field] == (if field in errors then errors[field] else []) + [message]
    ensures forall f :: f in errors && f != field ==> r[f] == errors[f]
  {
    errors[field := (if field in errors then errors[field] else []) + [message]]
  }

  /** Django's message for a required field left empty. */
  const Required := "This field is required."

  /** `ChoiceField`'s message for a value outside its choices. */
  function InvalidChoice(value: string): string {
    "Select a valid choice. " + value + " is not one of the available choices."
  }

  /** `ModelChoiceField`'s message for a key outside its query set. */
  const InvalidModelChoice := "Select a valid choice. That choice is not one of the available choices."

  // ---------------------------------------------------------------------------
  // BaseModel

  /** The fields every `BaseModel` row carries. */
  datatype BaseFields = BaseFields(createdAt: Instant, updatedAt: Instant, isActive: bool, sortOrder: int)

  /** A row as first saved: both stamps are the save time, the row is active
      and sorts at 0. */
  function NewBase(now: Instant): (b: BaseFields)
    ensures b.isActive && b.sortOrder == 0
    ensures b.createdAt == now && b.updatedAt == now
  {
    BaseFields(now, now, true, 0)
  }

  /** A later save: `auto_now` moves `updated_at`, `auto_now_add` keeps
      `created_at`, everything else is left as it is. */
  function Touch(b: BaseFields, now: Instant): (b': BaseFields)
    ensures b'.createdAt == b.createdAt && b'.updatedAt == now
    ensures b'.isActive == b.isActive && b'.sortOrder == b.sortOrder
  {
    b.(updatedAt := now)
  }

  /** However often a new row is saved again, it keeps its defaults and its
      creation time. */
  lemma {:induction false} TouchesKeepDefaults(created: Instant, saves: seq<Instant>)
    ensures var b := TouchAll(NewBase(created), saves);
            b.isActive && b.sortOrder == 0 && b.createdAt == created
            && b.updatedAt == (if |saves| == 0 then created else saves[|saves| - 1])
  {
    if |saves| > 0 {
      TouchesKeepDefaults(created, saves[..|saves| - 1]);
      assert saves[..|saves| - 1] + [saves[|saves| - 1]] == saves;
      TouchAllSnoc(NewBase(created), saves[..|saves| - 1], saves[|saves| - 1]);
    }
  }

  function TouchAll(b: BaseFields, saves: seq<Instant>): BaseFields
    decreases |saves|
  {
    if |saves| == 0 then b else TouchAll(Touch(b, saves[0]), saves[1..])
  }

  lemma {:induction false} TouchAllSnoc(b: BaseFields, saves: seq<Instant>, t: Instant)
    ensures TouchAll(b, saves + [t]) == Touch(TouchAll(b, saves), t)
    decreases |saves|
  {
    if |saves| > 0 {
      assert (saves + [t])[1..] == saves[1..] + [t];
      TouchAllSnoc(Touch(b, saves[0]), saves[1..], t);
    }
  }

  // ---------------------------------------------------------------------------
  // SiteSettings

  /** The settings row's own defaults; the other columns are blank text. */
  datatype SiteSettings = SiteSettings(siteTitle: string, siteDescription: string, copyrightText: string)

  const DefaultSettings: SiteSettings :=
    SiteSettings("Media Portfolio", "", "\U{00A9} All Rights Reserved")

  type SettingsTable = map<nat, SiteSettings>

  /** `SiteSettings.save` as written: a row without a key is dropped when any
      row exists; a row with a key is always written, which inserts a row when
      that key is not yet in the table. `newPk` is the key the database would
      assign. */
  function SaveSettingsAsWritten(table: SettingsTable, pk: Option<nat>, s: SiteSettings, newPk: nat)
    : (r: SettingsTable)
    requires newPk !in table
    ensures !HasPk(pk) && |table| > 0 ==> r == table
    ensures !HasPk(pk) && |table| == 0 ==> r == map[newPk := s]
    ensures HasPk(pk) ==> r == table[pk.value := s]
  {
    if !HasPk(pk) && |table| > 0 then table
    else if !HasPk(pk) then table[newPk := s]
    else table[pk.value := s]
  }

  /** A caller that sets a fresh key by hand gets a second settings row. */
  lemma SecondSettingsRow()
    ensures |SaveSettingsAsWritten(map[1 := DefaultSettings], Some(2), DefaultSettings, 3)| == 2
  {
    var r := SaveSettingsAsWritten(map[1 := DefaultSettings], Some(2), DefaultSettings, 3);
    assert r.Keys == {1, 2};
  }

  /** The singleton guard as intended: an existing row is updated; a row not
      yet stored is inserted only into an empty table, under its own key or
      the one the database assigns. */
  function SaveSettings(table: SettingsTable, pk: Option<nat>, s: SiteSettings, newPk: nat)
    : (r: SettingsTable)
    requires newPk !in table
    ensures HasPk(pk) && pk.value in table ==> r == table[pk.value := s]
    ensures !(HasPk(pk) && pk.value in table) && |table| > 0 ==> r == table
    ensures |table| == 0 ==> r == map[(if HasPk(pk) then pk.value else newPk) := s]
  {
    if HasPk(pk) && pk.value in table then table[pk.value := s]
    else if |table| > 0 then table
    else map[(if HasPk(pk) then pk.value else newPk) := s]
  }

  /** Whatever is saved, the table never holds more than one settings row. */
  lemma SaveSettingsKeepsSingleton(table: SettingsTable, pk: Option<nat>, s: SiteSettings, newPk: nat)
    requires newPk !in table && |table| <= 1
    ensures |SaveSettings(table, pk, s, newPk)| <= 1
    ensures |table| == 1 ==> SaveSettings(table, pk, s, newPk).Keys == table.Keys
  {
    var r := SaveSettings(table, pk, s, newPk);
    if HasPk(pk) && pk.value in table {
      assert r.Keys == table.Keys;
    }
  }

  /** The as-written save agrees with the intended one except when a key is
      set by hand that is not in a non-empty table. */
  lemma SaveSettingsAgrees(table: SettingsTable, pk: Option<nat>, s: SiteSettings, newPk: nat)
    requires newPk !in table
    requires !HasPk(pk) || pk.value in table || |table| == 0
    ensures SaveSettingsAsWritten(table, pk, s, newPk) == SaveSettings(table, pk, s, newPk)
  {
    if HasPk(pk) && |table| == 0 {
      assert table[pk.value := s] == map[pk.value := s];
    }
  }
}

/** The theme preference: the view that stores it and the template tags that
    read it. */
module Theme {
  import opened Wrappers

  /** The themes the view accepts. */
  predicate ValidTheme(t: string) {
    t == "light" || t == "dark" || t == "system"
  }

  /** The JSON reply of the theme view. */
  datatype ThemeReply = ThemeReply(status: int, success: bool, theme: string, error: string)

  const InvalidTheme: ThemeReply := ThemeReply(400, false, "", "Invalid theme")

  /** The posted theme, `'system'` when the parameter is missing. */
  function PostedTheme(param: Option<string>): (t: string)
    ensures param.None? ==> t == "system"
    ensures param.Some? ==> t == param.value
  {
    param.GetOr("system")
  }

  /** `SetThemeView.post` as written: a valid theme is stored in the session,
      but only an XHR request gets the success reply; every other request gets
      the "Invalid theme" error. `session` is the session's `theme` entry. */
  function SetThemeAsWritten(session: Option<string>, param: Option<string>, xhr: bool)
    : (r: (Option<string>, ThemeReply))
    ensures ValidTheme(PostedTheme(param)) ==> r.0 == Some(PostedTheme(param))
    ensures !ValidTheme(PostedTheme(param)) ==> r == (session, InvalidTheme)
    ensures ValidTheme(PostedTheme(param)) && xhr ==> r.1 == ThemeReply(200, true, PostedTheme(param), "")
    ensures ValidTheme(PostedTheme(param)) && !xhr ==> r.1 == InvalidTheme
  {
    var theme := PostedTheme(param);
    if ValidTheme(theme) then
      (Some(theme), if xhr then ThemeReply(200, true, theme, "") else InvalidTheme)
    else (session, InvalidTheme)
  }

  /** A plain form post of a valid theme changes the theme and is told the
      theme was invalid. */
  lemma ValidThemeReportedInvalid()
    ensures SetThemeAsWritten(None, Some("dark"), false) == (Some("dark"), InvalidTheme)
  {
  }

  /** The theme view as intended: a valid theme is stored and acknowledged,
      whatever the request's `X-Requested-With` header; an invalid one is
      refused and the session left alone. */
  function SetTheme(session: Option<string>, param: Option<string>): (r: (Option<string>, ThemeReply))
    ensures r.1.success <==> ValidTheme(PostedTheme(param))
    ensures r.1.success ==> r.0 == Some(PostedTheme(param)) && r.1.status == 200
                            && r.1.theme == PostedTheme(param)
    ensures !r.1.success ==> r == (session, InvalidTheme)
  {
    var theme := PostedTheme(param);
    if ValidTheme(theme) then (Some(theme), ThemeReply(200, true, theme, ""))
    else (session, InvalidTheme)
  }

  /** Both versions store the same thing, and agree on every XHR request. */
  lemma SetThemeAgrees(session: Option<string>, param: Option<string>, xhr: bool)
    ensures SetThemeAsWritten(session, param, xhr).0 == SetTheme(session, param).0
    ensures xhr ==> SetThemeAsWritten(session, param, xhr) == SetTheme(session, param)
  {
  }

  /** The session only ever holds a valid theme, if it held one or none before. */
  lemma StoredThemeStaysValid(session: Option<string>, param: Option<string>, xhr: bool)
    requires session.None? || ValidTheme(session.value)
    ensures var s := SetThemeAsWritten(session, param, xhr).0;
            s.None? || ValidTheme(s.value)
  {
  }

  // ---------------------------------------------------------------------------
  // Template tags

  /** What the tags see: no request in the context, or a request whose
      session holds `theme` or not. */
  datatype TagContext = NoRequest | WithRequest(theme: Option<string>)

  /** The three-way choice shared by `theme_class` and `theme_attr`. */
  function ByTheme(ctx: TagContext, light: string, dark: string): string {
    if ctx.WithRequest? && ctx.theme == Some("dark") then dark
    else if ctx.WithRequest? && ctx.theme == Some("light") then light
    else ""
  }

  /** `theme_class`, with its default classes `'light'` and `'dark'`. */
  function ThemeClass(ctx: TagContext, lightClass: string := "light", darkClass: string := "dark")
    : (c: string)
    ensures ctx.WithRequest? && ctx.theme == Some("dark") ==> c == darkClass
    ensures ctx.WithRequest? && ctx.theme == Some("light") ==> c == lightClass
    ensures !(ctx.WithRequest? && ctx.theme in [Some("dark"), Some("light")]) ==> c == ""
  {
    ByTheme(ctx, lightClass, darkClass)
  }

  /** `theme_attr`. */
  function ThemeAttr(ctx: TagContext, lightAttr: string, darkAttr: string): (a: string)
    ensures ctx.WithRequest? && ctx.theme == Some("dark") ==> a == darkAttr
    ensures ctx.WithRequest? && ctx.theme == Some("light") ==> a == lightAttr
    ensures !(ctx.WithRequest? && ctx.theme in [Some("dark"), Some("light")]) ==> a == ""
  {
    ByTheme(ctx, lightAttr, darkAttr)
  }

  /** `theme_switcher`'s `current_theme`. */
  function CurrentTheme(ctx: TagContext): (t: string)
    ensures ctx.NoRequest? ==> t == "system"
    ensures ctx.WithRequest? && ctx.theme.None? ==> t == "system"
    ensures ctx.WithRequest? && ctx.theme.Some? ==> t == ctx.theme.value
  {
    if ctx.WithRequest? then ctx.theme.GetOr("system") else "system"
  }

  /** `theme_image`, with its default theme `'light'`. */
  function ThemeImage(imageLight: string, imageDark: string, theme: string := "light"): (u: string)
    ensures theme == "dark" ==> u == imageDark
    ensures theme != "dark" ==> u == imageLight
  {
    if theme == "dark" then imageDark else imageLight
  }

  /** The stored theme picks the image: after `dark` is set the dark image
      is chosen when the theme is passed, and after `light` or `system` the
      light one. */
  lemma ThemeImageShowsStoredTheme(session: Option<string>, param: Option<string>,
                                   imageLight: string, imageDark: string)
    requires ValidTheme(PostedTheme(param))
    ensures var ctx := WithRequest(SetTheme(session, param).0);
            ThemeImage(imageLight, imageDark, CurrentTheme(ctx))
              == (if PostedTheme(param) == "dark" then imageDark else imageLight)
  {
  }

  /** `{{ image_light|theme_image:image_dark }}`, the usage the filter
      documents: a template filter receives its value and one argument, so the
      `theme` parameter always keeps its default and the session's theme is
      never seen. */
  function ThemeImageInTemplate(ctx: TagContext, imageLight: string, imageDark: string): (u: string)
    ensures u == imageLight
  {
    ThemeImage(imageLight, imageDark)
  }

  /** With the dark theme stored, the class tag picks the dark class while the
      documented filter usage still shows the light image. */
  lemma DarkSessionShowsLightImage()
    ensures var ctx := WithRequest(SetTheme(None, Some("dark")).0);
            && ThemeClass(ctx) == "dark"
            && ThemeImageInTemplate(ctx, "logo.png", "logo-dark.png") == "logo.png"
  {
  }

  /** The image the filter is meant to give: the one for the session's
      current theme, as `ThemeImage` picks it when that theme is passed. */
  function ThemeImageFor(ctx: TagContext, imageLight: string, imageDark: string): (u: string)
    ensures imageLight != imageDark ==> (u == imageDark <==> ThemeClass(ctx, "light", "dark") == "dark")
    ensures u == imageDark || u == imageLight
  {
    ThemeImage(imageLight, imageDark, CurrentTheme(ctx))
  }

  /** The intended filter follows the stored theme as the class tag does. */
  lemma ThemeImageForFollowsSetTheme(session: Option<string>, param: Option<string>,
                                     imageLight: string, imageDark: string)
    requires ValidTheme(PostedTheme(param))
    ensures ThemeImageFor(WithRequest(SetTheme(session, param).0), imageLight, imageDark)
              == (if PostedTheme(param) == "dark" then imageDark else imageLight)
  {
    ThemeImageShowsStoredTheme(session, param, imageLight, imageDark);
  }

  /** After a theme is set, the tags render it: the switcher shows it and the
      class tag picks the matching class, or none for `'system'`. */
  lemma TagsShowStoredTheme(session: Option<string>, param: Option<string>, light: string, dark: string)
    requires ValidTheme(PostedTheme(param))
    ensures var ctx := WithRequest(SetTheme(session, param).0);
            && CurrentTheme(ctx) == PostedTheme(param)
            && ThemeClass(ctx, light, dark)
               == (if PostedTheme(param) == "dark" then dark
                   else if PostedTheme(param) == "light" then light else "")
  {
  }

  /** With distinct non-empty classes the class tag and the switcher agree:
      the dark class is chosen exactly when the current theme is `'dark'`, the
      light class exactly when it is `'light'`. */
  lemma ThemeClassMatchesSwitcher(ctx: TagContext, light: string, dark: string)
    requires light != dark && light != "" && dark != ""
    requires ctx.WithRequest?
    ensures ThemeClass(ctx, light, dark) == dark <==> CurrentTheme(ctx) == "dark"
    ensures ThemeClass(ctx, light, dark) == light <==> CurrentTheme(ctx) == "light"
  {
  }
}

=== FILE: core_utils.dfy ===
/** Helpers of the portfolio's `core` package: unique slug generation and the
    unit choice of human-readable file sizes. */
module CoreUtils {
  import opened Text

  // ---------------------------------------------------------------------------
  // Unique slugs

  /** The `i`-th slug tried for `base`: `base` itself, then `base-1`, `base-2`, ... */
  function Candidate(base: string, i: nat): string {
    if i == 0 then base else base + "-" + NatToString(i)
  }

  /** Different attempts never produce the same slug, so a finite set of taken
      slugs cannot block every attempt. */
  lemma CandidateInjective(base: string, i: nat, j: nat)
    requires Candidate(base, i) == Candidate(base, j)
    ensures i == j
  {
    if i != 0 && j != 0 {
      var p := base + "-";
      assert Candidate(base, i) == p + NatToString(i);
      assert Candidate(base, j) == p + NatToString(j);
      assert NatToString(i) == Candidate(base, i)[|p|..];
      assert NatToString(j) == Candidate(base, j)[|p|..];
      NatToStringInjective(i, j);
    }
  }

  /** The slugs of the first `n` attempts. */
  function Attempts(base: string, n: nat): set<string> {
    if n == 0 then {} else Attempts(base, n - 1) + {Candidate(base, n - 1)}
  }

  lemma {:induction false} AttemptsMembers(base: string, n: nat, s: string)
    ensures s in Attempts(base, n) <==> exists i :: 0 <= i < n && Candidate(base, i) == s
  {
    if n > 0 {
      AttemptsMembers(base, n - 1, s);
    }
  }

  /** `n` attempts give `n` distinct slugs. */
  lemma {:induction false} AttemptsCount(base: string, n: nat)
    ensures |Attempts(base, n)| == n
  {
    if n > 0 {
      AttemptsCount(base, n - 1);
      var c := Candidate(base, n - 1);
      if c in Attempts(base, n - 1) {
        AttemptsMembers(base, n - 1, c);
        var i :| 0 <= i < n - 1 && Candidate(base, i) == c;
        CandidateInjective(base, i, n - 1);
      }
    }
  }

  /** `slug` is the first attempt for `base` that is not in `taken`. */
  ghost predicate FirstFree(base: string, taken: set<string>, slug: string) {
    exists n: nat :: slug == Candidate(base, n) && slug !in taken
      && forall i :: 0 <= i < n ==> Candidate(base, i) in taken
  }

  /** At most one slug is the first free attempt. */
  lemma FirstFreeUnique(base: string, taken: set<string>, a: string, b: string)
    requires FirstFree(base, taken, a) && FirstFree(base, taken, b)
    ensures a == b
  {
    var n: nat :| a == Candidate(base, n) && a !in taken && forall i :: 0 <= i < n ==> Candidate(base, i) in taken;
    var m: nat :| b == Candidate(base, m) && b !in taken && forall i :: 0 <= i < m ==> Candidate(base, i) in taken;
  }

  lemma SubsetCard<T>(a: set<T>, b: set<T>)
    requires a <= b
    ensures |a| <= |b|
  {
    assert b == a + (b - a);
    assert a !! (b - a);
  }

  /** The suffix loop shared by `generate_unique_slug` and `Project.save`: try
      `base`, then `base-1`, `base-2`, ... until one is not taken. It stops after
      at most `|taken| + 1` attempts. */
  method UniqueSlug(base: string, taken: set<string>) returns (slug: string)
    ensures slug !in taken
    ensures FirstFree(base, taken, slug)
    ensures base !in taken ==> slug == base
    ensures base in taken ==> exists n: nat :: 1 <= n && slug == base + "-" + NatToString(n)
  {
    slug := base;
    var counter: nat := 1;
    while slug in taken
      invariant 1 <= counter
      invariant slug == Candidate(base, counter - 1)
      invariant forall i :: 0 <= i < counter - 1 ==> Candidate(base, i) in taken
      invariant counter - 1 <= |taken|
      decreases |taken| - (counter - 1)
    {
      assert forall i :: 0 <= i < counter ==> Candidate(base, i) in taken;
      forall s | s in Attempts(base, counter)
        ensures s in taken
      {
        AttemptsMembers(base, counter, s);
      }
      AttemptsCount(base, counter);
      SubsetCard(Attempts(base, counter), taken);
      slug := base + "-" + NatToString(counter);
      counter := counter + 1;
    }
    assert counter - 1 == 0 || slug == base + "-" + NatToString(counter - 1);
  }

  /** `generate_unique_slug`: the first free attempt for `slugify(title)` among
      the slugs already stored. */
  method GenerateUniqueSlug(slugify: string -> string, title: string, existing: set<string>)
    returns (slug: string)
    ensures slug !in existing
    ensures FirstFree(slugify(title), existing, slug)
    ensures slugify(title) !in existing ==> slug == slugify(title)
  {
    slug := UniqueSlug(slugify(title), existing);
  }

  // ---------------------------------------------------------------------------
  // File sizes

  /** The unit labels of `format_file_size`, smallest first. */
  const Units: seq<string> := ["B", "KB", "MB", "GB", "TB"]

  /** Bytes per unit: 1024 to the power of the unit index. */
  function UnitBytes(i: nat): (b: nat)
    requires i < 5
    ensures b >= 1
    ensures i > 0 ==> b == 1024 * UnitBytes(i - 1)
  {
    if i == 0 then 1
    else if i == 1 then 1024
    else if i == 2 then 1048576
    else if i == 3 then 1073741824
    else 1099511627776
  }

  /** What `format_file_size` reports: the literal `"0 B"`, or a unit index
      into `Units` with the integer part of the scaled size. */
  datatype SizeLabel = ZeroBytes | Scaled(unit: nat, whole: int)

  /** `format_file_size` for an integer byte count: zero is `"0 B"`; otherwise
      the unit is the largest power of 1024 (up to TB) that fits, and `whole`
      is the integer part of the scaled size. Sizes below 1024, including
      negative ones, stay in bytes. */
  method FormatFileSize(size: int) returns (r: SizeLabel)
    ensures r.ZeroBytes? <==> size == 0
    ensures r.Scaled? ==> r.unit < 5
    ensures r.Scaled? ==> (r.unit == 0 <==> size < 1024)
    ensures r.Scaled? && r.unit > 0 ==> UnitBytes(r.unit) <= size
    ensures r.Scaled? && r.unit < 4 ==> size < UnitBytes(r.unit) * 1024
    ensures r.Scaled? ==> r.whole == size / UnitBytes(r.unit)
  {
    if size == 0 {
      return ZeroBytes;
    }
    var scaled := size;
    var i: nat := 0;
    while scaled >= 1024 && i < |Units| - 1
      invariant i < 5
      invariant scaled == size / UnitBytes(i)
      invariant i > 0 ==> UnitBytes(i) <= size
    {
      scaled := scaled / 1024;
      i := i + 1;
    }
    r := Scaled(i, scaled);
  }
}

=== FILE: github_sync.dfy ===
/** The `sync_github` management command: it fetches a user's repositories page
    by page, upserts every non-fork into the repository store by full name,
    pushes stars, forks and a language onto the matching projects, and records
    the run in a sync log. */
module GitHubSync {
  import opened Wrappers
  import opened Clock
  import opened Text
  import Projects

  // ---------------------------------------------------------------------------
  // Records, rows and collaborators

  /** One repository object of the GitHub API listing: the keys the command
      reads. JSON `null` is `None`; a missing `fork` or `languages_url` reads as
      falsy and is `false` or `None`. */
  datatype RepoRecord = RepoRecord(
    fullName: string,
    name: string,
    description: Option<string>,
    htmlUrl: string,
    cloneUrl: string,
    homepage: Option<string>,
    stargazersCount: int,
    forksCount: int,
    watchersCount: int,
    openIssuesCount: int,
    language: Option<string>,
    createdAt: string,
    updatedAt: string,
    pushedAt: string,
    fork: bool,
    languagesUrl: Option<string>)

  /** The `languages` JSON of a repository: bytes of code per language. */
  type Languages = map<string, int>

  /** A `GitHubRepo` row, without its key `full_name` and its automatic
      timestamps. */
  datatype Repo = Repo(
    name: string,
    description: string,
    htmlUrl: string,
    cloneUrl: string,
    homepage: string,
    starsCount: int,
    forksCount: int,
    watchersCount: int,
    openIssuesCount: int,
    primaryLanguage: string,
    languages: Languages,
    createdAtGithub: Instant,
    updatedAtGithub: Instant,
    pushedAtGithub: Instant)

  /** The `GitHubRepo` table, keyed by its unique `full_name`. */
  type RepoStore = map<string, Repo>

  /** What the command receives from outside: the API token, and the foreign
      calls it makes. `fromIso` is `datetime.fromisoformat` (an error carries
      the exception text); `fetchLanguages(url, auth)` is the languages
      request with its `Authorization` header, `None` when it raises; `now` is
      `timezone.now()` during the run. */
  datatype SyncEnv = SyncEnv(
    token: Option<string>,
    fromIso: string -> Result<Instant, string>,
    fetchLanguages: (string, Option<string>) -> Option<Languages>,
    now: Instant)

  /** The `Authorization` header sent with every request: `token <token>` when
      a token is given and non-empty, none otherwise. */
  function AuthHeader(token: Option<string>): (h: Option<string>)
    ensures h.Some? <==> Truthy(token)
    ensures h.Some? ==> h.value == "token " + token.value
  {
    if Truthy(token) then Some("token " + token.value) else None
  }

  // ---------------------------------------------------------------------------
  // Paging

  /** The reply to one page request: a JSON list, or a failed request. */
  datatype PageResult = Page(items: seq<RepoRecord>) | PageError(message: string)

  /** The URL of page `page` of `username`'s repositories, 100 per page. */
  function PageUrl(username: string, page: nat): (url: string)
    ensures url == "https://api.github.com/users/" + username
                   + "/repos?per_page=100&sort=updated&page=" + NatToString(page)
  {
    "https://api.github.com/users/" + username + "/repos?per_page=100&sort=updated&page="
      + NatToString(page)
  }

  /** Different pages are fetched from different URLs. */
  lemma PageUrlInjective(username: string, a: nat, b: nat)
    requires PageUrl(username, a) == PageUrl(username, b)
    ensures a == b
  {
    var p := "https://api.github.com/users/" + username + "/repos?per_page=100&sort=updated&page=";
    assert PageUrl(username, a)[|p|..] == NatToString(a);
    assert PageUrl(username, b)[|p|..] == NatToString(b);
    NatToStringInjective(a, b);
  }

  /** A page that ends the paging loop: an empty list or a failed request. */
  predicate StopsPaging(r: PageResult) {
    r.PageError? || r.items == []
  }

  /** The records of all the listed pages, in order. */
  function Flatten(pages: seq<PageResult>): seq<RepoRecord> {
    if |pages| == 0 then []
    else (if pages[0].Page? then pages[0].items else []) + Flatten(pages[1..])
  }

  /** What `fetch_github_repos` returns when page `i + 1` gets the reply
      `pages[i]`, and every page after the last one is empty. */
  function Collected(pages: seq<PageResult>): seq<RepoRecord> {
    if |pages| == 0 || StopsPaging(pages[0]) then []
    else pages[0].items + Collected(pages[1..])
  }

  /** The records fetched are exactly those of the pages before the first
      empty or failed one: a failure silently ends paging and keeps what came
      before it, and nothing after it is fetched. */
  lemma {:induction false} CollectedUpToStop(pages: seq<PageResult>, k: nat)
    requires k <= |pages|
    requires forall i :: 0 <= i < k ==> !StopsPaging(pages[i])
    requires k < |pages| ==> StopsPaging(pages[k])
    ensures Collected(pages) == Flatten(pages[..k])
  {
    if k > 0 {
      CollectedUpToStop(pages[1..], k - 1);
      assert pages[..k][1..] == pages[1..][..k - 1];
    }
  }

  /** `fetch_github_repos`: requests pages 1, 2, ... and extends the result
      with each page until one is empty or fails. */
  method FetchGitHubRepos(pages: seq<PageResult>) returns (all: seq<RepoRecord>, lastPage: nat)
    ensures all == Collected(pages)
    ensures 1 <= lastPage <= |pages| + 1
    ensures forall i :: 0 <= i < lastPage - 1 ==> !StopsPaging(pages[i])
    ensures lastPage <= |pages| ==> StopsPaging(pages[lastPage - 1])
  {
    all := [];
    var page: nat := 1;
    while page <= |pages| && !StopsPaging(pages[page - 1])
      invariant 1 <= page <= |pages| + 1
      invariant forall i :: 0 <= i < page - 1 ==> !StopsPaging(pages[i])
      invariant all + Collected(pages[page - 1..]) == Collected(pages)
      decreases |pages| + 1 - page
    {
      assert pages[page - 1..][1..] == pages[page..];
      all := all + pages[page - 1].items;
      page := page + 1;
    }
    lastPage := page;
  }

  // ---------------------------------------------------------------------------
  // One record

  /** `fromisoformat` applied to a GitHub timestamp after `Z` became `+00:00`. */
  function ParseGitHubTime(env: SyncEnv, s: string): Result<Instant, string> {
    env.fromIso(ReplaceChar(s, 'Z', "+00:00"))
  }

  /** The three timestamps, parsed in the order the defaults are built; the
      first failure is the error. */
  function ParseDates(env: SyncEnv, r: RepoRecord): (d: Result<(Instant, Instant, Instant), string>)
    ensures d.Ok? <==> ParseGitHubTime(env, r.createdAt).Ok?
                       && ParseGitHubTime(env, r.updatedAt).Ok?
                       && ParseGitHubTime(env, r.pushedAt).Ok?
    ensures d.Ok? ==> d.value == (ParseGitHubTime(env, r.createdAt).value,
                                  ParseGitHubTime(env, r.updatedAt).value,
                                  ParseGitHubTime(env, r.pushedAt).value)
    ensures ParseGitHubTime(env, r.createdAt).Err? ==> d == Err(ParseGitHubTime(env, r.createdAt).error)
  {
    match ParseGitHubTime(env, r.createdAt)
    case Err(e) => Err(e)
    case Ok(c) =>
      match ParseGitHubTime(env, r.updatedAt)
      case Err(e) => Err(e)
      case Ok(u) =>
        match ParseGitHubTime(env, r.pushedAt)
        case Err(e) => Err(e)
        case Ok(p) => Ok((c, u, p))
  }

  /** `fetch_languages`: the languages JSON, or `{}` when the request fails. */
  function FetchLanguages(env: SyncEnv, url: string): (langs: Languages)
    ensures env.fetchLanguages(url, AuthHeader(env.token)).None? ==> langs == map[]
    ensures env.fetchLanguages(url, AuthHeader(env.token)).Some? ==>
              langs == env.fetchLanguages(url, AuthHeader(env.token)).value
  {
    env.fetchLanguages(url, AuthHeader(env.token)).GetOr(map[])
  }

  /** The `languages` a row holds after its record is processed: fetched when
      the record has a languages URL, otherwise the stored value (the field's
      default `{}` for a new row). */
  function RowLanguages(env: SyncEnv, store: RepoStore, r: RepoRecord): Languages {
    if Truthy(r.languagesUrl) then FetchLanguages(env, r.languagesUrl.value)
    else if r.fullName in store then store[r.fullName].languages
    else map[]
  }

  /** The row `update_or_create` writes for `r` with parsed dates `d`. */
  function RepoRow(r: RepoRecord, d: (Instant, Instant, Instant), languages: Languages): (row: Repo)
    ensures row.description == OrEmpty(r.description)
    ensures row.homepage == OrEmpty(r.homepage)
    ensures row.primaryLanguage == OrEmpty(r.language)
    ensures row.starsCount == r.stargazersCount && row.forksCount == r.forksCount
    ensures row.watchersCount == r.watchersCount && row.openIssuesCount == r.openIssuesCount
    ensures row.name == r.name && row.htmlUrl == r.htmlUrl && row.cloneUrl == r.cloneUrl
    ensures (row.createdAtGithub, row.updatedAtGithub, row.pushedAtGithub) == d
    ensures row.languages == languages
  {
    Repo(r.name, OrEmpty(r.description), r.htmlUrl, r.cloneUrl, OrEmpty(r.homepage),
         r.stargazersCount, r.forksCount, r.watchersCount, r.openIssuesCount,
         OrEmpty(r.language), languages, d.0, d.1, d.2)
  }

  // ---------------------------------------------------------------------------
  // Pushing stats onto projects

  /** The `github_url__icontains=full_name` filter. */
  predicate Matches(p: Projects.Project, r: RepoRecord) {
    IContains(p.githubUrl, r.fullName)
  }

  /** The technical stack after the update: `[language]` when the stack was
      empty and the language is non-empty, else unchanged. */
  function StackAfter(stack: seq<string>, r: RepoRecord): (s: seq<string>)
    ensures stack != [] ==> s == stack
    ensures stack == [] && Truthy(r.language) ==> s == [r.language.value]
    ensures stack == [] && !Truthy(r.language) ==> s == []
  {
    if stack == [] && Truthy(r.language) then [r.language.value] else stack
  }

  /** `update_project_from_repo`: every matching project gets the record's
      stars and forks, the sync time and possibly a stack; the others are
      untouched, and no project is added or removed. */
  function Propagate(projects: Projects.ProjectTable, r: RepoRecord, now: Instant)
    : (ps: Projects.ProjectTable)
    ensures ps.Keys == projects.Keys
    ensures forall k :: k in projects && !Matches(projects[k], r) ==> ps[k] == projects[k]
    ensures forall k :: k in projects && Matches(projects[k], r) ==>
              && ps[k].starsCount == r.stargazersCount
              && ps[k].forksCount == r.forksCount
              && ps[k].lastGithubSync == Some(now)
              && ps[k].technicalStack == StackAfter(projects[k].technicalStack, r)
              && ps[k] == projects[k].(starsCount := ps[k].starsCount,
                                       forksCount := ps[k].forksCount,
                                       lastGithubSync := ps[k].lastGithubSync,
                                       technicalStack := ps[k].technicalStack)
  {
    map k | k in projects ::
      if Matches(projects[k], r) then
        projects[k].(starsCount := r.stargazersCount, forksCount := r.forksCount,
                     lastGithubSync := Some(now),
                     technicalStack := StackAfter(projects[k].technicalStack, r))
      else projects[k]
  }

  /** Pushing the same record twice is the same as pushing it once. */
  lemma PropagateIdempotent(projects: Projects.ProjectTable, r: RepoRecord, now: Instant)
    ensures Propagate(Propagate(projects, r, now), r, now) == Propagate(projects, r, now)
  {
    var once := Propagate(projects, r, now);
    var twice := Propagate(once, r, now);
    forall k | k in projects
      ensures twice[k] == once[k]
    {
      assert once[k].githubUrl == projects[k].githubUrl;
    }
  }

  // ---------------------------------------------------------------------------
  // The loop of `handle`

  /** The database and the counters while the loop runs. */
  datatype SyncState = SyncState(
    repos: RepoStore,
    projects: Projects.ProjectTable,
    created: nat,
    updated: nat)

  /** One iteration of the loop: a fork is skipped; otherwise the dates are
      parsed (which may raise), the row is upserted by full name, the
      languages are refreshed, a counter is raised and the projects are
      updated. */
  function SyncRecord(env: SyncEnv, st: SyncState, r: RepoRecord): (res: Result<SyncState, string>)
    ensures r.fork ==> res == Ok(st)
    ensures !r.fork ==> (res.Err? <==> ParseDates(env, r).Err?)
    ensures !r.fork && res.Err? ==> res.error == ParseDates(env, r).error
    ensures !r.fork && res.Ok? ==>
              && res.value.repos.Keys == st.repos.Keys + {r.fullName}
              && (forall k :: k in st.repos && k != r.fullName ==> res.value.repos[k] == st.repos[k])
              && res.value.repos[r.fullName]
                 == RepoRow(r, ParseDates(env, r).value, RowLanguages(env, st.repos, r))
              && res.value.projects == Propagate(st.projects, r, env.now)
              && (r.fullName !in st.repos ==> res.value.created == st.created + 1
                                              && res.value.updated == st.updated)
              && (r.fullName in st.repos ==> res.value.updated == st.updated + 1
                                             && res.value.created == st.created)
  {
    if r.fork then Ok(st)
    else
      match ParseDates(env, r)
      case Err(e) => Err(e)
      case Ok(d) =>
        var isNew := r.fullName !in st.repos;
        var row := RepoRow(r, d, RowLanguages(env, st.repos, r));
        Ok(SyncState(st.repos[r.fullName := row],
                     Propagate(st.projects, r, env.now),
                     if isNew then st.created + 1 else st.created,
                     if isNew then st.updated else st.updated + 1))
  }

  /** Where the loop ended: the database and counters, and the text of the
      exception that stopped it, if any. Rows written before the exception
      stay written. */
  datatype Outcome = Outcome(state: SyncState, error: Option<string>)

  /** The loop over the fetched records. */
  function SyncAll(env: SyncEnv, st: SyncState, recs: seq<RepoRecord>): Outcome
    decreases |recs|
  {
    if |recs| == 0 then Outcome(st, None)
    else
      match SyncRecord(env, st, recs[0])
      case Err(e) => Outcome(st, Some(e))
      case Ok(next) => SyncAll(env, next, recs[1..])
  }

  /** The records the loop does not skip, in order. */
  function NonForks(recs: seq<RepoRecord>): (rs: seq<RepoRecord>)
    ensures |rs| <= |recs|
    ensures forall i :: 0 <= i < |rs| ==> !rs[i].fork
  {
    if |recs| == 0 then []
    else (if recs[0].fork then [] else [recs[0]]) + NonForks(recs[1..])
  }

  /** The full names of the records the loop does not skip. */
  function SyncedNames(recs: seq<RepoRecord>): set<string> {
    set i | 0 <= i < |recs| && !recs[i].fork :: recs[i].fullName
  }

  /** The exception text of the first non-fork record whose dates fail to
      parse; it depends on the records alone, not on the database. */
  function FirstFailure(env: SyncEnv, recs: seq<RepoRecord>): Option<string>
    decreases |recs|
  {
    if |recs| == 0 then None
    else if !recs[0].fork && ParseDates(env, recs[0]).Err? then Some(ParseDates(env, recs[0]).error)
    else FirstFailure(env, recs[1..])
  }

  lemma SyncedNamesCons(recs: seq<RepoRecord>)
    requires |recs| > 0
    ensures SyncedNames(recs)
            == (if recs[0].fork then {} else {recs[0].fullName}) + SyncedNames(recs[1..])
  {
    var tail := recs[1..];
    forall n | n in SyncedNames(recs)
      ensures n in (if recs[0].fork then {} else {recs[0].fullName}) + SyncedNames(tail)
    {
      var i :| 0 <= i < |recs| && !recs[i].fork && recs[i].fullName == n;
      if i > 0 {
        assert tail[i - 1] == recs[i];
      }
    }
    forall n | n in SyncedNames(tail)
      ensures n in SyncedNames(recs)
    {
      var i :| 0 <= i < |tail| && !tail[i].fork && tail[i].fullName == n;
      assert recs[i + 1] == tail[i];
    }
  }

  /** Forks change nothing: neither the store, the counters nor the projects. */
  lemma {:induction false} SyncSkipsForks(env: SyncEnv, st: SyncState, recs: seq<RepoRecord>)
    ensures SyncAll(env, st, recs) == SyncAll(env, st, NonForks(recs))
    decreases |recs|
  {
    if |recs| > 0 {
      var rest := NonForks(recs[1..]);
      if recs[0].fork {
        assert NonForks(recs) == rest;
        SyncSkipsForks(env, st, recs[1..]);
      } else {
        assert NonForks(recs) == [recs[0]] + rest;
        assert NonForks(recs)[1..] == rest;
        match SyncRecord(env, st, recs[0])
        case Err(_) =>
        case Ok(next) =>
          SyncSkipsForks(env, next, recs[1..]);
      }
    }
  }

  /** The loop fails exactly on the first record whose dates do not parse. */
  lemma {:induction false} SyncErrorIsFirstFailure(env: SyncEnv, st: SyncState, recs: seq<RepoRecord>)
    ensures SyncAll(env, st, recs).error == FirstFailure(env, recs)
    decreases |recs|
  {
    if |recs| > 0 {
      match SyncRecord(env, st, recs[0])
      case Err(_) =>
      case Ok(next) =>
        SyncErrorIsFirstFailure(env, next, recs[1..]);
    }
  }

  /** On success every non-fork record was counted once, as created or as
      updated. */
  lemma {:induction false} SyncCounts(env: SyncEnv, st: SyncState, recs: seq<RepoRecord>)
    requires SyncAll(env, st, recs).error.None?
    ensures SyncAll(env, st, recs).state.created + SyncAll(env, st, recs).state.updated
            == st.created + st.updated + |NonForks(recs)|
    decreases |recs|
  {
    if |recs| > 0 {
      assert NonForks(recs) == (if recs[0].fork then [] else [recs[0]]) + NonForks(recs[1..]);
      var next := SyncRecord(env, st, recs[0]).value;
      SyncCounts(env, next, recs[1..]);
    }
  }

  /** On success the store holds the rows it held before plus one row per
      distinct non-fork full name: a repeated name overwrites, never adds. */
  lemma {:induction false} SyncKeys(env: SyncEnv, st: SyncState, recs: seq<RepoRecord>)
    requires SyncAll(env, st, recs).error.None?
    ensures SyncAll(env, st, recs).state.repos.Keys == st.repos.Keys + SyncedNames(recs)
    decreases |recs|
  {
    if |recs| > 0 {
      SyncedNamesCons(recs);
      var next := SyncRecord(env, st, recs[0]).value;
      SyncKeys(env, next, recs[1..]);
    }
  }

  /** `created` counts exactly the new rows, whether or not the loop
      finished. */
  lemma {:induction false} SyncCreatedIsGrowth(env: SyncEnv, st: SyncState, recs: seq<RepoRecord>)
    ensures SyncAll(env, st, recs).state.created - st.created
            == |SyncAll(env, st, recs).state.repos.Keys| - |st.repos.Keys|
    decreases |recs|
  {
    if |recs| > 0 {
      match SyncRecord(env, st, recs[0])
      case Err(_) =>
      case Ok(next) =>
        if !recs[0].fork {
          if recs[0].fullName in st.repos {
            assert next.repos.Keys == st.repos.Keys;
          } else {
            assert next.repos.Keys == st.repos.Keys + {recs[0].fullName};
            assert |next.repos.Keys| == |st.repos.Keys| + 1;
          }
        }
        SyncCreatedIsGrowth(env, next, recs[1..]);
    }
  }

  /** A fresh run's state: the database as found, both counters at 0. */
  function Start(repos: RepoStore, projects: Projects.ProjectTable): (st: SyncState)
    ensures st.created == 0 && st.updated == 0
  {
    SyncState(repos, projects, 0, 0)
  }

  /** Running the loop again on the records of a successful run also
      succeeds, creates nothing and leaves the set of rows unchanged. */
  lemma SyncRerun(env: SyncEnv, repos: RepoStore, projects: Projects.ProjectTable,
                  recs: seq<RepoRecord>)
    requires SyncAll(env, Start(repos, projects), recs).error.None?
    ensures var first := SyncAll(env, Start(repos, projects), recs).state;
            var second := SyncAll(env, Start(first.repos, first.projects), recs);
            && second.error.None?
            && second.state.created == 0
            && second.state.updated == |NonForks(recs)|
            && second.state.repos.Keys == first.repos.Keys
  {
    var first := SyncAll(env, Start(repos, projects), recs).state;
    var st2 := Start(first.repos, first.projects);
    SyncErrorIsFirstFailure(env, Start(repos, projects), recs);
    SyncErrorIsFirstFailure(env, st2, recs);
    SyncKeys(env, Start(repos, projects), recs);
    SyncKeys(env, st2, recs);
    SyncCreatedIsGrowth(env, st2, recs);
    SyncCounts(env, st2, recs);
  }

  // ---------------------------------------------------------------------------
  // The run log

  /** `GitHubSyncLog.status`. */
  datatype LogStatus = InProgress | Success | Failed

  /** A `GitHubSyncLog` row. */
  datatype SyncLog = SyncLog(
    status: LogStatus,
    reposCreated: int,
    reposUpdated: int,
    errorMessage: string)

  /** The log as created when the run starts. */
  function StartLog(): (log: SyncLog)
    ensures log.status == InProgress
    ensures log.reposCreated == 0 && log.reposUpdated == 0 && log.errorMessage == ""
  {
    SyncLog(InProgress, 0, 0, "")
  }

  /** The only moves of a log: from `in_progress` to a final status. */
  predicate LogMove(before: SyncLog, after: SyncLog) {
    before.status == InProgress && after.status != InProgress
  }

  /** How the run ends the log: `success` with both counts, or `failed` with
      the exception text and the counts left as they were. */
  function FinishLog(log: SyncLog, o: Outcome): (done: SyncLog)
    ensures done.status == (if o.error.None? then Success else Failed)
    ensures o.error.None? ==> done.reposCreated == o.state.created
                              && done.reposUpdated == o.state.updated
                              && done.errorMessage == log.errorMessage
    ensures o.error.Some? ==> done == log.(status := Failed, errorMessage := o.error.value)
  {
    match o.error
    case None => log.(status := Success, reposCreated := o.state.created,
                      reposUpdated := o.state.updated)
    case Some(e) => log.(status := Failed, errorMessage := e)
  }

  /** `handle`: fetch, run the loop, close the log. A failed page fetch does
      not fail the run; only an exception inside the loop does, and the rows
      written before it stay. */
  method HandleSync(env: SyncEnv, repos: RepoStore, projects: Projects.ProjectTable,
                    pages: seq<PageResult>)
    returns (repos': RepoStore, projects': Projects.ProjectTable, log: SyncLog)
    ensures LogMove(StartLog(), log)
    ensures log.status == Success <==> FirstFailure(env, Collected(pages)).None?
    ensures log.status == Success ==>
              && log.reposCreated + log.reposUpdated == |NonForks(Collected(pages))|
              && log.reposCreated == |repos'.Keys| - |repos.Keys|
              && repos'.Keys == repos.Keys + SyncedNames(Collected(pages))
              && projects'.Keys == projects.Keys
    ensures log.status == Failed ==>
              && log.reposCreated == 0 && log.reposUpdated == 0
              && log.errorMessage == FirstFailure(env, Collected(pages)).value
  {
    log := StartLog();
    var recs, _ := FetchGitHubRepos(pages);
    var st := Start(repos, projects);
    var o := SyncAll(env, st, recs);
    SyncErrorIsFirstFailure(env, st, recs);
    if o.error.None? {
      SyncCounts(env, st, recs);
      SyncKeys(env, st, recs);
      SyncCreatedIsGrowth(env, st, recs);
      SyncProjectKeys(env, st, recs);
    }
    log := FinishLog(log, o);
    repos' := o.state.repos;
    projects' := o.state.projects;
  }

  /** The loop never adds or removes a project. */
  lemma {:induction false} SyncProjectKeys(env: SyncEnv, st: SyncState, recs: seq<RepoRecord>)
    ensures SyncAll(env, st, recs).state.projects.Keys == st.projects.Keys
    decreases |recs|
  {
    if |recs| > 0 {
      match SyncRecord(env, st, recs[0])
      case Err(_) =>
      case Ok(next) =>
        SyncProjectKeys(env, next, recs[1..]);
    }
  }
}

=== FILE: inquiries.dfy ===
/** The inquiry form: which fields must be filled, and the rules that tie the
    inquiry type to the media item and the budget. */
module InquiryForms {
  import opened Wrappers
  import opened Text
  import opened CoreModels
  import opened Requests

  /** `Inquiry.INQUIRY_TYPES`. */
  const InquiryTypes: seq<string> :=
    ["general", "license", "print", "commission", "collaboration", "interview", "workshop", "other"]

  /** The inquiry types as the rules of `clean` compare them. */
  datatype InquiryKind = General | License | Print | Commission | Collaboration | Interview | Workshop | Other

  /** The choice value of each kind. */
  function KindName(k: InquiryKind): string {
    match k
    case General => "general"
    case License => "license"
    case Print => "print"
    case Commission => "commission"
    case Collaboration => "collaboration"
    case Interview => "interview"
    case Workshop => "workshop"
    case Other => "other"
  }

  /** The choice field's cleaning of the posted type: the kind whose value
      it is, or none for a value outside the choices. */
  function ParseKind(s: string): (k: Option<InquiryKind>)
    ensures k.Some? <==> s in InquiryTypes
    ensures k.Some? ==> KindName(k.value) == s
    ensures k == Some(License) <==> s == "license"
    ensures k == Some(Print) <==> s == "print"
    ensures k == Some(Commission) <==> s == "commission"
  {
    if s == "general" then Some(General)
    else if s == "license" then Some(License)
    else if s == "print" then Some(Print)
    else if s == "commission" then Some(Commission)
    else if s == "collaboration" then Some(Collaboration)
    else if s == "interview" then Some(Interview)
    else if s == "workshop" then Some(Workshop)
    else if s == "other" then Some(Other)
    else None
  }

  /** The posted form. Text fields are as posted; the media item is the
      posted choice, not yet looked up. */
  datatype InquirySubmission = InquirySubmission(
    inquiryType: string,
    mediaItem: IdParam,
    name: string,
    email: string,
    phone: string,
    company: string,
    subject: string,
    message: string,
    usageType: string,
    deadline: string,
    budgetRange: string,
    acceptedTerms: bool,
    acceptedPrivacy: bool)

  /** The form's fields. */
  datatype InquiryField =
    | InquiryType | MediaItem | Name | Email | Phone | Company | Subject | Message
    | UsageType | Deadline | BudgetRange | AcceptedTerms | AcceptedPrivacy

  /** What the form's field checks consult besides the posted data: the
      keys of the published media items the choice field offers, and
      Django's date parsing of the `deadline` text under the configured input
      formats (`true` when some format reads it). */
  datatype FormContext = FormContext(published: set<nat>, parsesAsDate: string -> bool)

  /** The fields `__init__` makes optional. */
  predicate Optional(f: InquiryField) {
    f in {Phone, Company, UsageType, Deadline, BudgetRange}
  }

  /** A text field counts as blank when stripping it leaves nothing, that is
      when it is all whitespace. */
  predicate Blank(value: string)
    decreases |value|
  {
    value == "" || (IsSpace(value[0]) && Blank(value[1..]))
  }

  lemma {:induction false} BlankIsStrippedEmpty(value: string)
    ensures Blank(value) <==> Strip(value) == ""
    decreases |value|
  {
    StripEmptyIffAllSpace(value);
    if value != "" {
      BlankIsStrippedEmpty(value[1..]);
      StripEmptyIffAllSpace(value[1..]);
      if AllSpace(value[1..]) && IsSpace(value[0]) {
        assert forall i :: 1 <= i < |value| ==> value[i] == value[1..][i - 1];
      }
    }
  }

  /** `DateField`'s message for text no input format reads. */
  const InvalidDate := "Enter a valid date."

  /** The media item as the choice field cleans it: a posted key of a
      published item, or none. */
  function CleanedMedia(ctx: FormContext, d: InquirySubmission): (m: Option<nat>)
    ensures m.Some? <==> d.mediaItem.IdValue? && d.mediaItem.id >= 0 && d.mediaItem.id as nat in ctx.published
    ensures m.Some? ==> m.value as int == d.mediaItem.id && m.value in ctx.published
  {
    match d.mediaItem
    case IdValue(id) => if id >= 0 && id as nat in ctx.published then Some(id as nat) else None
    case _ => None
  }

  /** Whether field `f` fails its own field-level check. */
  predicate FieldFails(ctx: FormContext, d: InquirySubmission, f: InquiryField) {
    match f
    case InquiryType => ParseKind(d.inquiryType).None?
    case MediaItem => !d.mediaItem.NoId? && CleanedMedia(ctx, d).None?
    case Name => Blank(d.name)
    case Email => Blank(d.email)
    case Subject => Blank(d.subject)
    case Message => Blank(d.message)
    case Deadline => d.deadline != "" && !ctx.parsesAsDate(d.deadline)
    case _ => false
  }

  /** The message of the field-level check of `f`. */
  function FieldMessage(d: InquirySubmission, f: InquiryField): string {
    match f
    case InquiryType => if d.inquiryType == "" then Required else InvalidChoice(d.inquiryType)
    case MediaItem => InvalidModelChoice
    case Deadline => InvalidDate
    case _ => Required
  }

  /** One field-level check: when field `f` fails, it gets its message. */
  function CheckField(ctx: FormContext, d: InquirySubmission, errors: FormErrors<InquiryField>, f: InquiryField)
    : (r: FormErrors<InquiryField>)
    requires f !in errors
    ensures forall g :: g in r <==> g in errors || (g == f && FieldFails(ctx, d, f))
    ensures forall g :: g in errors ==> r[g] == errors[g]
    ensures f in r ==> r[f] == [FieldMessage(d, f)]
  {
    if FieldFails(ctx, d, f) then AddError(errors, f, FieldMessage(d, f)) else errors
  }

  /** The fields with a field-level check, in the form's field order. */
  const CheckedFields: seq<InquiryField> := [InquiryType, MediaItem, Name, Email, Subject, Message, Deadline]

  /** The checks of `fields`, none listed twice or already failed, applied
      left to right: each failing field gets its one message and the other
      fields keep their errors. */
  function CheckFields(ctx: FormContext, d: InquirySubmission, errors: FormErrors<InquiryField>, fields: seq<InquiryField>)
    : (r: FormErrors<InquiryField>)
    requires forall i, j :: 0 <= i < j < |fields| ==> fields[i] != fields[j]
    requires forall i :: 0 <= i < |fields| ==> fields[i] !in errors
    ensures forall g :: g in r <==> g in errors || (g in fields && FieldFails(ctx, d, g))
    ensures forall g :: g in errors ==> r[g] == errors[g]
    ensures forall g :: g in fields && FieldFails(ctx, d, g) ==> r[g] == [FieldMessage(d, g)]
    decreases |fields|
  {
    if |fields| == 0 then errors
    else
      var e := CheckField(ctx, d, errors, fields[0]);
      assert fields[0] !in fields[1..];
      assert forall g :: g in fields <==> g == fields[0] || g in fields[1..];
      CheckFields(ctx, d, e, fields[1..])
  }

  /** The field-level errors: the inquiry type must be one of the choices,
      a chosen media item must be a published one, name, email, subject and
      message must be filled, and a deadline, when given, must read as a
      date. Phone, company, usage type and budget are free text. */
  function FieldErrors(ctx: FormContext, d: InquirySubmission): (errors: FormErrors<InquiryField>)
    ensures forall f :: f in errors <==> FieldFails(ctx, d, f)
    ensures forall f :: f in errors ==> errors[f] == [FieldMessage(d, f)]
    ensures d.inquiryType == "" ==> InquiryType in errors && errors[InquiryType] == [Required]
  {
    assert forall f :: FieldFails(ctx, d, f) ==> f in CheckedFields;
    CheckFields(ctx, d, map[], CheckedFields)
  }

  /** The inquiry type as `clean` sees it: absent when its field failed. */
  function CleanedType(d: InquirySubmission): (t: Option<InquiryKind>)
    ensures t.Some? <==> d.inquiryType in InquiryTypes
    ensures t.Some? ==> KindName(t.value) == d.inquiryType
  {
    ParseKind(d.inquiryType)
  }

  const MediaMessage := "Please select the media item for licensing/print inquiry"
  const BudgetMessage := "Please provide a budget range for commission work"
  const TermsMessage := "You must accept the terms and conditions"
  const PrivacyMessage := "You must accept the privacy policy"

  /** Whether the rule of `clean` that owns field `f` fails. The rules read
      the cleaned data, where a failed field is absent; a cleaned type equals
      the posted one, and a type outside the choices equals none of the
      values compared. */
  predicate RuleFails(ctx: FormContext, d: InquirySubmission, f: InquiryField) {
    match f
    case MediaItem => (d.inquiryType == "license" || d.inquiryType == "print") && CleanedMedia(ctx, d).None?
    case BudgetRange => d.inquiryType == "commission" && Blank(d.budgetRange)
    case AcceptedTerms => !d.acceptedTerms
    case AcceptedPrivacy => !d.acceptedPrivacy
    case _ => false
  }

  /** The message of the rule that owns field `f`. */
  function RuleMessage(f: InquiryField): string {
    match f
    case MediaItem => MediaMessage
    case BudgetRange => BudgetMessage
    case AcceptedTerms => TermsMessage
    case _ => PrivacyMessage
  }

  /** One check of `clean`: when the rule owning `f` fails, add its message
      to `f`, after any message the field check gave it. */
  function CheckRule(ctx: FormContext, d: InquirySubmission, errors: FormErrors<InquiryField>, f: InquiryField)
    : (r: FormErrors<InquiryField>)
    ensures forall g :: g in r <==> g in errors || (g == f && RuleFails(ctx, d, f))
    ensures forall g :: g in errors && !(g == f && RuleFails(ctx, d, f)) ==> r[g] == errors[g]
    ensures RuleFails(ctx, d, f) ==> r[f] == (if f in errors then errors[f] else []) + [RuleMessage(f)]
  {
    if RuleFails(ctx, d, f) then AddError(errors, f, RuleMessage(f)) else errors
  }

  /** The checks of `clean`, in the source's order. */
  const RuleOrder: seq<InquiryField> := [MediaItem, BudgetRange, AcceptedTerms, AcceptedPrivacy]

  /** The checks of `fields` applied left to right; with no field listed
      twice, each appends its own message to its own field exactly when its
      rule fails, and every other field keeps its errors. */
  function ApplyRules(ctx: FormContext, d: InquirySubmission, errors: FormErrors<InquiryField>, fields: seq<InquiryField>)
    : (r: FormErrors<InquiryField>)
    requires forall i, j :: 0 <= i < j < |fields| ==> fields[i] != fields[j]
    ensures forall g :: g in r <==> g in errors || (g in fields && RuleFails(ctx, d, g))
    ensures forall g :: g in errors && !(g in fields && RuleFails(ctx, d, g)) ==> r[g] == errors[g]
    ensures forall g :: g in fields && RuleFails(ctx, d, g) ==>
              r[g] == (if g in errors then errors[g] else []) + [RuleMessage(g)]
    decreases |fields|
  {
    if |fields| == 0 then errors
    else
      var e := CheckRule(ctx, d, errors, fields[0]);
      assert fields[0] !in fields[1..];
      assert forall g :: g in fields <==> g == fields[0] || g in fields[1..];
      ApplyRules(ctx, d, e, fields[1..])
  }

  /** `InquiryForm.clean` on top of the field errors: the four checks in
      the source's order, each appending its own message to its own field
      exactly when its rule fails, every other field keeping its errors. */
  function CleanRules(ctx: FormContext, d: InquirySubmission, errors: FormErrors<InquiryField>)
    : (r: FormErrors<InquiryField>)
    ensures forall f :: f in r <==> f in errors || RuleFails(ctx, d, f)
    ensures forall f :: f in errors && !RuleFails(ctx, d, f) ==> r[f] == errors[f]
    ensures forall f :: RuleFails(ctx, d, f) ==> r[f] == (if f in errors then errors[f] else []) + [RuleMessage(f)]
  {
    assert forall f :: RuleFails(ctx, d, f) ==> f in RuleOrder;
    ApplyRules(ctx, d, errors, RuleOrder)
  }

  /** Every error the form reports: the field checks, then `clean`. */
  function ValidateInquiry(ctx: FormContext, d: InquirySubmission): FormErrors<InquiryField> {
    CleanRules(ctx, d, FieldErrors(ctx, d))
  }

  /** A field carries an error after validation exactly when its field check
      or its `clean` rule fails. */
  lemma ValidateFieldIff(ctx: FormContext, d: InquirySubmission, f: InquiryField)
    ensures f in ValidateInquiry(ctx, d) <==> FieldFails(ctx, d, f) || RuleFails(ctx, d, f)
  {
  }

  /** The acceptance conditions, stated field by field. */
  predicate Acceptable(ctx: FormContext, d: InquirySubmission) {
    && CleanedType(d).Some?
    && !Blank(d.name) && !Blank(d.email) && !Blank(d.subject) && !Blank(d.message)
    && (d.mediaItem.NoId? || CleanedMedia(ctx, d).Some?)
    && (d.deadline == "" || ctx.parsesAsDate(d.deadline))
    && d.acceptedTerms && d.acceptedPrivacy
    && (CleanedType(d) == Some(License) || CleanedType(d) == Some(Print) ==> CleanedMedia(ctx, d).Some?)
    && (CleanedType(d) == Some(Commission) ==> !Blank(d.budgetRange))
  }

  /** No check fails exactly when the acceptance conditions hold. */
  lemma NoFailureIff(ctx: FormContext, d: InquirySubmission)
    ensures (forall f :: !FieldFails(ctx, d, f) && !RuleFails(ctx, d, f)) <==> Acceptable(ctx, d)
  {
    if Acceptable(ctx, d) {
      forall f ensures !FieldFails(ctx, d, f) && !RuleFails(ctx, d, f) {
        match f
        case InquiryType =>
        case MediaItem =>
        case Deadline =>
        case BudgetRange =>
        case _ =>
      }
    } else {
      assert || FieldFails(ctx, d, InquiryType) || FieldFails(ctx, d, Name) || FieldFails(ctx, d, Email)
             || FieldFails(ctx, d, Subject) || FieldFails(ctx, d, Message) || FieldFails(ctx, d, MediaItem)
             || FieldFails(ctx, d, Deadline) || RuleFails(ctx, d, AcceptedTerms)
             || RuleFails(ctx, d, AcceptedPrivacy) || RuleFails(ctx, d, MediaItem)
             || RuleFails(ctx, d, BudgetRange);
    }
  }

  /** The form is accepted exactly when the required fields are filled, the
      type is a known one, a chosen media item is a published one, a given
      deadline reads as a date, both boxes are ticked, a licence or print
      inquiry names a published media item and a commission names a budget. */
  lemma InquiryValidIff(ctx: FormContext, d: InquirySubmission)
    ensures ValidateInquiry(ctx, d) == map[] <==>
              && CleanedType(d).Some?
              && !Blank(d.name) && !Blank(d.email) && !Blank(d.subject) && !Blank(d.message)
              && (d.mediaItem.NoId? || CleanedMedia(ctx, d).Some?)
              && (d.deadline == "" || ctx.parsesAsDate(d.deadline))
              && d.acceptedTerms && d.acceptedPrivacy
              && (CleanedType(d) == Some(License) || CleanedType(d) == Some(Print) ==> CleanedMedia(ctx, d).Some?)
              && (CleanedType(d) == Some(Commission) ==> !Blank(d.budgetRange))
  {
    var r := ValidateInquiry(ctx, d);
    forall f ensures f in r <==> FieldFails(ctx, d, f) || RuleFails(ctx, d, f) {
      ValidateFieldIff(ctx, d, f);
    }
    NoFailureIff(ctx, d);
    if r != map[] {
      var k :| k in r;
    }
  }

  /** Of the optional fields only the deadline has a field-level check, for
      text that does not read as a date, and only the budget has a `clean`
      rule, for a commission. */
  lemma OptionalChecks(ctx: FormContext, d: InquirySubmission, f: InquiryField)
    requires Optional(f)
    ensures FieldFails(ctx, d, f) <==> f == Deadline && d.deadline != "" && !ctx.parsesAsDate(d.deadline)
    ensures RuleFails(ctx, d, f) <==> f == BudgetRange && d.inquiryType == "commission" && Blank(d.budgetRange)
  {
  }

  /** An optional field draws a field-level error only when it is a deadline
      that is not a date. */
  lemma OptionalFields(ctx: FormContext, d: InquirySubmission, f: InquiryField)
    requires Optional(f)
    ensures f in FieldErrors(ctx, d) <==> f == Deadline && d.deadline != "" && !ctx.parsesAsDate(d.deadline)
  {
    OptionalChecks(ctx, d, f);
  }

  /** After `clean`, an optional field carries an error only for a deadline
      that is not a date or for a commission's missing budget. */
  lemma OptionalFieldErrors(ctx: FormContext, d: InquirySubmission, f: InquiryField)
    requires Optional(f)
    ensures f in ValidateInquiry(ctx, d) <==>
              || (f == BudgetRange && d.inquiryType == "commission" && Blank(d.budgetRange))
              || (f == Deadline && d.deadline != "" && !ctx.parsesAsDate(d.deadline))
  {
    ValidateFieldIff(ctx, d, f);
    OptionalChecks(ctx, d, f);
  }

  /** A licence request naming an item that is not published gets both
      messages on the media item: the choice field's, then the rule's. */
  lemma UnpublishedItemForLicence(ctx: FormContext, d: InquirySubmission, id: nat)
    requires d.inquiryType == "license" && d.mediaItem == IdValue(id) && id !in ctx.published
    ensures ValidateInquiry(ctx, d)[MediaItem] == [InvalidModelChoice, MediaMessage]
  {
    assert FieldFails(ctx, d, MediaItem) && RuleFails(ctx, d, MediaItem);
  }
}

=== FILE: project_views.dfy ===
/** The project views: the like toggle, view counting once per session, the
    comment views and the difficulty label. */
module ProjectViews {
  import opened Wrappers
  import opened Clock
  import opened Text
  import opened Requests
  import opened Projects
  import Pagination
  import CoreUtils

  // ---------------------------------------------------------------------------
  // Likes

  /** The session key a like is stored under: the request's key, or the one
      the session gets when it is saved first. */
  function SessionKey(current: Option<string>, newKey: string): (key: string)
    ensures current.Some? && current.value != "" ==> key == current.value
    ensures !(current.Some? && current.value != "") ==> key == newKey
  {
    if Truthy(current) then current.value else newKey
  }

  /** The reply of the like view. */
  datatype LikeReply = LikeReply(liked: bool, likeCount: nat, message: string)

  lemma LikersAdd(likes: LikeTable, pk: nat, s: string, like: ProjectLike)
    requires (pk, s) !in likes
    ensures LikersOf(likes[(pk, s) := like], pk) == LikersOf(likes, pk) + {s}
    ensures s !in LikersOf(likes, pk)
  {
  }

  lemma LikersRemove(likes: LikeTable, pk: nat, s: string)
    requires (pk, s) in likes
    ensures LikersOf(likes - {(pk, s)}, pk) == LikersOf(likes, pk) - {s}
    ensures s in LikersOf(likes, pk)
  {
  }

  /** `LikeProjectView.post` for a published project: `get_or_create` by
      `(project, session)`; a new like stores the client address and the
      user agent cut to 255 characters, an existing one is deleted. The
      reported count is the project's count after the toggle. */
  function ToggleLike(likes: LikeTable, pk: nat, session: string, req: Request): (r: (LikeTable, LikeReply))
    ensures (pk, session) !in likes ==>
              && r.0 == likes[(pk, session) := ProjectLike(ClientIp(req), StoredUserAgent(req))]
              && r.1.liked && r.1.message == "Project liked"
              && r.1.likeCount == LikeCount(likes, pk) + 1
    ensures (pk, session) in likes ==>
              && r.0 == likes - {(pk, session)}
              && !r.1.liked && r.1.message == "Project unliked"
              && r.1.likeCount == LikeCount(likes, pk) - 1
    ensures r.1.likeCount == LikeCount(r.0, pk)
    ensures forall k :: k in likes && k != (pk, session) ==> k in r.0 && r.0[k] == likes[k]
    ensures forall k :: k in r.0 ==> |r.0[k].userAgent| <= 255 || (k in likes && r.0[k] == likes[k])
  {
    var key := (pk, session);
    if key !in likes then
      var likes' := likes[key := ProjectLike(ClientIp(req), StoredUserAgent(req))];
      LikersAdd(likes, pk, session, likes'[key]);
      (likes', LikeReply(true, LikeCount(likes', pk), "Project liked"))
    else
      var likes' := likes - {key};
      LikersRemove(likes, pk, session);
      (likes', LikeReply(false, LikeCount(likes', pk), "Project unliked"))
  }

  /** Two toggles by the same session restore the set of likes; when the
      session had not liked the project, they restore the table exactly. */
  lemma ToggleTwice(likes: LikeTable, pk: nat, session: string, req: Request)
    ensures var once := ToggleLike(likes, pk, session, req).0;
            var twice := ToggleLike(once, pk, session, req).0;
            && twice.Keys == likes.Keys
            && ((pk, session) !in likes ==> twice == likes)
            && LikeCount(twice, pk) == LikeCount(likes, pk)
  {
    var once := ToggleLike(likes, pk, session, req).0;
    var twice := ToggleLike(once, pk, session, req).0;
    if (pk, session) !in likes {
      assert twice == likes;
    } else {
      assert twice.Keys == likes.Keys;
      assert LikersOf(twice, pk) == LikersOf(likes, pk);
    }
  }

  // ---------------------------------------------------------------------------
  // View counting

  /** The session flags the detail view sets, by name. */
  type Session = map<string, bool>

  /** The session flag of project `id`: `viewed_project_<id>`. */
  function ViewedKey(id: nat): string {
    "viewed_project_" + NatToString(id)
  }

  /** Different projects use different flags. */
  lemma ViewedKeyInjective(a: nat, b: nat)
    requires ViewedKey(a) == ViewedKey(b)
    ensures a == b
  {
    var p := "viewed_project_";
    assert ViewedKey(a)[|p|..] == NatToString(a);
    assert ViewedKey(b)[|p|..] == NatToString(b);
    NatToStringInjective(a, b);
  }

  /** `ProjectDetailView.get`: the first view of a project in a session
      increments its view count and sets the flag; later views do not. */
  function RecordView(p: Project, id: nat, session: Session): (r: (Project, Session))
    ensures ViewedKey(id) in session && session[ViewedKey(id)] ==> r == (p, session)
    ensures !(ViewedKey(id) in session && session[ViewedKey(id)]) ==>
              r == (IncrementViewCount(p), session[ViewedKey(id) := true])
  {
    var key := ViewedKey(id);
    if key in session && session[key] then (p, session)
    else (IncrementViewCount(p), session[key := true])
  }

  /** However many times a session views a project, it counts once. */
  lemma ViewCountedOnce(p: Project, id: nat, session: Session)
    requires ViewedKey(id) !in session
    ensures var (p1, s1) := RecordView(p, id, session);
            var (p2, s2) := RecordView(p1, id, s1);
            p2.viewCount == p.viewCount + 1 && s2 == s1
  {
  }

  /** Viewing one project does not stop another from being counted. */
  lemma ViewsIndependent(p: Project, a: nat, b: nat, session: Session)
    requires a != b && ViewedKey(b) !in session
    ensures var s1 := RecordView(p, a, session).1;
            RecordView(p, b, s1).0.viewCount == p.viewCount + 1
  {
    if ViewedKey(a) == ViewedKey(b) {
      ViewedKeyInjective(a, b);
    }
  }

  // ---------------------------------------------------------------------------
  // Comments

  /** A `ProjectComment` row. */
  datatype ProjectComment = ProjectComment(
    project: nat,
    parent: Option<nat>,
    name: string,
    email: string,
    website: string,
    content: string,
    isApproved: bool,
    isSpam: bool,
    ipAddress: Option<string>,
    userAgent: string,
    createdAt: Instant)

  type CommentTable = map<nat, ProjectComment>

  /** `AddCommentView.post` for a valid form on a published project: the
      form's fields are saved, the reply goes under an existing parent (a
      missing one is ignored), with the client address and the user agent cut
      to 255 characters, stamped with the save time. A `parent_id`
      that is not a number raises before anything is saved. */
  function AddProjectComment(table: CommentTable, project: nat, name: string, email: string,
                             website: string, content: string, parent: IdParam,
                             req: Request, newId: nat, now: Instant)
    : (r: Result<CommentTable, string>)
    requires newId !in table
    ensures r.Err? <==> parent.NotAnId?
    ensures r.Ok? ==> r.value.Keys == table.Keys + {newId}
    ensures r.Ok? ==> forall k :: k in table ==> r.value[k] == table[k]
    ensures r.Ok? ==> var c := r.value[newId];
              && (c.parent.Some? <==> parent.IdValue? && parent.id >= 0 && parent.id as nat in table)
              && (c.parent.Some? ==> c.parent.value as int == parent.id)
              && c.project == project
              && c.name == name && c.email == email && c.website == website && c.content == content
              && c.createdAt == now
              && c.ipAddress == ClientIp(req)
              && c.userAgent == StoredUserAgent(req) && |c.userAgent| <= 255
              && !c.isApproved && !c.isSpam
  {
    match ResolveParent(table, parent)
    case Err(e) => Err(e)
    case Ok(p) =>
      Ok(table[newId := ProjectComment(project, p, name, email, website, content, false, false,
                                       ClientIp(req), StoredUserAgent(req), now)])
  }

  /** Whether comment `k` is one `LoadCommentsView` lists for `project`:
      approved and top-level. */
  predicate Listed(table: CommentTable, project: nat, k: nat) {
    k in table && table[k].isApproved && table[k].parent.None? && table[k].project == project
  }

  /** The approved top-level comments of a project, in display order. */
  function VisibleComments(table: CommentTable, project: nat, order: seq<nat>): (ids: seq<nat>)
    ensures |ids| <= |order|
    ensures forall i :: 0 <= i < |ids| ==> Listed(table, project, ids[i])
    ensures forall k :: k in order && Listed(table, project, k) ==> k in ids
  {
    if |order| == 0 then []
    else
      var rest := VisibleComments(table, project, order[1..]);
      assert forall j :: j in order[1..] ==> j in order;
      if Listed(table, project, order[0]) then [order[0]] + rest else rest
  }

  /** The filter keeps the display order: the comments of `a + b` are those
      of `a` followed by those of `b`, and one comment is kept exactly when it
      is listed. */
  lemma {:induction false} VisibleCommentsAppend(table: CommentTable, project: nat, a: seq<nat>, b: seq<nat>, k: nat)
    ensures VisibleComments(table, project, a + b)
            == VisibleComments(table, project, a) + VisibleComments(table, project, b)
    ensures VisibleComments(table, project, [k]) == (if Listed(table, project, k) then [k] else [])
    decreases |a|
  {
    if |a| > 0 {
      assert (a + b)[1..] == a[1..] + b;
      VisibleCommentsAppend(table, project, a[1..], b, k);
    } else {
      assert a + b == b;
    }
    assert [k][1..] == [];
  }

  /** `LoadCommentsView.get`: page `page` of the visible comments. A page
      below 1 is refused; otherwise the page holds the visible comments at
      positions `[(page-1)*10, page*10)`, and `next_page` is the following
      page exactly when more comments remain. */
  function LoadComments(table: CommentTable, project: nat, order: seq<nat>, page: int)
    : (r: Result<Pagination.PageOf<nat>, string>)
    ensures r.Err? <==> page < 1
    ensures r.Ok? ==> var all := VisibleComments(table, project, order);
              && |r.value.items| <= Pagination.PerPage
              && (forall j :: 0 <= j < |r.value.items| ==>
                    (page - 1) * Pagination.PerPage + j < |all|
                    && r.value.items[j] == all[(page - 1) * Pagination.PerPage + j])
              && (|r.value.items| == Pagination.PerPage
                  || (page - 1) * Pagination.PerPage + |r.value.items| >= |all|)
              && (r.value.hasNext <==> |all| > page * Pagination.PerPage)
              && r.value.nextPage == (if r.value.hasNext then Some(page + 1) else None)
    ensures r.Ok? ==> forall j :: 0 <= j < |r.value.items| ==> Listed(table, project, r.value.items[j])
  {
    Pagination.LoadPage(VisibleComments(table, project, order), page)
  }

  /** Paging reaches every visible comment: the one at position `i` is item
      `i % 10` of page `i / 10 + 1`. */
  lemma LoadCommentsReachesAll(table: CommentTable, project: nat, order: seq<nat>, i: nat)
    requires i < |VisibleComments(table, project, order)|
    ensures var r := LoadComments(table, project, order, i / Pagination.PerPage + 1);
            && r.Ok? && i % Pagination.PerPage < |r.value.items|
            && r.value.items[i % Pagination.PerPage] == VisibleComments(table, project, order)[i]
  {
    Pagination.ItemOnItsPage(VisibleComments(table, project, order), i);
  }

  // ---------------------------------------------------------------------------
  // Difficulty

  /** `Project.DIFFICULTY_LEVELS`. */
  const DifficultyLevels: seq<(string, string)> :=
    [("beginner", "Beginner"), ("intermediate", "Intermediate"),
     ("advanced", "Advanced"), ("expert", "Expert")]

  /** `dict(DIFFICULTY_LEVELS).get(level, 'Projects')`. */
  function DifficultyDisplay(level: Option<string>): (text: string)
    ensures level == Some("beginner") ==> text == "Beginner"
    ensures level == Some("intermediate") ==> text == "Intermediate"
    ensures level == Some("advanced") ==> text == "Advanced"
    ensures level == Some("expert") ==> text == "Expert"
    ensures text == "Projects" <==> !(exists i :: 0 <= i < |DifficultyLevels| && level == Some(DifficultyLevels[i].0))
  {
    LookupLabel(DifficultyLevels, level)
  }

  /** The label of the first pair whose key is `level`, or `'Projects'`. */
  function LookupLabel(pairs: seq<(string, string)>, level: Option<string>): (text: string)
    requires forall i :: 0 <= i < |pairs| ==> pairs[i].1 != "Projects"
    ensures text == "Projects" <==> !(exists i :: 0 <= i < |pairs| && level == Some(pairs[i].0))
    ensures |pairs| > 0 && level == Some(pairs[0].0) ==> text == pairs[0].1
    ensures forall i :: (0 <= i < |pairs| && level == Some(pairs[i].0)
                         && (forall j :: 0 <= j < i ==> Some(pairs[j].0) != level)) ==> text == pairs[i].1
  {
    if |pairs| == 0 then "Projects"
    else if level == Some(pairs[0].0) then pairs[0].1
    else
      var r := LookupLabel(pairs[1..], level);
      assert forall i :: 1 <= i < |pairs| ==> pairs[i] == pairs[1..][i - 1];
      r
  }
}

=== FILE: projects.dfy ===
/** The `Project` and `ProjectLike` models: the upload path of thumbnails, the
    unique slug assigned on save, the tag list, the view counter and the
    performance-score range. */
module Projects {
  import opened Wrappers
  import opened Clock
  import opened Text
  import CoreUtils

  /** The fields of a `Project` row that the modelled code reads or writes. An
      empty `thumbnail`, `thumbnailWebp` or `thumbnailBlur` means no file. */
  datatype Project = Project(
    title: string,
    slug: string,
    githubUrl: string,
    technicalStack: seq<string>,
    tags: string,
    difficultyLevel: string,
    performanceScore: int,
    starsCount: int,
    forksCount: int,
    lastGithubSync: Option<Instant>,
    viewCount: int,
    thumbnail: string,
    thumbnailWebp: string,
    thumbnailBlur: string,
    isPublished: bool)

  /** The `projects` table, by primary key. */
  type ProjectTable = map<nat, Project>

  /** A new project as the model's field defaults leave it. */
  function NewProject(title: string, slug: string, thumbnail: string): (p: Project)
    ensures p.difficultyLevel == "intermediate" && p.performanceScore == 0
    ensures p.starsCount == 0 && p.forksCount == 0 && p.viewCount == 0
    ensures p.lastGithubSync == None && p.technicalStack == [] && p.isPublished
  {
    Project(title, slug, "", [], "", "intermediate", 0, 0, 0, None, 0, thumbnail, "", "", true)
  }

  // ---------------------------------------------------------------------------
  // Thumbnail upload path

  /** The directory thumbnails are uploaded to. */
  const ThumbnailDir: string := "projects/thumbnails/"

  /** `project_thumbnail_path`: `projects/thumbnails/{slug}_{timestamp}.{ext}`,
      where `ext` is the lower-cased text after the file name's last dot (the
      whole name when it has none) and `timestamp` is the formatted upload
      time. */
  function ThumbnailPath(slug: string, timestamp: string, filename: string): (path: string)
    ensures path == ThumbnailDir + slug + "_" + timestamp + "." + ThumbnailExt(filename)
    ensures '.' !in ThumbnailExt(filename)
  {
    LowerKeepsDot(LastSegment(filename, '.'));
    ThumbnailDir + slug + "_" + timestamp + "." + ThumbnailExt(filename)
  }

  /** The extension part of the thumbnail path. */
  function ThumbnailExt(filename: string): string {
    Lower(LastSegment(filename, '.'))
  }

  lemma LowerKeepsDot(s: string)
    ensures '.' in Lower(s) <==> '.' in s
  {
    if '.' in Lower(s) {
      var i :| 0 <= i < |s| && Lower(s)[i] == '.';
    }
    if '.' in s {
      var i :| 0 <= i < |s| && s[i] == '.';
      assert Lower(s)[i] == '.';
    }
  }

  /** A name `stem.ext` keeps the lower-cased text after its last dot. */
  lemma ThumbnailExtAfterLastDot(stem: string, ext: string)
    requires '.' !in ext
    ensures ThumbnailExt(stem + "." + ext) == Lower(ext)
  {
    LastSegmentAfterSep(stem, ext, '.');
  }

  /** A name without a dot is its own extension. */
  lemma ThumbnailExtWithoutDot(filename: string)
    requires '.' !in filename
    ensures ThumbnailExt(filename) == Lower(filename)
  {
    LastSegmentWithoutSep(filename, '.');
  }

  // ---------------------------------------------------------------------------
  // Slugs on save

  /** The slugs of every project except the one with primary key `pk`: the set
      `Project.objects.filter(slug=...).exclude(pk=self.pk)` searches. A new
      project (no key yet) excludes nothing. */
  function OtherSlugs(table: ProjectTable, pk: Option<nat>): set<string> {
    set k | k in table && Some(k) != pk :: table[k].slug
  }

  /** No two projects share a slug, as the column's unique constraint demands. */
  ghost predicate SlugsUnique(table: ProjectTable) {
    forall a, b :: a in table && b in table && a != b ==> table[a].slug != table[b].slug
  }

  /** `Project.save`: an empty slug becomes `slugify(title)`, the first free of
      `slug`, `slug-1`, `slug-2`, ... among the other projects' slugs is kept,
      and the row is written under its key (`newPk`, the next free key, for a
      new project). Saving keeps slugs unique across the table. */
  method SaveProject(table: ProjectTable, pk: Option<nat>, newPk: nat, p: Project,
                     slugify: string -> string)
    returns (table': ProjectTable, id: nat, saved: Project)
    requires pk.None? ==> newPk !in table
    ensures id == pk.GetOr(newPk)
    ensures table' == table[id := saved]
    ensures saved == p.(slug := saved.slug)
    ensures saved.slug !in OtherSlugs(table, pk)
    ensures CoreUtils.FirstFree(if p.slug == "" then slugify(p.title) else p.slug,
                                OtherSlugs(table, pk), saved.slug)
    ensures SlugsUnique(table) ==> SlugsUnique(table')
  {
    var base := if p.slug == "" then slugify(p.title) else p.slug;
    var slug := CoreUtils.UniqueSlug(base, OtherSlugs(table, pk));
    saved := p.(slug := slug);
    id := pk.GetOr(newPk);
    table' := table[id := saved];
    forall a, b | a in table' && b in table' && a != b && SlugsUnique(table)
      ensures table'[a].slug != table'[b].slug
    {
      if a == id {
        assert table[b].slug in OtherSlugs(table, pk);
      } else if b == id {
        assert table[a].slug in OtherSlugs(table, pk);
      }
    }
  }

  // ---------------------------------------------------------------------------
  // Tags

  /** Strips every part and drops those that end up empty, keeping order. */
  function StripNonEmpty(parts: seq<string>): (r: seq<string>)
    ensures |r| <= |parts|
    ensures forall i :: 0 <= i < |r| ==> r[i] != "" && IsStripped(r[i])
  {
    if |parts| == 0 then []
    else
      var t := Strip(parts[0]);
      (if t == "" then [] else [t]) + StripNonEmpty(parts[1..])
  }

  /** `Project.tag_list`: the comma-separated tags, stripped, without empties. */
  function TagList(tags: string): (r: seq<string>)
    ensures forall i :: 0 <= i < |r| ==> r[i] != "" && IsStripped(r[i])
    ensures forall i :: 0 <= i < |r| ==> ',' !in r[i]
  {
    if tags == "" then []
    else
      var r := StripNonEmpty(Split(tags, ','));
      StripNonEmptyKeepsAbsent(Split(tags, ','), ',');
      r
  }

  /** Stripping never introduces a character. */
  lemma StripKeepsAbsent(s: string, c: char)
    requires c !in s
    ensures c !in Strip(s)
  {
    StripIsFramed(s);
    var i :| Framed(s, Strip(s), i);
  }

  lemma {:induction false} StripNonEmptyKeepsAbsent(parts: seq<string>, c: char)
    requires forall i :: 0 <= i < |parts| ==> c !in parts[i]
    ensures forall i :: 0 <= i < |StripNonEmpty(parts)| ==> c !in StripNonEmpty(parts)[i]
  {
    if |parts| > 0 {
      StripKeepsAbsent(parts[0], c);
      StripNonEmptyKeepsAbsent(parts[1..], c);
    }
  }

  lemma StripNonEmptyCons(ts: seq<string>)
    requires |ts| > 0 && ts[0] != "" && IsStripped(ts[0])
    ensures StripNonEmpty(ts) == [ts[0]] + StripNonEmpty(ts[1..])
  {
    StripOfStripped(ts[0]);
  }

  lemma {:induction false} StripNonEmptyOfTags(ts: seq<string>)
    requires forall i :: 0 <= i < |ts| ==> ts[i] != "" && IsStripped(ts[i])
    ensures StripNonEmpty(ts) == ts
  {
    if |ts| > 0 {
      StripNonEmptyCons(ts);
      var tail := ts[1..];
      assert forall i :: 0 <= i < |tail| ==> tail[i] == ts[i + 1];
      StripNonEmptyOfTags(tail);
      assert ts == [ts[0]] + tail;
    }
  }

  /** Writing tags as a comma-separated list and reading them back with
      `tag_list` gives the same tags, provided each is non-empty, stripped and
      comma-free (whatever spaces surround the commas, see `TagListIgnoresSpacing`). */
  lemma TagListOfJoin(ts: seq<string>)
    requires forall i :: 0 <= i < |ts| ==> ts[i] != "" && IsStripped(ts[i]) && ',' !in ts[i]
    ensures TagList(Join(ts, ",")) == ts
  {
    if |ts| > 0 {
      assert Join(ts, ",") != "" by {
        assert |Join(ts, ",")| >= |ts[0]| by { JoinLength(ts, ","); }
      }
      SplitJoin(ts, ',');
      StripNonEmptyOfTags(ts);
    }
  }

  lemma {:induction false} JoinLength(ts: seq<string>, sep: string)
    requires |ts| > 0
    ensures |Join(ts, sep)| >= |ts[0]|
  {
  }

  /** Blank parts and whitespace around commas do not change the tag list. */
  lemma TagListIgnoresSpacing(a: string, b: string)
    requires a != "" && IsStripped(a) && ',' !in a
    requires b != "" && IsStripped(b) && ',' !in b
    ensures TagList(" " + a + " , ," + b + " ") == [a, b]
  {
    var s := " " + a + " , ," + b + " ";
    var parts := [" " + a + " ", " ", b + " "];
    SpacedSplit(a, b);
    assert s != "" by { assert |s| > 0; }
    assert TagList(s) == StripNonEmpty(parts);
    SpacedStrip(a, b);
  }

  lemma SpacedSplit(a: string, b: string)
    requires ',' !in a && ',' !in b
    ensures Split(" " + a + " , ," + b + " ", ',') == [" " + a + " ", " ", b + " "]
  {
    var parts := [" " + a + " ", " ", b + " "];
    assert Join(parts[2..], ",") == b + " ";
    assert Join(parts[1..], ",") == " " + "," + (b + " ");
    assert Join(parts, ",") == " " + a + " , ," + b + " ";
    assert forall i :: 0 <= i < |parts| ==> ',' !in parts[i];
    SplitJoin(parts, ',');
  }

  lemma SpacedStrip(a: string, b: string)
    requires a != "" && IsStripped(a)
    requires b != "" && IsStripped(b)
    ensures StripNonEmpty([" " + a + " ", " ", b + " "]) == [a, b]
  {
    var parts := [" " + a + " ", " ", b + " "];
    StripSurrounded(a);
    StripTrailing(b);
    StripBlank();
    StripNonEmptyStep(parts[2..]);
    assert parts[2..][1..] == [];
    var last := StripNonEmpty(parts[2..]);
    assert last == [b];
    StripNonEmptyStep(parts[1..]);
    assert parts[1..][1..] == parts[2..];
    assert StripNonEmpty(parts[1..]) == last;
    StripNonEmptyStep(parts);
  }

  lemma StripSurrounded(a: string)
    requires a != "" && IsStripped(a)
    ensures Strip(" " + a + " ") == a
  {
    StripFramed(a, " ", " ");
  }

  lemma StripTrailing(b: string)
    requires b != "" && IsStripped(b)
    ensures Strip(b + " ") == b
  {
    StripFramed(b, "", " ");
    assert "" + b + " " == b + " ";
  }

  lemma StripBlank()
    ensures Strip(" ") == ""
  {
    StripFramed("", " ", "");
    assert " " + "" + "" == " ";
  }

  lemma StripNonEmptyStep(parts: seq<string>)
    requires |parts| > 0
    ensures StripNonEmpty(parts)
      == (if Strip(parts[0]) == "" then [] else [Strip(parts[0])]) + StripNonEmpty(parts[1..])
  {
  }

  // ---------------------------------------------------------------------------
  // Views and score

  /** `Project.increment_view_count`: one more view, and no other field written. */
  function IncrementViewCount(p: Project): (r: Project)
    ensures r.viewCount == p.viewCount + 1
    ensures r.(viewCount := p.viewCount) == p
  {
    p.(viewCount := p.viewCount + 1)
  }

  /** The validators on `performance_score`: a Lighthouse score in 0..100. */
  function ValidatePerformanceScore(score: int): (errors: seq<string>)
    ensures errors == [] <==> 0 <= score <= 100
    ensures score < 0 ==> errors == ["Ensure this value is greater than or equal to 0."]
    ensures score > 100 ==> errors == ["Ensure this value is less than or equal to 100."]
  {
    if score < 0 then ["Ensure this value is greater than or equal to 0."]
    else if score > 100 then ["Ensure this value is less than or equal to 100."]
    else []
  }

  // ---------------------------------------------------------------------------
  // Likes

  /** The client data stored with a like. */
  datatype ProjectLike = ProjectLike(ipAddress: Option<string>, userAgent: string)

  /** The `project_likes` table keyed by `(project, session_key)`: being a map,
      it holds at most one like per pair, as `unique_together` demands. */
  type LikeTable = map<(nat, string), ProjectLike>

  /** The sessions that like project `pk`. */
  function LikersOf(likes: LikeTable, pk: nat): set<string> {
    set k | k in likes && k.0 == pk :: k.1
  }

  /** `project.likes.count()`. */
  function LikeCount(likes: LikeTable, pk: nat): nat {
    |LikersOf(likes, pk)|
  }
}

=== FILE: requests.dfy ===
/** What the views read from a request: the client address, the user agent
    and the XHR marker. */
module Requests {
  import opened Wrappers
  import opened Text

  /** The request headers and session the modelled views read. */
  datatype Request = Request(
    forwardedFor: Option<string>,   // `HTTP_X_FORWARDED_FOR`
    remoteAddr: Option<string>,     // `REMOTE_ADDR`
    userAgent: Option<string>,      // `HTTP_USER_AGENT`
    requestedWith: Option<string>)  // the `X-Requested-With` header

  /** `get_client_ip`: the text before the first comma of `X-Forwarded-For`
      when that header is non-empty, else `REMOTE_ADDR`. Nothing is stripped. */
  function ClientIp(req: Request): (ip: Option<string>)
    ensures Truthy(req.forwardedFor) ==> ip.Some? && ',' !in ip.value
    ensures Truthy(req.forwardedFor) ==>
              req.forwardedFor.value == ip.value
              || (|ip.value| < |req.forwardedFor.value|
                  && req.forwardedFor.value[..|ip.value| + 1] == ip.value + ",")
    ensures !Truthy(req.forwardedFor) ==> ip == req.remoteAddr
  {
    if Truthy(req.forwardedFor) then Some(FirstSegment(req.forwardedFor.value, ','))
    else req.remoteAddr
  }

  /** A proxy chain `client, proxy1, proxy2` yields the client. */
  lemma ClientIpOfChain(req: Request, client: string, proxies: seq<string>)
    requires ',' !in client && client != ""
    requires forall i :: 0 <= i < |proxies| ==> ',' !in proxies[i]
    requires req.forwardedFor == Some(Join([client] + proxies, ","))
    ensures ClientIp(req) == Some(client)
  {
    var parts := [client] + proxies;
    SplitJoin(parts, ',');
    FirstSegmentIsFirstPart(Join(parts, ","), ',');
    if |proxies| > 0 {
      assert Join(parts, ",") == client + "," + Join(parts[1..], ",");
    }
  }

  /** `HTTP_USER_AGENT`, or `''` when absent. */
  function UserAgent(req: Request): (ua: string)
    ensures req.userAgent.Some? ==> ua == req.userAgent.value
    ensures req.userAgent.None? ==> ua == ""
  {
    OrEmpty(req.userAgent)
  }

  /** The user agent as the project views store it: cut to 255 characters. */
  function StoredUserAgent(req: Request): (ua: string)
    ensures |ua| <= 255
    ensures |ua| <= |UserAgent(req)| && ua == UserAgent(req)[..|ua|]
    ensures |UserAgent(req)| <= 255 ==> ua == UserAgent(req)
  {
    PrefixSlice(UserAgent(req), 255)
  }

  /** A posted id parameter such as `parent_id` or `media_item`: absent or
      empty, a number, or text an integer id column cannot take. */
  datatype IdParam = NoId | IdValue(id: int) | NotAnId(text: string)

  /** The parent a new reply gets, `objects.get(id=parent_id)` with a missing
      row ignored: the named row if it exists, none for an absent parameter
      or a missing row. Text that is not a number raises Django's lookup
      error, which the views do not catch. */
  function ResolveParent<V>(table: map<nat, V>, p: IdParam): (r: Result<Option<nat>, string>)
    ensures p.NoId? ==> r == Ok(None)
    ensures p.IdValue? && p.id >= 0 && p.id as nat in table ==> r == Ok(Some(p.id as nat))
    ensures p.IdValue? && !(p.id >= 0 && p.id as nat in table) ==> r == Ok(None)
    ensures r.Err? <==> p.NotAnId?
    ensures r.Ok? && r.value.Some? ==> r.value.value in table
  {
    match p
    case NoId => Ok(None)
    case IdValue(id) => if id >= 0 && id as nat in table then Ok(Some(id as nat)) else Ok(None)
    case NotAnId(text) => Err("Field 'id' expected a number but got '" + text + "'.")
  }

  /** The request was sent by `XMLHttpRequest`. */
  predicate IsXhr(req: Request) {
    req.requestedWith == Some("XMLHttpRequest")
  }
}

/** The page arithmetic of the AJAX comment loaders: ten top-level approved
    comments per page. */
module Pagination {
  import opened Wrappers

  const PerPage: nat := 10

  /** The JSON reply's page data. */
  datatype PageOf<T> = PageOf(items: seq<T>, hasNext: bool, nextPage: Option<int>)

  /** The page `page` of `all`: the slice `[(page-1)*10, page*10)`, whether
      more remain, and the next page number. A page below 1 gives a negative
      slice start, which the query set refuses. */
  function LoadPage<T>(all: seq<T>, page: int): (r: Result<PageOf<T>, string>)
    ensures r.Err? <==> page < 1
    ensures r.Ok? ==> |r.value.items| <= PerPage
    ensures r.Ok? ==> |r.value.items| == 0 || (page - 1) * PerPage + |r.value.items| <= |all|
    ensures r.Ok? ==> forall j :: 0 <= j < |r.value.items| ==> r.value.items[j] == all[(page - 1) * PerPage + j]
    ensures r.Ok? ==> (|r.value.items| == PerPage || (page - 1) * PerPage + |r.value.items| == |all|
                       || (page - 1) * PerPage >= |all|)
    ensures r.Ok? ==> (r.value.hasNext <==> |all| > page * PerPage)
    ensures r.Ok? ==> r.value.nextPage == (if r.value.hasNext then Some(page + 1) else None)
  {
    var start := (page - 1) * PerPage;
    var end := start + PerPage;
    if start < 0 then Err("Negative indexing is not supported.")
    else
      var lo := if start < |all| then start else |all|;
      var hi := if end < |all| then end else |all|;
      var hasNext := |all| > end;
      Ok(PageOf(all[lo..hi], hasNext, if hasNext then Some(page + 1) else None))
  }

  /** Every item is on exactly one page: item `i` is at position `i % 10` of
      page `i / 10 + 1`. */
  lemma ItemOnItsPage<T>(all: seq<T>, i: nat)
    requires i < |all|
    ensures LoadPage(all, i / PerPage + 1).Ok?
    ensures var p := LoadPage(all, i / PerPage + 1).value;
            i % PerPage < |p.items| && p.items[i % PerPage] == all[i]
  {
  }

  /** A page that has a next page is full. */
  lemma PageBeforeNextIsFull<T>(all: seq<T>, page: int)
    requires LoadPage(all, page).Ok? && LoadPage(all, page).value.hasNext
    ensures |LoadPage(all, page).value.items| == PerPage
  {
  }
}

=== FILE: signals.dfy ===
/** The project save signals: the flag that records whether the thumbnail
    changed, and the derivative images made after a save that changed it. */
module ProjectSignals {
  import opened Wrappers
  import opened Text
  import opened CoreModels
  import Projects

  // ---------------------------------------------------------------------------
  // pre_save

  /** The stored thumbnail name of each project, `''` when it has none. */
  type StoredThumbnails = map<nat, string>

  /** `project_pre_save`: a saved project compares its thumbnail with the
      stored one (a missing row counts as unchanged); a new project counts as
      changed exactly when it has a thumbnail. */
  function ThumbnailChanged(stored: StoredThumbnails, pk: Option<nat>, thumbnail: string): (changed: bool)
    ensures HasPk(pk) && pk.value in stored ==> (changed <==> stored[pk.value] != thumbnail)
    ensures HasPk(pk) && pk.value !in stored ==> !changed
    ensures !HasPk(pk) ==> (changed <==> thumbnail != "")
  {
    if HasPk(pk) then pk.value in stored && stored[pk.value] != thumbnail
    else thumbnail != ""
  }

  // ---------------------------------------------------------------------------
  // File names

  /** The index of the last `c` in `s`: Python's `s.rfind(c)`. */
  function LastIndex(s: string, c: char): (r: Option<nat>)
    ensures r.None? <==> c !in s
    ensures r.Some? ==> r.value < |s| && s[r.value] == c
    ensures r.Some? ==> forall j :: r.value < j < |s| ==> s[j] != c
  {
    if |s| == 0 then None
    else if s[|s| - 1] == c then Some(|s| - 1)
    else
      var r := LastIndex(s[..|s| - 1], c);
      assert r.None? ==> s == s[..|s| - 1] + [s[|s| - 1]];
      r
  }

  /** The last `c` of `x + [c] + y` is the one after `x` when `y` has none. */
  lemma LastIndexAfter(x: string, c: char, y: string)
    requires c !in y
    ensures LastIndex(x + [c] + y, c) == Some(|x|)
  {
    var s := x + [c] + y;
    assert s[|x|] == c;
    assert forall k :: 0 <= k < |y| ==> y[k] != c;
    assert forall j :: |x| < j < |s| ==> s[j] == y[j - |x| - 1];
  }

  /** `os.path.basename`: the text after the last `/`. */
  function Basename(path: string): (b: string)
    ensures '/' !in b
    ensures '/' !in path ==> b == path
  {
    match LastIndex(path, '/')
    case None => path
    case Some(i) => path[i + 1..]
  }

  /** `os.path.splitext(name)[0]` for a name without `/`: the text before the
      last dot, unless only dots come before it. */
  function SplitextRoot(name: string): (root: string)
    ensures |root| <= |name| && root == name[..|root|]
  {
    match LastIndex(name, '.')
    case None => name
    case Some(i) => if exists k :: 0 <= k < i && name[k] != '.' then name[..i] else name
  }

  /** A name `stem.ext` whose stem is not all dots splits at the dot before
      `ext`. */
  lemma RootOfStemDotExt(stem: string, ext: string)
    requires '.' !in ext
    requires exists k :: 0 <= k < |stem| && stem[k] != '.'
    ensures SplitextRoot(stem + "." + ext) == stem
  {
    LastIndexAfter(stem, '.', ext);
    var name := stem + "." + ext;
    var k :| 0 <= k < |stem| && stem[k] != '.';
    assert name[k] == stem[k];
    assert name[..|stem|] == stem;
  }

  /** The WebP file name: the thumbnail's stem with `.webp`. */
  function WebpName(path: string): string {
    SplitextRoot(Basename(path)) + ".webp"
  }

  /** The blur placeholder's file name: the thumbnail's stem with `_blur.jpg`. */
  function BlurName(path: string): string {
    SplitextRoot(Basename(path)) + "_blur.jpg"
  }

  lemma {:induction false} SplitKeepsAbsent(s: string, sep: char, c: char)
    requires c !in s
    ensures forall i :: 0 <= i < |Split(s, sep)| ==> c !in Split(s, sep)[i]
  {
    if |s| > 0 {
      SplitKeepsAbsent(s[1..], sep, c);
      assert forall j :: 0 <= j < |s[1..]| ==> s[1..][j] == s[j + 1];
    }
  }

  /** An upload name without `/` gives an extension without `/`. */
  lemma ThumbnailExtHasNoSlash(filename: string)
    requires '/' !in filename
    ensures '/' !in Projects.ThumbnailExt(filename)
  {
    SplitKeepsAbsent(filename, '.', '/');
    var ext := LastSegment(filename, '.');
    assert '/' !in ext;
    var low := Lower(ext);
    assert forall i :: 0 <= i < |ext| ==> ext[i] != '/';
    assert forall i :: 0 <= i < |low| ==> low[i] != '/';
  }

  /** For a thumbnail uploaded under `project_thumbnail_path`, the derivatives
      are named after `{slug}_{timestamp}`. */
  lemma DerivativeNamesOfThumbnail(mediaRoot: string, slug: string, timestamp: string, filename: string)
    requires '/' !in slug && '/' !in timestamp && '/' !in filename
    ensures var path := mediaRoot + "/" + Projects.ThumbnailPath(slug, timestamp, filename);
            && WebpName(path) == slug + "_" + timestamp + ".webp"
            && BlurName(path) == slug + "_" + timestamp + "_blur.jpg"
  {
    var ext := Projects.ThumbnailExt(filename);
    ThumbnailExtHasNoSlash(filename);
    var stem := slug + "_" + timestamp;
    var name := stem + "." + ext;
    var path := mediaRoot + "/" + Projects.ThumbnailPath(slug, timestamp, filename);
    assert path == (mediaRoot + "/projects/thumbnails") + "/" + name;
    assert '/' !in name;
    LastIndexAfter(mediaRoot + "/projects/thumbnails", '/', name);
    assert Basename(path) == name;
    assert stem[|slug|] == '_';
    RootOfStemDotExt(stem, ext);
  }

  // ---------------------------------------------------------------------------
  // post_save

  /** What an image generator gave back: content, nothing, or an exception. */
  datatype Generated = Content | Nothing | Raised

  /** The stored names of the two derivative fields, `''` when unset. */
  datatype Derivatives = Derivatives(webp: string, blur: string)

  /** The derivatives' upload directories. */
  const WebpDir: string := "projects/thumbnails/webp/"
  const BlurDir: string := "projects/thumbnails/blur/"

  /** The result of `project_post_save`: the derivative names as stored
      afterwards, whether the follow-up save ran, and whether an error was
      logged. */
  datatype PostSaveResult = PostSaveResult(stored: Derivatives, followUpSave: bool, errorLogged: bool)

  /** `project_post_save`. Nothing happens unless the thumbnail changed and is
      set. A missing file or a generator that raises is logged and the stored
      derivatives stay as they were; otherwise each generator that produced
      content sets its file, and the follow-up save (of the two derivative
      fields only) runs when either field is set. */
  function PostSave(changed: bool, thumbnail: string, path: string, fileExists: bool,
                    webp: Generated, blur: Generated, prior: Derivatives)
    : (r: PostSaveResult)
    ensures !changed || thumbnail == "" ==> r == PostSaveResult(prior, false, false)
    ensures r.errorLogged <==> changed && thumbnail != "" && (!fileExists || webp == Raised || blur == Raised)
    ensures r.errorLogged ==> r.stored == prior && !r.followUpSave
    ensures !r.followUpSave ==> r.stored == prior
    ensures r.followUpSave ==>
              && r.stored.webp == (if webp == Content then WebpDir + WebpName(path) else prior.webp)
              && r.stored.blur == (if blur == Content then BlurDir + BlurName(path) else prior.blur)
              && (r.stored.webp != "" || r.stored.blur != "")
  {
    if !changed || thumbnail == "" then PostSaveResult(prior, false, false)
    else if !fileExists then PostSaveResult(prior, false, true)
    else if webp == Raised || blur == Raised then PostSaveResult(prior, false, true)
    else
      var images := prior.(webp := if webp == Content then WebpDir + WebpName(path) else prior.webp);
      var images := images.(blur := if blur == Content then BlurDir + BlurName(path) else images.blur);
      if images.webp != "" || images.blur != "" then PostSaveResult(images, true, false)
      else PostSaveResult(prior, false, false)
  }

  /** The follow-up save leaves the thumbnail as stored, so its own
      `pre_save` sees no change and its `post_save` does nothing. */
  lemma FollowUpSaveDoesNotRetrigger(stored: StoredThumbnails, pk: nat, thumbnail: string, path: string,
                                     fileExists: bool, webp: Generated, blur: Generated, prior: Derivatives)
    requires pk != 0 && pk in stored && stored[pk] == thumbnail
    ensures !ThumbnailChanged(stored, Some(pk), thumbnail)
    ensures PostSave(ThumbnailChanged(stored, Some(pk), thumbnail), thumbnail, path, fileExists, webp, blur, prior)
            == PostSaveResult(prior, false, false)
  {
  }

  /** A project created with a thumbnail whose generators both produce
      content ends with both derivatives named after the thumbnail. */
  lemma NewThumbnailGetsDerivatives(stored: StoredThumbnails, thumbnail: string, path: string, prior: Derivatives)
    requires thumbnail != ""
    ensures var r := PostSave(ThumbnailChanged(stored, None, thumbnail), thumbnail, path, true, Content, Content, prior);
            r.followUpSave && r.stored == Derivatives(WebpDir + WebpName(path), BlurDir + BlurName(path))
  {
  }
}

=== FILE: tasks.dfy ===
/** The scheduled tasks that start the sync commands: which command runs, for
    which account, given the task argument and the configured settings. */
module Tasks {
  import opened Wrappers

  /** The settings the tasks read; `''` is an unset value. */
  datatype Settings = Settings(
    githubUsername: string,
    githubToken: Option<string>,
    devtoUsername: string,
    mediumUsername: string)

  /** A `sync_github` command run. */
  datatype GitHubCommand = GitHubCommand(username: string, token: Option<string>)

  /** `sync_github_repos`: the argument, else the configured username; with
      neither, nothing runs. The token always comes from the settings. */
  function GitHubTask(username: Option<string>, settings: Settings): (cmd: Option<GitHubCommand>)
    ensures Truthy(username) ==> cmd == Some(GitHubCommand(username.value, settings.githubToken))
    ensures !Truthy(username) && settings.githubUsername != "" ==>
              cmd == Some(GitHubCommand(settings.githubUsername, settings.githubToken))
    ensures cmd.None? <==> !Truthy(username) && settings.githubUsername == ""
  {
    var user := if !Truthy(username) && settings.githubUsername != "" then settings.githubUsername
                else OrEmpty(username);
    if user == "" then None else Some(GitHubCommand(user, settings.githubToken))
  }

  /** The blog sources the task can start. */
  datatype BlogSource = Devto | Medium

  /** A `sync_blog` command run. */
  datatype BlogCommand = BlogCommand(source: BlogSource, username: string)

  /** `sync_blog_posts`: a Dev.to sync for the argument or the configured
      Dev.to username; failing both, a Medium sync for the configured Medium
      username; failing that too, nothing. One source at most per run. */
  function BlogTask(username: Option<string>, settings: Settings): (cmd: Option<BlogCommand>)
    ensures Truthy(username) ==> cmd == Some(BlogCommand(Devto, username.value))
    ensures !Truthy(username) && settings.devtoUsername != "" ==>
              cmd == Some(BlogCommand(Devto, settings.devtoUsername))
    ensures !Truthy(username) && settings.devtoUsername == "" && settings.mediumUsername != "" ==>
              cmd == Some(BlogCommand(Medium, settings.mediumUsername))
    ensures cmd.None? <==> !Truthy(username) && settings.devtoUsername == "" && settings.mediumUsername == ""
  {
    var user := if !Truthy(username) && settings.devtoUsername != "" then settings.devtoUsername
                else OrEmpty(username);
    if user == "" then
      if settings.mediumUsername != "" then Some(BlogCommand(Medium, settings.mediumUsername)) else None
    else Some(BlogCommand(Devto, user))
  }

  /** Medium is synced only when no Dev.to account is known at all, and the
      account synced is never empty. */
  lemma BlogTaskPrefersDevto(username: Option<string>, settings: Settings)
    ensures var cmd := BlogTask(username, settings);
            && (cmd.Some? ==> cmd.value.username != "")
            && (cmd.Some? && cmd.value.source == Medium <==>
                  !Truthy(username) && settings.devtoUsername == "" && settings.mediumUsername != "")
  {
  }

  /** The GitHub task never runs a sync for an empty account. */
  lemma GitHubTaskNamesAccount(username: Option<string>, settings: Settings)
    ensures var cmd := GitHubTask(username, settings);
            cmd.Some? ==> && cmd.value.username != ""
                          && (cmd.value.username == settings.githubUsername || username == Some(cmd.value.username))
  {
  }
}

=== FILE: text.dfy ===
/** Python string operations the portfolio code relies on: `split`, `join`,
    `strip`, `lower`, slicing, `in`, `str(int)` and `replace`. Strings are
    sequences of Unicode scalar values. */
module Text {

  /** Python's `str.isspace()` for one character. */
  predicate IsSpace(c: char) {
    || ('\t' <= c <= '\r')
    || ('\U{1C}' <= c <= ' ')
    || c == '\U{85}' || c == '\U{A0}' || c == '\U{1680}'
    || ('\U{2000}' <= c <= '\U{200A}')
    || c == '\U{2028}' || c == '\U{2029}' || c == '\U{202F}'
    || c == '\U{205F}' || c == '\U{3000}'
  }

  predicate NoSpace(s: string) {
    forall i :: 0 <= i < |s| ==> !IsSpace(s[i])
  }

  predicate AllSpace(s: string) {
    forall i :: 0 <= i < |s| ==> IsSpace(s[i])
  }

  /** A string with no leading and no trailing whitespace. */
  predicate IsStripped(s: string) {
    |s| == 0 || (!IsSpace(s[0]) && !IsSpace(s[|s| - 1]))
  }

  // ---------------------------------------------------------------------------
  // Slicing

  /** Python's `s[:stop]`: a negative `stop` counts from the end. */
  function PrefixSlice<T>(s: seq<T>, stop: int): (r: seq<T>)
    ensures |r| <= |s| && r == s[..|r|]
    ensures 0 <= stop ==> |r| == (if stop < |s| then stop else |s|)
    ensures stop < 0 ==> |r| == (if |s| + stop < 0 then 0 else |s| + stop)
  {
    if 0 <= stop then s[..if stop < |s| then stop else |s|]
    else s[..if |s| + stop < 0 then 0 else |s| + stop]
  }

  // ---------------------------------------------------------------------------
  // strip

  /** Python's `s.lstrip()`. */
  function TrimLeft(s: string): (r: string)
    ensures |r| <= |s| && r == s[|s| - |r|..]
    ensures |r| == 0 || !IsSpace(r[0])
    ensures AllSpace(s[..|s| - |r|])
  {
    if |s| > 0 && IsSpace(s[0]) then
      var r := TrimLeft(s[1..]);
      assert s[..|s| - |r|] == [s[0]] + s[1..][..|s[1..]| - |r|];
      r
    else s
  }

  /** Python's `s.rstrip()`. */
  function TrimRight(s: string): (r: string)
    ensures |r| <= |s| && r == s[..|r|]
    ensures |r| == 0 || !IsSpace(r[|r| - 1])
    ensures AllSpace(s[|r|..])
  {
    if |s| > 0 && IsSpace(s[|s| - 1]) then
      var r := TrimRight(s[..|s| - 1]);
      assert s[|r|..] == s[..|s| - 1][|r|..] + [s[|s| - 1]];
      r
    else s
  }

  /** `r` sits at offset `i` of `s` with only whitespace before and after it. */
  predicate Framed(s: string, r: string, i: int) {
    0 <= i && i + |r| <= |s| && s[i..i + |r|] == r && AllSpace(s[..i]) && AllSpace(s[i + |r|..])
  }

  /** Python's `s.strip()`: `s` is the result framed by whitespace on both sides. */
  function Strip(s: string): (r: string)
    ensures IsStripped(r)
  {
    TrimRight(TrimLeft(s))
  }

  /** `s.strip()` is a slice of `s` with only whitespace cut on either side. */
  lemma StripIsFramed(s: string)
    ensures exists i :: Framed(s, Strip(s), i)
  {
    var t := TrimLeft(s);
    var r := TrimRight(t);
    var i := |s| - |t|;
    assert Strip(s) == r;
    assert s[i..i + |r|] == r;
    assert AllSpace(s[..i]);
    assert s[i + |r|..] == t[|r|..];
    assert AllSpace(s[i + |r|..]);
    assert Framed(s, r, i);
  }

  lemma {:induction false} TrimLeftSpaces(pre: string, x: string)
    requires AllSpace(pre)
    requires |x| == 0 || !IsSpace(x[0])
    ensures TrimLeft(pre + x) == x
  {
    if |pre| == 0 {
      assert pre + x == x;
    } else {
      assert (pre + x)[1..] == pre[1..] + x;
      TrimLeftSpaces(pre[1..], x);
    }
  }

  lemma {:induction false} TrimRightSpaces(x: string, post: string)
    requires AllSpace(post)
    requires |x| == 0 || !IsSpace(x[|x| - 1])
    ensures TrimRight(x + post) == x
  {
    if |post| == 0 {
      assert x + post == x;
    } else {
      assert (x + post)[..|x + post| - 1] == x + post[..|post| - 1];
      TrimRightSpaces(x, post[..|post| - 1]);
    }
  }

  /** Stripping a stripped string framed by whitespace gives it back. */
  lemma StripFramed(a: string, pre: string, post: string)
    requires IsStripped(a) && AllSpace(pre) && AllSpace(post)
    requires a != "" || post == ""
    ensures Strip(pre + a + post) == a
  {
    TrimLeftSpaces(pre, a + post);
    assert pre + a + post == pre + (a + post);
    TrimRightSpaces(a, post);
  }

  /** `s.strip()` is empty exactly when `s` is all whitespace. */
  lemma StripEmptyIffAllSpace(s: string)
    ensures Strip(s) == "" <==> AllSpace(s)
  {
    if Strip(s) == "" {
      StripIsFramed(s);
      var i :| Framed(s, Strip(s), i);
      forall j | 0 <= j < |s|
        ensures IsSpace(s[j])
      {
        if j < i {
          assert s[..i][j] == s[j];
        } else {
          assert s[i..][j - i] == s[j];
        }
      }
    }
    if AllSpace(s) {
      TrimLeftSpaces(s, "");
      assert s + "" == s;
    }
  }

  lemma StripOfStripped(s: string)
    requires IsStripped(s)
    ensures Strip(s) == s
  {
  }

  // ---------------------------------------------------------------------------
  // split(sep) and join

  /** Python's `s.split(sep)` for a one-character separator: never empty. */
  function Split(s: string, sep: char): (parts: seq<string>)
    ensures |parts| >= 1
    ensures forall i :: 0 <= i < |parts| ==> sep !in parts[i]
  {
    if |s| == 0 then [""]
    else
      var rest := Split(s[1..], sep);
      if s[0] == sep then [""] + rest
      else [[s[0]] + rest[0]] + rest[1..]
  }

  /** Python's `sep.join(parts)`. */
  function Join(parts: seq<string>, sep: string): string {
    if |parts| == 0 then ""
    else if |parts| == 1 then parts[0]
    else parts[0] + sep + Join(parts[1..], sep)
  }

  /** Joining the parts of a split with the same separator gives the string back. */
  lemma {:induction false} JoinSplit(s: string, sep: char)
    ensures Join(Split(s, sep), [sep]) == s
  {
    if |s| > 0 {
      var rest := Split(s[1..], sep);
      JoinSplit(s[1..], sep);
      if s[0] == sep {
        assert Split(s, sep) == [""] + rest;
        assert ([""] + rest)[1..] == rest;
        assert Join([""] + rest, [sep]) == "" + [sep] + Join(rest, [sep]);
        assert s == [sep] + s[1..];
      } else if |rest| == 1 {
        assert s == [s[0]] + s[1..];
      } else {
        calc {
          Join(Split(s, sep), [sep]);
          ([s[0]] + rest[0]) + [sep] + Join(rest[1..], [sep]);
          [s[0]] + (rest[0] + [sep] + Join(rest[1..], [sep]));
          [s[0]] + Join(rest, [sep]);
          s;
        }
      }
    }
  }

  /** Splitting a separator-free prefix glued to `x` extends the first part of `x`'s split. */
  lemma {:induction false} SplitFreePrefix(w: string, x: string, sep: char)
    requires sep !in w
    ensures Split(w + x, sep) == [w + Split(x, sep)[0]] + Split(x, sep)[1..]
  {
    if |w| == 0 {
      assert w + x == x;
      assert w + Split(x, sep)[0] == Split(x, sep)[0];
      assert Split(x, sep) == [Split(x, sep)[0]] + Split(x, sep)[1..];
    } else {
      SplitFreePrefix(w[1..], x, sep);
      assert (w + x)[1..] == w[1..] + x;
      assert [w[0]] + (w[1..] + Split(x, sep)[0]) == w + Split(x, sep)[0];
    }
  }

  /** Splitting a join of separator-free parts gives the parts back. */
  lemma {:induction false} SplitJoin(parts: seq<string>, sep: char)
    requires |parts| >= 1
    requires forall i :: 0 <= i < |parts| ==> sep !in parts[i]
    ensures Split(Join(parts, [sep]), sep) == parts
  {
    SplitFreePrefix(parts[0], "", sep);
    assert parts[0] + "" == parts[0];
    if |parts| > 1 {
      var tail := Join(parts[1..], [sep]);
      SplitJoin(parts[1..], sep);
      SplitFreePrefix(parts[0], [sep] + tail, sep);
      assert ([sep] + tail)[1..] == tail;
      assert Join(parts, [sep]) == parts[0] + ([sep] + tail);
      assert parts == [parts[0]] + parts[1..];
    }
  }

  /** Python's `s.split(sep)[0]`. */
  function FirstSegment(s: string, sep: char): (r: string)
    ensures sep !in r
    ensures |r| <= |s| && r == s[..|r|]
    ensures |r| == |s| || s[|r|] == sep
  {
    if |s| == 0 || s[0] == sep then "" else [s[0]] + FirstSegment(s[1..], sep)
  }

  lemma {:induction false} FirstSegmentIsFirstPart(s: string, sep: char)
    ensures FirstSegment(s, sep) == Split(s, sep)[0]
  {
    if |s| > 0 && s[0] != sep {
      FirstSegmentIsFirstPart(s[1..], sep);
    }
  }

  /** Python's `s.split(sep)[-1]`. */
  function LastSegment(s: string, sep: char): (r: string)
    ensures sep !in r
  {
    var parts := Split(s, sep);
    parts[|parts| - 1]
  }

  /** Without a separator, the last segment is the whole string. */
  lemma {:induction false} LastSegmentWithoutSep(s: string, sep: char)
    requires sep !in s
    ensures LastSegment(s, sep) == s
  {
    SplitJoin([s], sep);
  }

  /** With a separator, the last segment is exactly what follows the last separator. */
  lemma {:induction false} LastSegmentAfterSep(prefix: string, last: string, sep: char)
    requires sep !in last
    ensures LastSegment(prefix + [sep] + last, sep) == last
  {
    LastSegmentAppend(prefix, [sep] + last, sep);
    assert Split([sep] + last, sep) == [""] + Split(last, sep) by {
      assert ([sep] + last)[1..] == last;
    }
    SplitJoin([last], sep);
    assert prefix + [sep] + last == prefix + ([sep] + last);
  }

  /** A suffix that contains the separator decides the last segment on its own. */
  lemma {:induction false} LastSegmentAppend(prefix: string, x: string, sep: char)
    requires |Split(x, sep)| >= 2
    ensures Split(prefix + x, sep)[|Split(prefix + x, sep)| - 1] == Split(x, sep)[|Split(x, sep)| - 1]
    ensures |Split(prefix + x, sep)| >= 2
  {
    if |prefix| == 0 {
      assert prefix + x == x;
    } else {
      LastSegmentAppend(prefix[1..], x, sep);
      assert (prefix + x)[1..] == prefix[1..] + x;
      var rest := Split(prefix[1..] + x, sep);
      if prefix[0] == sep {
        assert Split(prefix + x, sep) == [""] + rest;
      } else {
        assert Split(prefix + x, sep) == [[prefix[0]] + rest[0]] + rest[1..];
      }
    }
  }

  // ---------------------------------------------------------------------------
  // split() on whitespace

  /** A non-empty run of non-whitespace characters. */
  predicate IsWord(w: string) {
    w != "" && NoSpace(w)
  }

  /** The pending word `cur`, as a list of zero or one words. */
  function Flush(cur: string): seq<string> {
    if cur == "" then [] else [cur]
  }

  /** Splits `s` on whitespace runs, with `cur` the word read so far. */
  function WordsFrom(s: string, cur: string): seq<string> {
    if |s| == 0 then Flush(cur)
    else if IsSpace(s[0]) then Flush(cur) + WordsFrom(s[1..], "")
    else WordsFrom(s[1..], cur + [s[0]])
  }

  /** Python's `s.split()`: the maximal runs of non-whitespace, in order. */
  function Words(s: string): seq<string> {
    WordsFrom(s, "")
  }

  lemma {:induction false} WordsFromAreWords(s: string, cur: string)
    requires NoSpace(cur)
    ensures forall i :: 0 <= i < |WordsFrom(s, cur)| ==> IsWord(WordsFrom(s, cur)[i])
  {
    if |s| > 0 {
      if IsSpace(s[0]) {
        WordsFromAreWords(s[1..], "");
      } else {
        WordsFromAreWords(s[1..], cur + [s[0]]);
      }
    }
  }

  /** Every element of `s.split()` is a non-empty, whitespace-free word. */
  lemma WordsAreWords(s: string)
    ensures forall i :: 0 <= i < |Words(s)| ==> IsWord(Words(s)[i])
  {
    WordsFromAreWords(s, "");
  }

  /** Reading a whitespace-free chunk only extends the pending word. */
  lemma {:induction false} WordsFromChunk(w: string, x: string, cur: string)
    requires NoSpace(w)
    ensures WordsFrom(w + x, cur) == WordsFrom(x, cur + w)
  {
    if |w| == 0 {
      assert w + x == x;
      assert cur + w == cur;
    } else {
      assert (w + x)[1..] == w[1..] + x;
      WordsFromChunk(w[1..], x, cur + [w[0]]);
      assert cur + [w[0]] + w[1..] == cur + w;
    }
  }

  /** Splitting single-space-joined words on whitespace gives the words back. */
  lemma {:induction false} WordsOfJoin(ws: seq<string>)
    requires forall i :: 0 <= i < |ws| ==> IsWord(ws[i])
    ensures Words(Join(ws, " ")) == ws
  {
    if |ws| == 1 {
      WordsFromChunk(ws[0], "", "");
      assert ws[0] + "" == ws[0];
      assert "" + ws[0] == ws[0];
    } else if |ws| > 1 {
      var tail := Join(ws[1..], " ");
      assert Join(ws, " ") == ws[0] + (" " + tail);
      WordsFromChunk(ws[0], " " + tail, "");
      assert "" + ws[0] == ws[0];
      assert (" " + tail)[1..] == tail;
      WordsOfJoin(ws[1..]);
      assert ws == [ws[0]] + ws[1..];
    }
  }

  /** Python's `len(s.split())`. */
  function WordCount(s: string): nat {
    |Words(s)|
  }

  // ---------------------------------------------------------------------------
  // lower() and containment

  /** Lower-cases ASCII letters; every other character is kept. */
  function LowerChar(c: char): (r: char)
    ensures 'A' <= c <= 'Z' ==> 'a' <= r <= 'z'
    ensures !('A' <= c <= 'Z') ==> r == c
  {
    if 'A' <= c <= 'Z' then (c as int + 32) as char else c
  }

  function Lower(s: string): (r: string)
    ensures |r| == |s|
    ensures forall i :: 0 <= i < |s| ==> r[i] == LowerChar(s[i])
  {
    seq(|s|, i requires 0 <= i < |s| => LowerChar(s[i]))
  }

  predicate ContainsAt(s: string, sub: string, i: int) {
    0 <= i && i + |sub| <= |s| && s[i..i + |sub|] == sub
  }

  /** Python's `sub in s`. */
  predicate Contains(s: string, sub: string) {
    exists i :: 0 <= i <= |s| - |sub| && ContainsAt(s, sub, i)
  }

  /** A case-insensitive `sub in s`, as a database `icontains` lookup does it. */
  predicate IContains(s: string, sub: string) {
    Contains(Lower(s), Lower(sub))
  }

  // ---------------------------------------------------------------------------
  // Decimal numerals

  function DigitChar(d: nat): (c: char)
    requires d < 10
    ensures '0' <= c <= '9' && c as int - '0' as int == d
  {
    ('0' as int + d) as char
  }

  predicate IsDigits(s: string) {
    forall i :: 0 <= i < |s| ==> '0' <= s[i] <= '9'
  }

  /** Python's `str(n)` for a natural number. */
  function NatToString(n: nat): (r: string)
    ensures |r| >= 1 && IsDigits(r)
  {
    if n < 10 then [DigitChar(n)] else NatToString(n / 10) + [DigitChar(n % 10)]
  }

  /** Python's `int(s)` for a string of decimal digits. */
  function ParseNat(s: string): nat
    requires IsDigits(s)
  {
    if |s| == 0 then 0 else ParseNat(s[..|s| - 1]) * 10 + (s[|s| - 1] as int - '0' as int)
  }

  lemma {:induction false} ParseNatToString(n: nat)
    ensures ParseNat(NatToString(n)) == n
  {
    if n >= 10 {
      var r := NatToString(n);
      ParseNatToString(n / 10);
      assert r[..|r| - 1] == NatToString(n / 10);
    }
  }

  /** Python's `str(i)` for any integer: a minus sign before negative ones. */
  function IntToString(i: int): (r: string)
    ensures i >= 0 ==> r == NatToString(i)
    ensures i < 0 ==> r == "-" + NatToString(-i)
  {
    if i < 0 then "-" + NatToString(-i) else NatToString(i)
  }

  /** A printed integer starts with a minus sign exactly when it is negative. */
  lemma IntToStringSign(i: int)
    ensures |IntToString(i)| >= 1
    ensures IntToString(i)[0] == '-' <==> i < 0
  {
    if i >= 0 {
      assert IsDigits(NatToString(i));
    }
  }

  /** Different integers print differently. */
  lemma IntToStringInjective(a: int, b: int)
    requires IntToString(a) == IntToString(b)
    ensures a == b
  {
    IntToStringSign(a);
    IntToStringSign(b);
    if a < 0 {
      assert IntToString(a)[1..] == NatToString(-a);
      assert IntToString(b)[1..] == NatToString(-b);
      NatToStringInjective(-a, -b);
    } else {
      NatToStringInjective(a, b);
    }
  }

  lemma NatToStringInjective(a: nat, b: nat)
    requires NatToString(a) == NatToString(b)
    ensures a == b
  {
    ParseNatToString(a);
    ParseNatToString(b);
  }

  // ---------------------------------------------------------------------------
  // replace

  /** Python's `s.replace(c, rep)` for a one-character pattern. */
  function ReplaceChar(s: string, c: char, rep: string): (r: string)
    ensures c !in s ==> r == s
    ensures c !in rep ==> c !in r
  {
    if |s| == 0 then ""
    else (if s[0] == c then rep else [s[0]]) + ReplaceChar(s[1..], c, rep)
  }
}

=== FILE: wrappers.dfy ===
/** Failure-compatible result types shared by every module of the model. */
module Wrappers {

  /** A value that may be absent: Python's `None` versus a present value. */
  datatype Option<+T> = None | Some(value: T) {

    /** The present value, or `default` when absent. */
    function GetOr(default: T): T {
      match this
      case Some(v) => v
      case None => default
    }
  }

  /** The outcome of an operation that may raise: a value or an error message. */
  datatype Result<+R, +E> = Ok(value: R) | Err(error: E)

  /** Python's `x or ''` for an optional string: `None` and `''` both become `''`. */
  function OrEmpty(x: Option<string>): (r: string)
    ensures x.None? ==> r == ""
    ensures x.Some? ==> r == x.value
  {
    x.GetOr("")
  }

  /** Python truthiness of an optional string: present and non-empty. */
  predicate Truthy(x: Option<string>) {
    x.Some? && x.value != ""
  }
}

/** Points in time, as whole seconds. Clock readings (`timezone.now()`) and
    parsed timestamps enter the model as values of this type. */
module Clock {
  type Instant = int
}
